=== FILE: README.md ===
# A verified model of the client_bot shop core

This project models the core of a Telegram shop bot built on aiogram and Django:

- the relational store behind it: clients, one cart per client, cart items, orders with frozen order items, and the category / subcategory / product catalog;
- the cart, order and catalog database operations;
- the checkout conversation, `OrderForm`;
- the payment handlers;
- the catalog browser with its paginated keyboards and callback data;
- the cart screen and its remove buttons;
- `/start` registration and the subscription check;
- the FAQ inline search.

The store is an immutable value (`Schema.Store`): eight tables of rows, each with its id sequence. A table's rows are kept in insertion order, which is primary-key order, and every query is taken to return them in that order (see "## Left out"). Every operation is a pure function from a store and an update to a new store and a result. Money is integer kopecks, because every money column has two decimal places. A call that raises carries a `Schema.Fault`. A call that raises part-way keeps whatever it had already committed, because each ORM call commits on its own.

Modules, in dependency order:

| module | file | what it holds |
|---|---|---|
| `Wrappers` | wrappers.dfy | `Option` and `Result` |
| `PyStr` | pystr.dfy | Python's `strip`, `split`, `startswith`, `in`, `str(int)`, `int(str)` and `str(Decimal)` over `seq<char>` |
| `Tables` | tables.dfy | a table of rows: get, insert, filter, delete, update, bulk insert |
| `Schema` | schema.dfy | the entities, the schema constraints (`Valid`) and the `on_delete` rules |
| `CatalogDb` | catalog_db.dfy | `get_client`, `create_client`, `get_product`, the sliced listings and their counts |
| `CartDb` | cart_db.dfy | `add_to_cart`, `get_cart_items`, `remove_from_cart`, `clear_cart` |
| `OrderDb` | order_db.dfy | `create_order`, `get_order` |
| `Keyboards` | keyboards.dfy | inline buttons and keyboards |
| `Checkout` | checkout.dfy | the `OrderForm` conversation |
| `Payment` | payment.dfy | `process_payment`, `cancel_payment`, `pre_checkout_query`, `process_successful_payment` |
| `CatalogHandlers` | catalog_handlers.dfy | `generate_pagination_keyboard`, the catalog routing and its screens |
| `CartHandlers` | cart_handlers.dfy | `cart_handler` and `remove_from_cart_handler` |
| `Start` | start.dfy | `start_command`, `check_subscription` |
| `Faq` | faq.dfy | `faq_inline_query` over `FAQ_DICT` |

The `Client` entity has a `username` column. `django_app/clients/models.py` does not declare it, but `create_client` writes it, and migration 0003 depends on the migration `0002_client_username` that adds it. That migration is not part of this model; the entity follows the column set the migrations produce.

`get_cart_items` of an unknown user raises. `get_client` returns `None` for them, and `client.id` then raises `AttributeError` (`bot/database/cart_db.py:28-29`), which the handler logs and raises again. Only a registered client without a cart gets `[]`, through the `Cart.DoesNotExist` branch. `CartDb.GetCartItems` raises `NoneAttribute` for an unknown user, and so do the cart screen and the checkout step that call it.

## Model

| member | source | states |
|---|---|---|
| CatalogDb.GetClient | bot/database/catalog_db.py:18-22 | the client with that Telegram id, or `None` exactly when no client has it; never an error |
| CatalogDb.GetClientUnique | django_app/clients/models.py:4 | under the unique `tg_id`, the client `get_client` finds for an id is the only client with it |
| CatalogDb.CreateClient | bot/database/catalog_db.py:12-15 | the insert succeeds exactly when the id is new, and is refused with `IntegrityError` otherwise; afterwards `get_client` finds the new row, and every other id finds what it found before |
| CatalogDb.GetProduct | bot/database/catalog_db.py:36-40 | the stored product for an existing id, `None` exactly for a missing one |
| CatalogDb.Slice | bot/database/catalog_db.py:43-55 | queryset slicing: a negative bound raises; otherwise the contiguous run from `offset`, at most `limit` long, clipped at the end of the list |
| CatalogDb.GetCategories | bot/database/catalog_db.py:43-45 | fails exactly for a negative slice bound; otherwise every row returned is a stored category |
| CatalogDb.GetSubcategories | bot/database/catalog_db.py:48-50 | fails exactly for a negative slice bound; otherwise every row returned is a stored subcategory of that category |
| CatalogDb.GetProducts | bot/database/catalog_db.py:53-55 | fails exactly for a negative slice bound; otherwise every row returned is a stored product of that subcategory |
| CatalogDb.CountCategories | bot/database/catalog_db.py:58-60 | 0 exactly when there is no category |
| CatalogDb.CountSubcategories | bot/database/catalog_db.py:63-65 | 0 exactly when no subcategory belongs to the category |
| CatalogDb.CountProducts | bot/database/catalog_db.py:68-70 | 0 exactly when no product belongs to the subcategory |
| CatalogDb.SubcategoriesOf | bot/database/catalog_db.py:48-50 | exactly the subcategories of the category, in table order (filter, then slice) |
| CatalogDb.ProductsOf | bot/database/catalog_db.py:53-55 | exactly the products of the subcategory, in table order |
| CatalogDb.PagesCoverAll | bot/database/catalog_db.py:9 | pages 0 .. ceil(n / ITEMS_PER_PAGE) - 1 of a listing, concatenated, give the whole listing back |
| CatalogDb.CategoryPagesCoverAll | bot/database/catalog_db.py:43-60 | `count_categories` is the unsliced length, and the pages it implies give back all categories in order |
| CatalogDb.SubcategoryPagesCoverAll | bot/database/catalog_db.py:48-65 | the same for the subcategories of one category |
| CatalogDb.ProductPagesCoverAll | bot/database/catalog_db.py:53-70 | the same for the products of one subcategory |
| Schema.DeleteCart | django_app/clients/migrations/0003_cart_order_orderitem_cartitem.py:49 | deleting a cart deletes exactly its items, keeps every constraint, and touches no other table |
| Schema.DeleteOrder | django_app/clients/migrations/0003_cart_order_orderitem_cartitem.py:40 | deleting an order deletes exactly its items and keeps every constraint |
| Schema.DeleteProduct | django_app/clients/migrations/0003_cart_order_orderitem_cartitem.py:41-50 | deleting a product deletes the cart items and the order items that refer to it, keeps the orders and keeps every constraint |
| Schema.DeleteSubcategory | django_app/products/models.py:23 | deleting a subcategory keeps every product row in place and unchanged, except that a reference to the deleted subcategory is cleared |
| Schema.DeleteCategory | django_app/products/models.py:13 | deleting a category deletes exactly its subcategories; every product row stays in place and unchanged, except that a reference to one of those subcategories is cleared; every constraint still holds |
| CartDb.GetOrCreateCart | bot/database/cart_db.py:12 | the client's existing cart is reused unchanged; a cart is created only for a client without one |
| CartDb.AtMostOneLine | django_app/clients/migrations/0003_cart_order_orderitem_cartitem.py:53 | under `unique_together (cart, product)` a pair has at most one item row |
| CartDb.AddToCart | bot/database/cart_db.py:9-22 | an unknown user raises before anything is written; only the cart tables change; errors are `NoneAttribute` or the database's `IntegrityError` |
| CartDb.AddToCartValid | bot/database/cart_db.py:9-22 | `add_to_cart` keeps every schema constraint, whether it succeeds or not |
| CartDb.AddToLineEffect | bot/database/cart_db.py:14-21 | adding to a pair succeeds exactly when the product exists and old + given >= 0; the pair then has one item holding old + given; other pairs are untouched; a refused update of an existing item leaves the store as it was; a refused save on a new item leaves it holding the default 1 |
| CartDb.AddToCartEffect | bot/database/cart_db.py:9-22 | for a registered user: the user's existing cart is kept; success exactly when the product exists and the quantity stays >= 0; the user's one item for the product then holds old + given; a refused add to an item the user already has changes nothing; no other pair changes |
| CartDb.AddNegativeLeavesDefault | bot/database/cart_db.py:14-21 | a negative first add raises, yet the item created by `get_or_create` stays behind with quantity 1 |
| CartDb.AddOnce | bot/database/cart_db.py:14-21 | one successful add grows the user's quantity by q and leaves exactly one item for the pair |
| CartDb.AddAllAccumulates | bot/database/cart_db.py:14-21 | n adds of q1..qn, with every running total >= 0, all succeed and leave one item holding old + q1 + ... + qn |
| CartDb.GetCartItems | bot/database/cart_db.py:25-41 | an unknown user raises, a user without a cart gets `[]`, otherwise the user's cart lines |
| CartDb.Join | bot/database/cart_db.py:34 | with every product present, one line per item, in order, with the item's id, product and quantity |
| CartDb.CartListingSound | bot/database/cart_db.py:34 | every listed line carries its stored product and the quantity of its pair |
| CartDb.CartListingComplete | bot/database/cart_db.py:34 | every item of the cart, whatever its quantity (0 included), is listed with its id, product and quantity, and the listed item ids are strictly increasing, so no item is listed twice |
| CartDb.GetCartItemsExact | bot/database/cart_db.py:25-35 | for a registered user the listing is exact: each line is a stored item with the quantity the user holds, every item of the user's cart is listed (quantity 0 included), and no item id appears twice |
| CartDb.CartLinesStorable | bot/database/cart_db.py:34 | listed lines name existing products and have quantities >= 0 |
| CartDb.RemoveFromCart | bot/database/cart_db.py:44-51 | only the cart item table changes; a missing id leaves the store as it was |
| CartDb.RemoveFromCartEffect | bot/database/cart_db.py:44-48 | exactly the item with that id is gone, every other item stays, and every constraint still holds |
| CartDb.RemoveFromCartLine | bot/database/cart_db.py:44-48 | removing a pair's item empties that pair and leaves every other pair |
| CartDb.RemoveFromCartTwice | bot/database/cart_db.py:50-51 | removing the same id twice is removing it once |
| CartDb.ClearCart | bot/database/cart_db.py:57-70 | exactly the items of the carts whose client has this Telegram id are deleted; carts and every other table stay |
| CartDb.ClearCartIsDelete | bot/database/cart_db.py:59-66 | the `aexists()` early return gives the same store as deleting unconditionally |
| CartDb.ClearCartValid | bot/database/cart_db.py:57-70 | clearing keeps every constraint, and clearing again changes nothing |
| CartDb.ClearCartEmpties | bot/database/cart_db.py:59-66 | afterwards the user holds nothing, and a registered user's cart lists `[]` |
| CartDb.ClearCartOthers | bot/database/cart_db.py:59-66 | every other user holds exactly what they held before |
| OrderDb.GetOrder | bot/database/order_db.py:6-12 | the stored order for an existing id, `DoesNotExist` for a missing one, never `None` |
| OrderDb.Snapshot | bot/database/order_db.py:26-29 | one order item per cart line, in order, with the line's product and quantity |
| OrderDb.CreateOrder | bot/database/order_db.py:15-32 | only the order tables change; a failure adds no items; success needs every field present; a value too wide for its column is refused with `DataError` before anything is written, ahead of the NOT NULL `IntegrityError` of an unknown user or a missing text |
| OrderDb.CreateOrderOutcome | bot/database/order_db.py:15-32 | success exactly when the client exists, the fields fit their columns and every line is storable; then one new order, owned by the user's client, carrying the given fields and total unchanged, and its items bulk-inserted; whenever the order row is accepted it is appended under the next id, even if the items are then refused; a refused `create_order` adds no items; when the order row itself is refused (unknown client, a missing text, a field too wide) nothing at all is written |
| OrderDb.CreateOrderSnapshot | bot/database/order_db.py:18-30 | the new order's items are exactly one per cart line with the same product and quantity, and `get_order` finds the order |
| OrderDb.CreateOrderValid | bot/database/order_db.py:15-32 | `create_order` keeps every schema constraint, whether it succeeds or not |
| Checkout.TotalAppend | bot/handlers/order.py:65 | the total of two runs of lines is the sum of their totals |
| Checkout.Total | bot/handlers/order.py:65 | lines with prices and quantities >= 0 total >= 0 |
| Checkout.Step | bot/handlers/order.py:21-45 | the checkout button enters `full_name` from any state and keeps the stored data; outside the address step nothing is written and nothing raises; with no form state a message is not taken and nothing changes |
| Checkout.StartOrder | bot/handlers/order.py:21-26 | the checkout button asks for the full name and enters `full_name` from any state, without looking at the cart or the store |
| Checkout.ProcessFullName | bot/handlers/order.py:29-34 | any text, even none, is stored unvalidated as the full name; the other data stays; the state moves to `phone` |
| Checkout.ProcessPhone | bot/handlers/order.py:37-42 | any text is stored unvalidated as the phone; the state moves to `address` |
| Checkout.PayKeyboard | bot/handlers/order.py:78-83 | two buttons: "pay_{id}" and "cancel_order" |
| Checkout.ProcessAddress | bot/handlers/order.py:45-86 | an exception leaves the chat as it was and sends nothing; otherwise the chat is cleared and one reply is sent |
| Checkout.StepConsistent | bot/handlers/order.py:15-45 | every handled update keeps "waiting for the phone implies a stored name, waiting for the address implies a stored name and phone" |
| Checkout.ConsistentNoKeyError | bot/handlers/order.py:53-54 | in such a chat the address step never raises `KeyError` |
| Checkout.Run | bot/handlers/order.py:21-86 | any run of updates keeps every schema constraint |
| Checkout.RunConsistent | bot/handlers/order.py:15-45 | a consistent chat stays consistent under any run of updates |
| Checkout.StepValid | bot/handlers/order.py:21-86 | a single update keeps every schema constraint |
| Checkout.AddressPlacesOrder | bot/handlers/order.py:53-86 | with a non-empty cart: an order is placed exactly when `create_order` accepts it; the order has the stored name and phone, the message text as address and the sum of price x quantity as total; its items are the cart lines; the cart is untouched; the pay button carries its id; the chat is cleared; otherwise the step raises `IntegrityError` or `DataError`, writes nothing and keeps the chat waiting |
| Checkout.AddressUnregistered | bot/handlers/order.py:57 | an unregistered user gets the exception of `get_cart_items`; nothing is written and the chat keeps waiting |
| Checkout.AddressEmptyCart | bot/handlers/order.py:60-63 | an empty cart gets the empty-cart answer; no order is created and the chat is cleared |
| Checkout.CheckoutConversation | bot/handlers/order.py:21-86 | from any chat, the button and two messages that reach this router (not a command, in the text or the caption, or a menu label that an earlier router takes) store both message texts unchanged and write nothing; the fourth message places the order exactly when it is placeable |
| Checkout.CaptionedCommandTaken | bot/handlers/start.py:24-32 | a message without text whose caption is `/start` or `/help`, with or without arguments, is taken by the start router and never reaches the form |
| Payment.InvoiceEffects | bot/handlers/payment.py:50-66 | the invoice comes first with payload `str(id)` and cancel data "cancel_pay_{id}"; the refusal notice appears exactly when Telegram refuses; the instructions always come last |
| Payment.ProcessPayment | bot/handlers/payment.py:19-66 | the store is unchanged; the only escaping exception is `DoesNotExist`, with nothing sent |
| Payment.PayButtonInvoice | bot/handlers/payment.py:25-66 | the pay button of an existing order brings up that order's invoice, and the instructions follow whether or not it was refused |
| Payment.NonIntegerIdRejected | bot/handlers/payment.py:25-33 | a second "_" field that is not an integer gets the error message and no invoice |
| Payment.MissingOrderEscapes | bot/handlers/payment.py:26-30 | the id of a missing order escapes as `DoesNotExist`: the user gets no answer |
| Payment.ProcessPaymentFixed | bot/handlers/payment.py:28-33 | with the missing order caught as well, nothing escapes and the store is unchanged |
| Payment.FixedAnswersEveryPress | bot/handlers/payment.py:25-66 | every "pay_" press is answered: the invoice exactly when the id parses and names an order, the error message otherwise |
| Payment.FixedAgreesWhenAnswered | bot/handlers/payment.py:25-66 | the corrected handler does what the written one does wherever that one answers |
| Payment.CancelPayment | bot/handlers/payment.py:69-74 | a notice; no store change, no invoice, no confirmation |
| Payment.PreCheckout | bot/handlers/payment.py:77-81 | every query is answered once, with ok = true |
| Payment.Exported | bot/handlers/payment.py:92-95 | the order row is exported unless the export fails or the order is missing |
| Payment.ProcessSuccessfulPayment | bot/handlers/payment.py:84-106 | a payload that is not an integer raises before anything happens; otherwise the confirmation for the parsed id always comes last; orders are never changed |
| Payment.PayloadRoundTrip | bot/handlers/payment.py:55-87 | the invoice payload of an order is parsed back to the same id, which the success handler confirms and exports when the payment message reaches it (outside a checkout form state) |
| Payment.SuccessStepsIsolated | bot/handlers/payment.py:92-106 | the cart is cleared whenever its delete succeeds; the export effects do not depend on the clear failing; the confirmation ends the effects either way |
| Payment.SuccessClearsPayer | bot/handlers/payment.py:88-99 | the cart cleared is the payer's, whatever order the payload names; every other user keeps what they hold |
| CatalogHandlers.NavRow | bot/handlers/catalog.py:21-25 | "back" to page-1 exactly when page > 0; "forward" to page+1 exactly when (page+1) x ITEMS_PER_PAGE < total; no other button |
| CatalogHandlers.PaginationKeyboard | bot/handlers/catalog.py:17-30 | one row per item, in order, with data "{prefix}_{id}"; the navigation row is appended only when it is non-empty |
| CatalogHandlers.All | bot/database/catalog_db.py:58-70 | the unsliced listing of a level has exactly the length its `count_*` returns |
| CatalogHandlers.FetchIsPage | bot/database/catalog_db.py:43-55 | a fetch at offset page x ITEMS_PER_PAGE fails exactly for a negative page; otherwise it is that page of the unsliced listing |
| CatalogHandlers.ListingScreen | bot/handlers/catalog.py:47-51 | a negative page raises; otherwise the keyboard of that page of the listing, with the unsliced count and the level's prefix |
| CatalogHandlers.CatalogCommand | bot/handlers/catalog.py:33-40 | "🛍 Каталог" shows the first category page: one button per category with data "category_{id}", and a last row with the forward button to "category_page_1" exactly when there are more than ITEMS_PER_PAGE categories |
| CatalogHandlers.CatalogCommandLeads | bot/handlers/catalog.py:33-55 | each category button of that screen opens its category, and its forward button shows category page 1 |
| CatalogHandlers.NavigationMatchesPages | bot/handlers/catalog.py:22-25 | "forward" exactly when the next page has rows, that is, before the page count; "back" exactly after the first page |
| CatalogHandlers.IntField | bot/handlers/catalog.py:59-72 | `int(parts[i])`: `IndexError` past the end, `ValueError` for text that is not an integer |
| CatalogHandlers.Route | bot/handlers/catalog.py:43-107 | the first `startswith` filter in registration order; no handler exactly when the data starts with none of the three names |
| CatalogHandlers.ParseAsWritten | bot/handlers/catalog.py:43-111 | the router as written: unrouted exactly when no filter matches |
| CatalogHandlers.RouteCategoryPage | bot/handlers/catalog.py:43-55 | "category_page_N" reaches the page handler before the generic "category_" one |
| CatalogHandlers.RouteSubcategory | bot/handlers/catalog.py:67-81 | every data string built on the prefix "subcategory_{id}" reaches the opening handler, never the pager |
| CatalogHandlers.RouteProduct | bot/handlers/catalog.py:93-107 | the same for "product_{id}" |
| CatalogHandlers.CategoryPageAsWritten | bot/handlers/catalog.py:43-50 | "category_page_N" is read as page N from the last field |
| CatalogHandlers.CategoryItemsAgree | bot/handlers/catalog.py:19-59 | a category button "category_{id}" opens that category, and the corrected router agrees |
| CatalogHandlers.ItemRouteAsWritten | bot/handlers/catalog.py:19-111 | an item button opens its item only in the category listing; in a nested listing it opens the item named by the parent's id |
| CatalogHandlers.SubcategoryButtonMisread | bot/handlers/catalog.py:62-85 | the button of subcategory 2 in the listing of category 1, "subcategory_1_2", opens subcategory 1 |
| CatalogHandlers.PageRouteAsWritten | bot/handlers/catalog.py:23-85 | as written, only category page buttons page; a nested page button reaches the opening handler, which opens the subcategory or product whose own id equals the parent's id, a row of another table |
| CatalogHandlers.NestedPageHandlersFail | bot/handlers/catalog.py:67-99 | the nested page handlers raise `ValueError` on every data they accept, because field 1 is "page" |
| CatalogHandlers.ParseFixed | bot/handlers/catalog.py:43-111 | the corrected router reads only the fields the keyboards put there; its only failure is `ValueError` |
| CatalogHandlers.ItemRouteFixed | bot/handlers/catalog.py:19-88 | with the corrected router every item button opens its item, on every level |
| CatalogHandlers.PageRouteFixed | bot/handlers/catalog.py:23-102 | with the corrected router every page button leads to that page of that listing |
| CatalogHandlers.CategoryPagesAgree | bot/handlers/catalog.py:43-50 | both routers read "category_page_N" as page N |
| CatalogHandlers.ListingButtonsLeadFixed | bot/handlers/catalog.py:17-30 | with the corrected router the k-th button opens the k-th entry of the page, and a navigation button leads to the previous or the next page |
| CatalogHandlers.Show | bot/handlers/catalog.py:114-124 | a missing product gets the alert; an existing one raises `TypeError` at `os.path(...)`; a failed parse raises its fault |
| CatalogHandlers.ProductScreen | bot/handlers/catalog.py:114-124 | a product button gives the alert exactly for a missing product, and `TypeError` otherwise |
| CartHandlers.CartKeyboard | bot/handlers/cart.py:32-49 | one remove row per line, in order, then the checkout row |
| CartHandlers.CartView | bot/handlers/cart.py:13-49 | an error message exactly when reading the cart raises; the empty message, with no keyboard, exactly for no lines; the listing keyboard otherwise |
| CartHandlers.CheckoutOnlyLast | bot/handlers/cart.py:25-49 | the checkout button appears only with a non-empty cart, once, as the last row |
| CartHandlers.ParseRemove | bot/handlers/cart.py:62 | `int(data.split(":")[1])`: fails exactly when there is no second field or it is not an integer |
| CartHandlers.RemoveDataRoundTrip | bot/handlers/cart.py:33-62 | the data of a remove button reads back as its item id, with the packing "remove:{id}" |
| CartHandlers.RemovePress | bot/handlers/cart.py:59-68 | any parse or delete failure gives the alert and changes nothing; otherwise the parsed item is removed |
| CartHandlers.ListedLineStored | bot/handlers/cart.py:32-33 | every listed line is a stored cart item of that product |
| CartHandlers.RemoveButtonRemovesLine | bot/handlers/cart.py:33-65 | the remove button of the k-th line deletes exactly that item, and every constraint still holds |
| CartHandlers.BadRemoveDataAlerts | bot/handlers/cart.py:61-68 | a second ":" field that is not an integer gets the alert and changes nothing |
| CartHandlers.StaleRemoveIsNoOp | bot/handlers/cart.py:64-65 | a press for an item already removed answers "removed" and changes nothing |
| Start.DisplayName | bot/handlers/start.py:37-39 | the username when it is non-empty, "пользователь" when it is empty or missing |
| Start.StartCommand | bot/handlers/start.py:32-39 | a known user is welcomed back and nothing is written; an unknown one gets exactly one new client with the current username, and no other id changes |
| Start.StartIdempotent | bot/handlers/start.py:34-39 | a second `/start` writes nothing and welcomes back under the name stored the first time |
| Start.CheckSubscription | bot/handlers/start.py:47-49 | a lookup that raised counts as not subscribed |
| Start.SubscribedStatuses | bot/handlers/start.py:46 | over the statuses Telegram reports, subscribed exactly for creator, administrator and member |
| Faq.Matches | bot/handlers/faq.py:130-131 | an entry is kept exactly when its lower-cased question contains the query |
| Faq.MatchesAppend | bot/handlers/faq.py:130-131 | the hits keep the order of the entries they come from |
| Faq.FaqSearch | bot/handlers/faq.py:112-158 | the result is never empty |
| Faq.EmptyQueryListsAll | bot/handlers/faq.py:116-127 | an empty normalised query lists every question, in dictionary order |
| Faq.QueryListsMatches | bot/handlers/faq.py:128-158 | a non-empty query lists exactly the matching questions, in order, or only "not_found" when none match; an entry's result is listed exactly when its question contains the query |
| Faq.SearchListsExactlyMatches | bot/handlers/faq.py:129-141 | with distinct questions, none of them "not_found", an entry's result is listed exactly when its question contains the query |
| Faq.FaqWellKeyed | bot/handlers/faq.py:11-69 | the questions of `FAQ_DICT` are distinct and none is "not_found" |
| PyStr.StripSpec | bot/handlers/faq.py:112 | `strip()` leaves a contiguous part of the input with non-space ends, and cuts only whitespace |
| PyStr.Split | bot/handlers/catalog.py:59 | `split` returns at least one piece, and no piece contains the separator |
| PyStr.IntRoundTrip | bot/handlers/payment.py:55-87 | `int(str(n)) == n` for every integer |
| PyStr.ParseRejectsLetter | bot/handlers/catalog.py:72 | text holding a letter never parses as an integer (`int("page")` raises) |
| PyStr.IntToStr | bot/handlers/payment.py:55 | `str(n)` is non-empty, digits with at most a leading minus, and never holds `_` or `:`, so it survives the callback splits |
| PyStr.ParseInt | bot/handlers/payment.py:87 | `int()` succeeds only on stripped, non-empty text of digits and underscores with at most a leading sign; a negative result has a leading minus |
| PyStr.MoneyStr | bot/handlers/order.py:75 | `str(total)` for two decimal places: at least four characters, with the point third from the end |
| PyStr.MoneyRoundTrip | bot/handlers/order.py:75 | the text of a two-decimal amount reads back as the same number of kopecks |

## Left out

- Telegram I/O: sending, editing and deleting messages, invoices and pre-checkout answers. These are effect records (`Payment.Effect`, `Checkout.Reply`, `CatalogHandlers.Screen`) without their wording, emoji or layout. Polling and startup are not modelled; the order of the routers is taken up below.
- The invoice amount `int(float(total_price) * 100)`. It goes through binary floating point and can lose a kopeck, so the invoice carries the order's text total and its id only.
- The Excel export. It is file I/O; `exportFails` says whether it raised, and a missing order makes it fail.
- Concurrency and atomicity of `aget_or_create` and of the `F('quantity') + q` update. Operations run one after the other.
- Image loading in `product_handler`. `os.path(...)` is called as a function and always raises `TypeError`, so the image and the add-to-cart button are never shown.
- `bot/kbds/catalog_kbds.py`, which depends on a `Paginator` class that is not part of this model.
- `bot/handlers/callback.py`. The packing of `RemoveFromCartCallback` is aiogram's, and the model takes it to be "remove:{id}".
- `bot/database.py`, a duplicate `get_client` that raises instead of returning `None`.
- `help_command`, `faq_command` (fixed text), configuration, logging and admin registration.
- The "cancel_order" button under the order summary. No handler in the shown code answers it.
- The FAQ router is not included in the routers `bot/management/commands/runbot.py` registers. The search is modelled as if it were reachable.
- `Faq.FaqSearch`: Unicode `lower()` and `capitalize()` are parameters, not Python's case mapping. The exception handler around the search, which only guards the Telegram call, is not modelled.
- Column widths of integers: the upper bounds of `PositiveIntegerField` and `BigIntegerField` (an out-of-range quantity or Telegram id) are not modelled; only the sign check on quantities is.
- The `Decimal` context. Prices and totals are exact kopecks, and a total that does not fit `max_digits=10` is refused with `DataError` (see the `OrderDb.CreateOrder` line below).
- The `default=0` of `Order.total_price`. `create_order` always passes a total.
- The keyboard-send failure branch of `cart_handler`, which is Telegram I/O.
- `Start.CheckSubscription`: its contract states only the failed-lookup case. `Start.SubscribedStatuses` states the status test over the statuses Telegram reports; a status text outside them is not constrained.
- `CatalogDb.CategoryPagesCoverAll`, `CatalogDb.SubcategoryPagesCoverAll`, `CatalogDb.ProductPagesCoverAll`, `CatalogHandlers.FetchIsPage` and `CartDb.Join` assume every query returns its rows in primary-key order. The source asks for no order (there is no `order_by` and no `Meta.ordering`), so each page is a separate unordered query, and a database may skip or repeat rows across pages.
- `Checkout.Step`, `Checkout.CheckoutConversation` and `Payment.PayloadRoundTrip`: the routers are included in the order start, catalog, cart, order, payment (`bot/management/commands/runbot.py:25-29`). `/start` and `/help`, in a message's text or, when it has none, its caption (aiogram's `Command` reads `text or caption`), and the texts "🛍 Каталог" and "🛒 Корзина" are taken by the earlier routers in every state; `Checkout.TakenEarlier` names them, and the conversation lemma excludes them. A `successful_payment` message that arrives while the payer is in a form state goes to that state's handler as a message without text (stored as `None`), so it is not confirmed, exported or cleared; `Step` models only the order router and `PayloadRoundTrip` holds only outside a form state. `Checkout.IsCommand` takes a command with any "@" mention as addressed to the bot; the check that the mention names this bot is not modelled.
- `OrderDb.CreateOrder`, `CartDb.AddNewItem` and `Tables.Insert`: a table's `next` id moves only when a row is stored, so after a refused insert the next stored row takes the id the refused one would have had. A database sequence such as PostgreSQL's is not rolled back, and an insert the database itself refuses may already have drawn its id (all of them for a refused `bulk_create`). Whether a given refusal draws one depends on where it is raised (Django's own checks draw none). So the model's ids after a refusal can be lower than the database's. Every id the model hands out is still fresh and above every stored id, and the handlers use an id only as a key (the pay button, the invoice payload).
- `OrderDb.CreateOrder` and `OrderDb.CreateOrderOutcome`: a field longer than its `varchar` or a total wider than `numeric(10, 2)` is refused with `DataError`. This assumes a backend that enforces column widths, such as PostgreSQL. SQLite enforces neither, and Django's `format_number` raises `decimal.InvalidOperation` on an over-wide `Decimal` before the driver is reached. The width refusal is ordered before the NOT NULL one, as PostgreSQL coerces the values while it plans the INSERT and checks NOT NULL when it runs it.
- `PyStr.ParseInt`: only ASCII digits are accepted. Python's `int()` also accepts the other Unicode decimal digits (`int("٣") == 3`), which the model rejects.
- `CatalogHandlers.ParseFixed`: its own contract states only that its one failure is `ValueError`. What it does on the keyboards' data is stated by `ItemRouteFixed`, `PageRouteFixed` and `ListingButtonsLeadFixed`.

## Findings

| source | as written | input that shows it | evidently intended | confidence | as-written member | corrected member |
|---|---|---|---|---|---|---|
| bot/handlers/payment.py:26-30 | `get_order` raises `Order.DoesNotExist` for a missing order, and the `except (IndexError, ValueError)` clause does not catch it; the `if not order` check is dead | "pay_7" when no order 7 exists | the "order not found" message, as the `raise ValueError("Заказ не найден")` line shows | not executed | Payment.MissingOrderEscapes | Payment.FixedAnswersEveryPress |
| bot/handlers/catalog.py:62-88 | nested listings use the prefix "subcategory_{category_id}" / "product_{subcategory_id}", so their item buttons carry the parent's id in field 1, which the opening handler reads as the item id | "subcategory_1_2", the button of subcategory 2 listed under category 1, opens subcategory 1 | each button opens its own item | not executed | CatalogHandlers.SubcategoryButtonMisread | CatalogHandlers.ItemRouteFixed |
| bot/handlers/catalog.py:67-99 | nested page buttons "subcategory_{cid}_page_{n}" match the opening handler instead of the pager, and the pagers themselves read "page" as an integer | "subcategory_1_page_1" opens subcategory 1; "subcategory_page_1" raises `ValueError` | each page button shows that page of its listing | not executed | CatalogHandlers.PageRouteAsWritten | CatalogHandlers.PageRouteFixed |

=== FILE: cart_db.dfy ===
/**
 * The cart operations of the bot: `add_to_cart`, `get_cart_items`,
 * `remove_from_cart` and `clear_cart`, as transitions of the store.
 *
 * Each operation asks of the store only the structure it walks (rows in key
 * order); that it keeps every schema constraint is a lemma of its own.
 */
module CartDb {
  import opened Wrappers
  import opened Tables
  import opened Schema
  import opened CatalogDb

  // ---------------------------------------------------------------------------
  // Lookups

  function OfClient(clientId: int): Row<Cart> -> bool {
    (x: Row<Cart>) => x.val.clientId == clientId
  }

  /** The cart of a client (the one-to-one `client.cart`). */
  function CartOf(s: Store, clientId: int): (r: Option<Row<Cart>>)
    ensures r.Some? ==> r.value in s.carts.rows && r.value.val.clientId == clientId
    ensures r.None? <==> forall x :: x in s.carts.rows ==> x.val.clientId != clientId
  {
    First(s.carts.rows, OfClient(clientId))
  }

  function OnLine(cartId: int, productId: int): Row<CartItem> -> bool {
    (x: Row<CartItem>) => x.val.cartId == cartId && x.val.productId == productId
  }

  /** Every cart item row for the pair (cart, product). */
  function LinesFor(s: Store, cartId: int, productId: int): (r: seq<Row<CartItem>>)
    ensures forall x :: x in r <==> x in s.cartItems.rows && x.val.cartId == cartId && x.val.productId == productId
  {
    Where(s.cartItems.rows, OnLine(cartId, productId))
  }

  /** The cart item for the pair (cart, product), if any. */
  function ItemFor(s: Store, cartId: int, productId: int): (r: Option<Row<CartItem>>)
    ensures r.Some? ==> r.value in s.cartItems.rows && r.value.val.cartId == cartId && r.value.val.productId == productId
    ensures r.None? <==> forall x :: x in s.cartItems.rows ==> !(x.val.cartId == cartId && x.val.productId == productId)
  {
    First(s.cartItems.rows, OnLine(cartId, productId))
  }

  /** A row that is the only one for its pair is the one `ItemFor` finds. */
  lemma {:induction false} ItemForIs(s: Store, cartId: int, productId: int, row: Row<CartItem>)
    requires row in s.cartItems.rows && row.val.cartId == cartId && row.val.productId == productId
    requires forall x :: x in s.cartItems.rows && x.val.cartId == cartId && x.val.productId == productId ==> x == row
    ensures ItemFor(s, cartId, productId) == Some(row)
  {
  }

  /** Quantity held by the (cart, product) item, 0 when there is none. */
  function LineQuantity(s: Store, cartId: int, productId: int): int {
    match ItemFor(s, cartId, productId)
    case None => 0
    case Some(item) => item.val.quantity
  }

  /** How many of `productId` the user `userId` has in their cart (0 when there is no
      client, no cart or no such item). */
  function UserQuantity(s: Store, userId: int, productId: int): int {
    match GetClient(s, userId)
    case None => 0
    case Some(c) =>
      match CartOf(s, c.id)
      case None => 0
      case Some(cart) => LineQuantity(s, cart.id, productId)
  }

  /** The cart item rows of the user's cart for one product. */
  function UserLines(s: Store, userId: int, productId: int): seq<Row<CartItem>> {
    match GetClient(s, userId)
    case None => []
    case Some(c) =>
      match CartOf(s, c.id)
      case None => []
      case Some(cart) => LinesFor(s, cart.id, productId)
  }

  /** The `unique_together (cart, product)` constraint, read as "at most one row per pair". */
  lemma {:induction false} AtMostOneLine(s: Store, cartId: int, productId: int)
    requires WellFormed(s.cartItems)
    ensures |LinesFor(s, cartId, productId)| <= 1 || !LinesUnique(s.cartItems)
  {
    var ls := LinesFor(s, cartId, productId);
    WhereIncreasing(s.cartItems.rows, OnLine(cartId, productId));
    if |ls| > 1 && LinesUnique(s.cartItems) {
      IncreasingDistinct(ls);
      LinesUniqueAt(s.cartItems, ls[0], ls[1]);
      assert false;
    }
  }

  // ---------------------------------------------------------------------------
  // add_to_cart, step by step

  /** `Cart.objects.aget_or_create(client_id=...)`: the client's cart, created when absent. */
  function GetOrCreateCart(s: Store, clientId: nat): (r: (Store, Row<Cart>))
    requires WellFormed(s.carts)
    ensures WellFormed(r.0.carts)
    ensures r.0 == s.(carts := r.0.carts)
    ensures r.1 in r.0.carts.rows && CartOf(r.0, clientId) == Some(r.1)
    ensures CartOf(s, clientId).Some? ==> r.0 == s && r.1 == CartOf(s, clientId).value
    ensures CartOf(s, clientId).None? ==>
      r.0.carts.rows == s.carts.rows + [r.1] && r.1.val == Cart(clientId) && r.1.id !in Ids(s.carts)
    ensures forall c :: c != clientId ==> CartOf(r.0, c) == CartOf(s, c)
    ensures Ids(s.carts) <= Ids(r.0.carts)
  {
    match CartOf(s, clientId)
    case Some(cart) => (s, cart)
    case None =>
      var (carts, id) := Insert(s.carts, Cart(clientId));
      NewCart(s.carts, clientId);
      (s.(carts := carts), Row(id, Cart(clientId)))
  }

  /** Appending a cart for a client without one makes it that client's cart and
      changes nobody else's. */
  lemma {:induction false} NewCart(carts: Table<Cart>, clientId: nat)
    requires WellFormed(carts) && First(carts.rows, OfClient(clientId)).None?
    ensures var (carts', id) := Insert(carts, Cart(clientId));
      && First(carts'.rows, OfClient(clientId)) == Some(Row(id, Cart(clientId)))
      && forall c :: c != clientId ==> First(carts'.rows, OfClient(c)) == First(carts.rows, OfClient(c))
  {
    var (carts', id) := Insert(carts, Cart(clientId));
    var x := Row(id, Cart(clientId));
    FirstAppend(carts.rows, x, OfClient(clientId));
    forall c | c != clientId ensures First(carts'.rows, OfClient(c)) == First(carts.rows, OfClient(c)) {
      FirstAppend(carts.rows, x, OfClient(c));
    }
  }

  /** A cart created for a registered client without one keeps one cart per client. */
  lemma {:induction false} GetOrCreateCartValid(s: Store, clientId: nat)
    requires WellFormed(s.carts) && CartsValid(s.carts, s.clients) && clientId in Ids(s.clients)
    ensures CartsValid(GetOrCreateCart(s, clientId).0.carts, s.clients)
  {
  }

  /** The `quantity` column of cart item `itemId` set to `q` (`cart_item.asave()`). */
  function SetQuantity(s: Store, itemId: nat, item: CartItem, q: int): (r: Store)
    requires WellFormed(s.cartItems) && Row(itemId, item) in s.cartItems.rows
    ensures WellFormed(r.cartItems)
    ensures r == s.(cartItems := r.cartItems)
  {
    s.(cartItems := Put(s.cartItems, itemId, item.(quantity := q)))
  }

  /** The item rows after `SetQuantity`: the others, and the updated one. */
  lemma {:induction false} SetQuantityRows(s: Store, itemId: nat, item: CartItem, q: int)
    requires WellFormed(s.cartItems) && Row(itemId, item) in s.cartItems.rows
    ensures forall x :: x in SetQuantity(s, itemId, item, q).cartItems.rows <==>
      (x in s.cartItems.rows && x.id != itemId) || x == Row(itemId, item.(quantity := q))
  {
    RowIds(s.cartItems);
    PutRows(s.cartItems, itemId, item.(quantity := q));
  }

  // ---------------------------------------------------------------------------
  // The effect on one (cart, product) pair

  /** Rows of every pair other than (cart, product) are the same in `s` and `s'`. */
  ghost predicate OtherLinesKept(s: Store, s': Store, cartId: int, productId: int) {
    forall x: Row<CartItem> :: !(x.val.cartId == cartId && x.val.productId == productId) ==>
      (x in s'.cartItems.rows <==> x in s.cartItems.rows)
  }

  /** In `s'` the pair (cart, product) has exactly one item, `id`, holding `q`; every
      other pair is as in `s`. */
  ghost predicate LineSet(s: Store, s': Store, cartId: nat, productId: nat, id: nat, q: int) {
    && LinesUnique(s'.cartItems)
    && ItemFor(s', cartId, productId) == Some(Row(id, CartItem(cartId, productId, q)))
    && OtherLinesKept(s, s', cartId, productId)
  }

  /** Two updates of the same pair compose: the second one decides the item. */
  lemma {:induction false} LineSetThen(s: Store, s2: Store, s3: Store, cartId: nat, productId: nat, id2: nat, q2: int, id: nat, q: int)
    requires LineSet(s, s2, cartId, productId, id2, q2) && LineSet(s2, s3, cartId, productId, id, q)
    ensures LineSet(s, s3, cartId, productId, id, q)
  {
  }

  /** After a quantity update the item is still the only one for its pair. */
  lemma {:induction false} SetQuantityLine(s: Store, itemId: nat, item: CartItem, q: int)
    requires WellFormed(s.cartItems) && LinesUnique(s.cartItems) && Row(itemId, item) in s.cartItems.rows
    ensures LineSet(s, SetQuantity(s, itemId, item, q), item.cartId, item.productId, itemId, q)
  {
    var s' := SetQuantity(s, itemId, item, q);
    SetQuantityRows(s, itemId, item, q);
    forall x: Row<CartItem> | !SameLine(x.val, item) && x in s.cartItems.rows ensures x.id != itemId {
      if x.id == itemId {
        KeyUnique(s.cartItems, x, Row(itemId, item));
      }
    }
    var row := Row(itemId, item.(quantity := q));
    forall a, b | a in s'.cartItems.rows && b in s'.cartItems.rows && SameLine(a.val, b.val) ensures a == b {
      var a0 := if a.id == itemId then Row(itemId, item) else a;
      var b0 := if b.id == itemId then Row(itemId, item) else b;
      assert a0 in s.cartItems.rows && b0 in s.cartItems.rows && SameLine(a0.val, b0.val);
    }
    forall x | x in s'.cartItems.rows && x.val.cartId == item.cartId && x.val.productId == item.productId
      ensures x == row
    {
      assert SameLine(x.val, row.val);
    }
    ItemForIs(s', item.cartId, item.productId, row);
  }

  lemma {:induction false} SetQuantityValid(s: Store, itemId: nat, item: CartItem, q: int)
    requires WellFormed(s.cartItems) && CartItemsValid(s.cartItems, s.carts, s.products)
    requires Row(itemId, item) in s.cartItems.rows && q >= 0
    ensures CartItemsValid(SetQuantity(s, itemId, item, q).cartItems, s.carts, s.products)
  {
    SetQuantityRows(s, itemId, item, q);
    SetQuantityLine(s, itemId, item, q);
  }

  /** A new cart item row for (cart, product) with the column default quantity 1, as
      `CartItem.objects.aget_or_create(cart=..., product_id=...)` writes it. */
  function InsertItem(s: Store, cartId: nat, productId: nat): (r: (Store, nat))
    requires WellFormed(s.cartItems)
    ensures WellFormed(r.0.cartItems)
    ensures r.0 == s.(cartItems := r.0.cartItems)
    ensures r.0.cartItems.rows == s.cartItems.rows + [Row(r.1, CartItem(cartId, productId, 1))]
    ensures r.1 !in Ids(s.cartItems)
  {
    var (items, id) := Insert(s.cartItems, CartItem(cartId, productId, 1));
    (s.(cartItems := items), id)
  }

  /** The new item is the only one for its pair when there was none before. */
  lemma {:induction false} InsertItemLine(s: Store, cartId: nat, productId: nat)
    requires WellFormed(s.cartItems) && LinesUnique(s.cartItems) && ItemFor(s, cartId, productId).None?
    ensures var (s', id) := InsertItem(s, cartId, productId);
      LineSet(s, s', cartId, productId, id, 1)
  {
    var (s', id) := InsertItem(s, cartId, productId);
    var row := Row(id, CartItem(cartId, productId, 1));
    assert row in s'.cartItems.rows;
    forall x | x in s'.cartItems.rows && x.val.cartId == cartId && x.val.productId == productId
      ensures x == row
    {
      if x != row {
        assert false;
      }
    }
    ItemForIs(s', cartId, productId, row);
  }

  lemma {:induction false} InsertItemValid(s: Store, cartId: nat, productId: nat)
    requires WellFormed(s.cartItems) && CartItemsValid(s.cartItems, s.carts, s.products)
    requires cartId in Ids(s.carts) && productId in Ids(s.products)
    requires ItemFor(s, cartId, productId).None?
    ensures CartItemsValid(InsertItem(s, cartId, productId).0.cartItems, s.carts, s.products)
  {
    InsertItemLine(s, cartId, productId);
  }

  /** `F('quantity') + quantity` saved on an existing item. The `quantity` column is
      a `PositiveIntegerField`, so a negative result is refused. */
  function AddToItem(s: Store, item: Row<CartItem>, quantity: int): (r: Tx<nat>)
    requires WellFormed(s.cartItems) && item in s.cartItems.rows
    ensures WellFormed(r.store.cartItems)
    ensures r.store == s.(cartItems := r.store.cartItems)
    ensures r.result.Err? ==> r.result.error == IntegrityError
  {
    var q := item.val.quantity + quantity;
    if q < 0 then Tx(s, Err(IntegrityError))
    else Tx(SetQuantity(s, item.id, item.val, q), Ok(item.id))
  }

  /** A new item (default quantity 1, committed at once), then `quantity` saved on
      it. A missing product breaks the foreign key before anything is written. */
  function AddNewItem(s: Store, cartId: nat, productId: int, quantity: int): (r: Tx<nat>)
    requires WellFormed(s.cartItems)
    ensures WellFormed(r.store.cartItems)
    ensures r.store == s.(cartItems := r.store.cartItems)
    ensures r.result.Err? ==> r.result.error == IntegrityError
  {
    if productId !in Ids(s.products) then Tx(s, Err(IntegrityError))
    else
      var (s2, itemId) := InsertItem(s, cartId, productId);
      assert Row(itemId, CartItem(cartId, productId, 1)) in s2.cartItems.rows;
      if quantity < 0 then Tx(s2, Err(IntegrityError))
      else Tx(SetQuantity(s2, itemId, CartItem(cartId, productId, 1), quantity), Ok(itemId))
  }

  /** The part of `add_to_cart` after the cart is known: get-or-create the item for
      (cart, product), then add to or set its quantity. */
  function AddToLine(s: Store, cartId: nat, productId: int, quantity: int): (r: Tx<nat>)
    requires WellFormed(s.cartItems)
    ensures WellFormed(r.store.cartItems)
    ensures r.store == s.(cartItems := r.store.cartItems)
    ensures r.result.Err? ==> r.result.error == IntegrityError
  {
    match ItemFor(s, cartId, productId)
    case Some(item) => AddToItem(s, item, quantity)
    case None => AddNewItem(s, cartId, productId, quantity)
  }

  lemma {:induction false} AddToItemValid(s: Store, item: Row<CartItem>, quantity: int)
    requires WellFormed(s.cartItems) && CartItemsValid(s.cartItems, s.carts, s.products)
    requires item in s.cartItems.rows
    ensures CartItemsValid(AddToItem(s, item, quantity).store.cartItems, s.carts, s.products)
  {
    if item.val.quantity + quantity >= 0 {
      SetQuantityValid(s, item.id, item.val, item.val.quantity + quantity);
    }
  }

  lemma {:induction false} AddNewItemValid(s: Store, cartId: nat, productId: int, quantity: int)
    requires WellFormed(s.cartItems) && CartItemsValid(s.cartItems, s.carts, s.products)
    requires cartId in Ids(s.carts) && ItemFor(s, cartId, productId).None?
    ensures CartItemsValid(AddNewItem(s, cartId, productId, quantity).store.cartItems, s.carts, s.products)
  {
    if productId in Ids(s.products) {
      InsertItemValid(s, cartId, productId);
      var (s2, itemId) := InsertItem(s, cartId, productId);
      assert s2.carts == s.carts && s2.products == s.products;
      if quantity >= 0 {
        assert Row(itemId, CartItem(cartId, productId, 1)) in s2.cartItems.rows;
        SetQuantityValid(s2, itemId, CartItem(cartId, productId, 1), quantity);
      }
    }
  }

  /** The item rows `AddToLine` leaves still meet the cart item constraints. */
  lemma {:induction false} AddToLineValid(s: Store, cartId: nat, productId: int, quantity: int)
    requires WellFormed(s.cartItems) && CartItemsValid(s.cartItems, s.carts, s.products)
    requires cartId in Ids(s.carts)
    ensures CartItemsValid(AddToLine(s, cartId, productId, quantity).store.cartItems, s.carts, s.products)
  {
    match ItemFor(s, cartId, productId)
    case Some(item) => AddToItemValid(s, item, quantity);
    case None => AddNewItemValid(s, cartId, productId, quantity);
  }

  /** What adding `quantity` to the pair (cart, product) must do: succeed exactly
      when the product exists and the pair's quantity plus `quantity` is not
      negative, and then leave one item for the pair holding that sum; a refused
      update of an existing item writes nothing; never touch another pair, and keep
      every pair unique. */
  ghost predicate LineEffect(s: Store, cartId: nat, productId: int, quantity: int, r: Tx<nat>) {
    var q := LineQuantity(s, cartId, productId) + quantity;
    && (r.result.Ok? <==> productId in Ids(s.products) && q >= 0)
    && (r.result.Ok? ==> productId in Ids(s.products) && LineSet(s, r.store, cartId, productId, r.result.value, q))
    && (r.result.Err? && ItemFor(s, cartId, productId).Some? ==> r.store == s)
    && LinesUnique(r.store.cartItems)
    && OtherLinesKept(s, r.store, cartId, productId)
  }

  /** `LineEffect` of a call that succeeded and left the pair holding `q`. */
  lemma {:induction false} LineSaved(s: Store, r: Tx<nat>, cartId: nat, productId: nat, quantity: int, q: int)
    requires r.result.Ok? && productId in Ids(s.products)
    requires q == LineQuantity(s, cartId, productId) + quantity && q >= 0
    requires LineSet(s, r.store, cartId, productId, r.result.value, q)
    ensures LineEffect(s, cartId, productId, quantity, r)
  {
  }

  lemma {:induction false} AddToItemSaved(s: Store, item: Row<CartItem>, quantity: int)
    requires WellFormed(s.cartItems) && LinesUnique(s.cartItems)
    requires ItemFor(s, item.val.cartId, item.val.productId) == Some(item)
    requires item.val.productId in Ids(s.products) && item.val.quantity + quantity >= 0
    ensures LineEffect(s, item.val.cartId, item.val.productId, quantity, AddToItem(s, item, quantity))
  {
    var q := item.val.quantity + quantity;
    SetQuantityLine(s, item.id, item.val, q);
    assert item.val.(quantity := q) == CartItem(item.val.cartId, item.val.productId, q);
    LineSaved(s, AddToItem(s, item, quantity), item.val.cartId, item.val.productId, quantity, q);
  }

  lemma {:induction false} AddToItemRefused(s: Store, item: Row<CartItem>, quantity: int)
    requires WellFormed(s.cartItems) && LinesUnique(s.cartItems)
    requires ItemFor(s, item.val.cartId, item.val.productId) == Some(item)
    requires item.val.quantity + quantity < 0
    ensures LineEffect(s, item.val.cartId, item.val.productId, quantity, AddToItem(s, item, quantity))
  {
  }

  lemma {:induction false} AddNewItemNoProduct(s: Store, cartId: nat, productId: int, quantity: int)
    requires WellFormed(s.cartItems) && LinesUnique(s.cartItems) && ItemFor(s, cartId, productId).None?
    requires productId !in Ids(s.products)
    ensures LineEffect(s, cartId, productId, quantity, AddNewItem(s, cartId, productId, quantity))
  {
  }

  /** The refused save leaves the freshly created item, holding the default 1. */
  lemma {:induction false} AddNewItemRaised(s: Store, cartId: nat, productId: nat, quantity: int)
    requires WellFormed(s.cartItems) && LinesUnique(s.cartItems) && ItemFor(s, cartId, productId).None?
    requires productId in Ids(s.products) && quantity < 0
    ensures var r := AddNewItem(s, cartId, productId, quantity);
      LineEffect(s, cartId, productId, quantity, r) && LineQuantity(r.store, cartId, productId) == 1
  {
    InsertItemLine(s, cartId, productId);
  }

  lemma {:induction false} AddNewItemSaved(s: Store, cartId: nat, productId: nat, quantity: int)
    requires WellFormed(s.cartItems) && LinesUnique(s.cartItems) && ItemFor(s, cartId, productId).None?
    requires productId in Ids(s.products) && quantity >= 0
    ensures LineEffect(s, cartId, productId, quantity, AddNewItem(s, cartId, productId, quantity))
  {
    InsertItemLine(s, cartId, productId);
    var (s2, itemId) := InsertItem(s, cartId, productId);
    var item := CartItem(cartId, productId, 1);
    SetQuantityLine(s2, itemId, item, quantity);
    LineSetThen(s, s2, SetQuantity(s2, itemId, item, quantity), cartId, productId, itemId, 1, itemId, quantity);
  }

  /** What `AddToLine` does: `LineEffect`; besides, a new item whose save is refused
      stays behind with the default quantity 1. */
  lemma {:induction false} AddToLineEffect(s: Store, cartId: nat, productId: int, quantity: int)
    requires WellFormed(s.cartItems) && LinesUnique(s.cartItems)
    requires ItemFor(s, cartId, productId).Some? ==> productId in Ids(s.products)
    ensures LineEffect(s, cartId, productId, quantity, AddToLine(s, cartId, productId, quantity))
    ensures ItemFor(s, cartId, productId).None? && productId in Ids(s.products) && quantity < 0 ==>
      LineQuantity(AddToLine(s, cartId, productId, quantity).store, cartId, productId) == 1
  {
    match ItemFor(s, cartId, productId)
    case Some(item) =>
      if item.val.quantity + quantity >= 0 {
        AddToItemSaved(s, item, quantity);
      } else {
        AddToItemRefused(s, item, quantity);
      }
    case None =>
      if productId !in Ids(s.products) {
        AddNewItemNoProduct(s, cartId, productId, quantity);
      } else if quantity < 0 {
        AddNewItemRaised(s, cartId, productId, quantity);
      } else {
        AddNewItemSaved(s, cartId, productId, quantity);
      }
  }

  // ---------------------------------------------------------------------------
  // add_to_cart

  /** `add_to_cart(user_id, product_id, quantity)`.
      The client is looked up first; for an unknown user `client.id` raises before
      anything is written. Then the cart is fetched or created, then the item for
      (cart, product): an existing item gets `quantity` added, a new one (created with
      the default 1) gets `quantity` set. Each step commits on its own, so a step that
      the database refuses leaves the earlier ones in place. */
  function AddToCart(s: Store, userId: int, productId: int, quantity: int): (r: Tx<nat>)
    requires WellFormed(s.carts) && WellFormed(s.cartItems)
    ensures WellFormed(r.store.carts) && WellFormed(r.store.cartItems)
    ensures GetClient(s, userId).None? ==> r == Tx(s, Err(NoneAttribute))
    ensures r.result.Err? ==> r.result.error in {NoneAttribute, IntegrityError}
    ensures r.store == s.(carts := r.store.carts, cartItems := r.store.cartItems)
  {
    match GetClient(s, userId)
    case None => Tx(s, Err(NoneAttribute))
    case Some(client) =>
      var (s1, cart) := GetOrCreateCart(s, client.id);
      AddToLine(s1, cart.id, productId, quantity)
  }

  /** `add_to_cart` keeps every constraint of the schema. */
  lemma {:induction false} AddToCartValid(s: Store, userId: int, productId: int, quantity: int)
    requires Valid(s)
    ensures Valid(AddToCart(s, userId, productId, quantity).store)
  {
    match GetClient(s, userId)
    case None =>
    case Some(client) =>
      RowIds(s.clients);
      GetOrCreateCartValid(s, client.id);
      var (s1, cart) := GetOrCreateCart(s, client.id);
      RowIds(s1.carts);
      assert CartItemsValid(s1.cartItems, s1.carts, s1.products);
      AddToLineValid(s1, cart.id, productId, quantity);
      var r := AddToLine(s1, cart.id, productId, quantity);
      WithCartTables(s, s1.carts, r.store.cartItems);
  }

  /** Reading the user's quantity through the cart `GetOrCreateCart` returns: a cart
      created just now has no items yet. */
  lemma {:induction false} UserQuantityViaCart(s: Store, userId: int, productId: int)
    requires Valid(s) && GetClient(s, userId).Some?
    ensures var client := GetClient(s, userId).value;
      var (s1, cart) := GetOrCreateCart(s, client.id);
      && UserQuantity(s, userId, productId) == LineQuantity(s1, cart.id, productId)
      && ItemFor(s1, cart.id, productId) ==
           match CartOf(s, client.id)
           case None => None
           case Some(prior) => ItemFor(s, prior.id, productId)
  {
    var client := GetClient(s, userId).value;
    var (s1, cart) := GetOrCreateCart(s, client.id);
    if CartOf(s, client.id).None? {
      RowIds(s.carts);
      assert ItemFor(s1, cart.id, productId).None?;
    }
  }

  /** What `add_to_cart` must do for the registered user `userId`: afterwards the
      user has a cart (the old one when there was one); the call succeeds exactly
      when the product exists and the user's quantity plus `quantity` is not
      negative, and then the user's only item for the product holds that sum. A
      refused add to an item the user already has writes nothing. No cart item of
      another pair is touched. */
  ghost predicate CartEffect(s: Store, userId: int, client: Row<Client>, productId: int, quantity: int, r: Tx<nat>) {
    var q := UserQuantity(s, userId, productId) + quantity;
    && GetClient(r.store, userId) == Some(client)
    && CartOf(r.store, client.id).Some?
    && (CartOf(s, client.id).Some? ==> r.store.carts == s.carts)
    && (r.result.Ok? <==> productId in Ids(s.products) && q >= 0)
    && (r.result.Ok? ==> UserQuantity(r.store, userId, productId) == q)
    && (r.result.Ok? ==> ItemFor(r.store, CartOf(r.store, client.id).value.id, productId).Some?)
    && (r.result.Err? && CartOf(s, client.id).Some? && ItemFor(s, CartOf(s, client.id).value.id, productId).Some? ==>
          r.store == s)
    && OtherLinesKept(s, r.store, CartOf(r.store, client.id).value.id, productId)
  }

  lemma {:induction false} AddToCartEffect(s: Store, userId: int, productId: int, quantity: int)
    requires Valid(s) && GetClient(s, userId).Some?
    ensures CartEffect(s, userId, GetClient(s, userId).value, productId, quantity, AddToCart(s, userId, productId, quantity))
  {
    var client := GetClient(s, userId).value;
    UserQuantityViaCart(s, userId, productId);
    var (s1, cart) := GetOrCreateCart(s, client.id);
    var r := AddToLine(s1, cart.id, productId, quantity);
    assert AddToCart(s, userId, productId, quantity) == r;
    assert ItemFor(s1, cart.id, productId).Some? ==> productId in Ids(s1.products) by {
      var item := ItemFor(s1, cart.id, productId);
      assert item.Some? ==> item.value in s.cartItems.rows;
    }
    AddToLineEffect(s1, cart.id, productId, quantity);
    assert GetClient(r.store, userId) == Some(client) by {
      assert r.store.clients == s.clients;
    }
    assert CartOf(r.store, client.id) == Some(cart) by {
      assert r.store.carts == s1.carts;
    }
    UserQuantityAt(r.store, userId, client, cart, productId);
  }

  /** The user's quantity is that of the pair in the user's cart. */
  lemma {:induction false} UserQuantityAt(s: Store, userId: int, client: Row<Client>, cart: Row<Cart>, productId: int)
    requires GetClient(s, userId) == Some(client) && CartOf(s, client.id) == Some(cart)
    ensures UserQuantity(s, userId, productId) == LineQuantity(s, cart.id, productId)
  {
  }

  /** A failed save does not undo `get_or_create`: adding a product the user has no
      item for with a negative quantity raises, yet leaves an item holding the
      column default 1 behind. */
  lemma {:induction false} AddNegativeLeavesDefault(s: Store, userId: int, productId: int, quantity: int)
    requires Valid(s) && GetClient(s, userId).Some? && productId in Ids(s.products)
    requires quantity < 0
    requires var c := GetClient(s, userId).value;
      CartOf(s, c.id).None? || ItemFor(s, CartOf(s, c.id).value.id, productId).None?
    ensures var r := AddToCart(s, userId, productId, quantity);
      r.result == Err(IntegrityError) && UserQuantity(r.store, userId, productId) == 1
  {
    var client := GetClient(s, userId).value;
    UserQuantityViaCart(s, userId, productId);
    var (s1, cart) := GetOrCreateCart(s, client.id);
    AddToLineEffect(s1, cart.id, productId, quantity);
  }

  function Sum(qs: seq<int>): int {
    if |qs| == 0 then 0 else qs[0] + Sum(qs[1..])
  }

  /** A running total that starts with the first element. */
  lemma {:induction false} SumFirst(qs: seq<int>, k: nat)
    requires k < |qs|
    ensures Sum(qs[..k + 1]) == qs[0] + Sum(qs[1..][..k])
  {
    assert qs[..k + 1][1..] == qs[1..][..k];
  }

  /** Every running total `base + q1 + ... + qk` is non-negative. */
  ghost predicate RunningTotals(base: int, qs: seq<int>) {
    forall k :: 1 <= k <= |qs| ==> base + Sum(qs[..k]) >= 0
  }

  lemma {:induction false} RunningTotalsTail(base: int, qs: seq<int>)
    requires |qs| > 0 && RunningTotals(base, qs)
    ensures base + qs[0] >= 0 && RunningTotals(base + qs[0], qs[1..])
  {
    SumFirst(qs, 0);
    forall k | 1 <= k <= |qs[1..]| ensures base + qs[0] + Sum(qs[1..][..k]) >= 0 {
      SumFirst(qs, k);
    }
  }

  /** `add_to_cart` called once per element of `qs`, the same user and product each
      time; also reports whether every call succeeded. */
  function AddAll(s: Store, userId: int, productId: int, qs: seq<int>): (r: (Store, bool))
    requires WellFormed(s.carts) && WellFormed(s.cartItems)
    decreases |qs|
  {
    if |qs| == 0 then (s, true)
    else
      var step := AddToCart(s, userId, productId, qs[0]);
      var rest := AddAll(step.store, userId, productId, qs[1..]);
      (rest.0, rest.1 && step.result.Ok?)
  }

  /** The user has exactly one item for the product when `ItemFor` finds one. */
  lemma {:induction false} UserLinesOne(s: Store, userId: int, productId: int)
    requires Valid(s) && GetClient(s, userId).Some?
    requires var c := GetClient(s, userId).value;
      CartOf(s, c.id).Some? && ItemFor(s, CartOf(s, c.id).value.id, productId).Some?
    ensures |UserLines(s, userId, productId)| == 1
  {
    var c := GetClient(s, userId).value;
    var cart := CartOf(s, c.id).value;
    AtMostOneLine(s, cart.id, productId);
    assert ItemFor(s, cart.id, productId).value in LinesFor(s, cart.id, productId);
  }

  /** One successful add: the quantity grows by `q`, the user keeps exactly one
      item for the product, and the store stays valid. */
  lemma {:induction false} AddOnce(s: Store, userId: int, productId: int, q: int)
    requires Valid(s) && GetClient(s, userId).Some? && productId in Ids(s.products)
    requires UserQuantity(s, userId, productId) + q >= 0
    ensures var step := AddToCart(s, userId, productId, q);
      && Valid(step.store) && step.result.Ok?
      && GetClient(step.store, userId).Some? && step.store.products == s.products
      && UserQuantity(step.store, userId, productId) == UserQuantity(s, userId, productId) + q
      && |UserLines(step.store, userId, productId)| == 1
  {
    AddToCartEffect(s, userId, productId, q);
    AddToCartValid(s, userId, productId, q);
    UserLinesOne(AddToCart(s, userId, productId, q).store, userId, productId);
  }

  /** Accumulation: n adds of q1..qn (every running total staying non-negative) all
      succeed and leave exactly one item for the pair, holding the old quantity plus
      q1 + ... + qn. */
  lemma {:induction false} AddAllAccumulates(s: Store, userId: int, productId: int, qs: seq<int>)
    requires Valid(s) && GetClient(s, userId).Some? && productId in Ids(s.products)
    requires RunningTotals(UserQuantity(s, userId, productId), qs)
    ensures var (s', ok) := AddAll(s, userId, productId, qs);
      && ok
      && UserQuantity(s', userId, productId) == UserQuantity(s, userId, productId) + Sum(qs)
      && (|qs| > 0 ==> |UserLines(s', userId, productId)| == 1)
    decreases |qs|
  {
    if |qs| > 0 {
      RunningTotalsTail(UserQuantity(s, userId, productId), qs);
      AddOnce(s, userId, productId, qs[0]);
      AddAllAccumulates(AddToCart(s, userId, productId, qs[0]).store, userId, productId, qs[1..]);
    }
  }

  // ---------------------------------------------------------------------------
  // get_cart_items

  /** A cart item with its product loaded (`select_related("product")`). */
  datatype CartLine = CartLine(itemId: nat, productId: nat, product: Product, quantity: int)

  /** The items joined with their products, in order. An item whose product row is
      missing drops out, as the inner join behind `select_related` drops it. */
  function Join(s: Store, items: seq<Row<CartItem>>): (r: seq<CartLine>)
    ensures |r| <= |items|
    ensures (forall x :: x in items ==> x.val.productId in Ids(s.products)) ==>
      && |r| == |items|
      && forall k :: 0 <= k < |items| ==>
           r[k] == CartLine(items[k].id, items[k].val.productId, GetProduct(s, items[k].val.productId).value, items[k].val.quantity)
  {
    if |items| == 0 then []
    else
      var rest := Join(s, items[1..]);
      match GetProduct(s, items[0].val.productId)
      case None => rest
      case Some(p) => [CartLine(items[0].id, items[0].val.productId, p, items[0].val.quantity)] + rest
  }

  function InCart(cartId: int): Row<CartItem> -> bool {
    (x: Row<CartItem>) => x.val.cartId == cartId
  }

  /** `get_cart_items(user_id)`: the items of the user's cart with their products, in
      table order. For an unknown user `client.id` raises, and the error is logged
      and raised again; a user without a cart gets `[]` (`Cart.DoesNotExist` is
      caught). */
  function GetCartItems(s: Store, userId: int): (r: Result<seq<CartLine>, Fault>)
    ensures r.Err? <==> GetClient(s, userId).None?
    ensures r.Err? ==> r.error == NoneAttribute
    ensures r.Ok? && CartOf(s, GetClient(s, userId).value.id).None? ==> r.value == []
  {
    match GetClient(s, userId)
    case None => Err(NoneAttribute)
    case Some(client) =>
      match CartOf(s, client.id)
      case None => Ok([])
      case Some(cart) => Ok(Join(s, Where(s.cartItems.rows, InCart(cart.id))))
  }

  /** Under `unique_together (cart, product)` an item is the one `ItemFor` finds for
      its own pair. */
  lemma {:induction false} ItemForOwn(s: Store, x: Row<CartItem>)
    requires LinesUnique(s.cartItems) && x in s.cartItems.rows
    ensures ItemFor(s, x.val.cartId, x.val.productId) == Some(x)
  {
    var y := ItemFor(s, x.val.cartId, x.val.productId);
    LinesUniqueAt(s.cartItems, y.value, x);
  }

  /** Every listed line of a cart is one of its items, with its product and the
      quantity of its pair. */
  lemma {:induction false} CartListingSound(s: Store, cartId: int)
    requires LinesUnique(s.cartItems)
    requires forall x :: x in s.cartItems.rows ==> x.val.productId in Ids(s.products)
    ensures forall l :: l in Join(s, Where(s.cartItems.rows, InCart(cartId))) ==>
      GetProduct(s, l.productId) == Some(l.product) && l.quantity == LineQuantity(s, cartId, l.productId)
  {
    var items := Where(s.cartItems.rows, InCart(cartId));
    var lines := Join(s, items);
    forall l | l in lines
      ensures GetProduct(s, l.productId) == Some(l.product) && l.quantity == LineQuantity(s, cartId, l.productId)
    {
      var k :| 0 <= k < |lines| && lines[k] == l;
      assert items[k] in items;
      ItemForOwn(s, items[k]);
    }
  }

  /** The line shows the item: its id, product and quantity. */
  predicate ListsItem(l: CartLine, x: Row<CartItem>) {
    l.itemId == x.id && l.productId == x.val.productId && l.quantity == x.val.quantity
  }

  /** Some line of the listing shows the item. */
  predicate Listed(lines: seq<CartLine>, x: Row<CartItem>) {
    exists k :: 0 <= k < |lines| && ListsItem(lines[k], x)
  }

  /** Every item of a cart is listed, whatever its quantity, with its own id,
      product and quantity; and the listing holds each item once, in key order. */
  lemma {:induction false} CartListingComplete(s: Store, cartId: int)
    requires WellFormed(s.cartItems)
    requires forall x :: x in s.cartItems.rows ==> x.val.productId in Ids(s.products)
    ensures var lines := Join(s, Where(s.cartItems.rows, InCart(cartId)));
      && (forall x :: x in s.cartItems.rows && x.val.cartId == cartId ==>
            Listed(lines, x))
      && (forall i, j :: 0 <= i < j < |lines| ==> lines[i].itemId < lines[j].itemId)
  {
    var items := Where(s.cartItems.rows, InCart(cartId));
    var lines := Join(s, items);
    JoinLists(s, items);
    forall x | x in s.cartItems.rows && x.val.cartId == cartId
      ensures Listed(lines, x)
    {
      assert x in items;
      var k :| 0 <= k < |items| && items[k] == x;
      assert ListsItem(lines[k], items[k]);
    }
    WhereIncreasing(s.cartItems.rows, InCart(cartId));
    forall i, j | 0 <= i < j < |lines| ensures lines[i].itemId < lines[j].itemId {
      assert ListsItem(lines[i], items[i]) && ListsItem(lines[j], items[j]);
      IncreasingAt(items, i, j);
    }
  }

  /** Items whose products all exist join into one line per item, position by position. */
  lemma {:induction false} JoinLists(s: Store, items: seq<Row<CartItem>>)
    requires forall x :: x in items ==> x.val.productId in Ids(s.products)
    ensures |Join(s, items)| == |items|
    ensures forall k :: 0 <= k < |items| ==> ListsItem(Join(s, items)[k], items[k])
  {
  }

  /** With the schema constraints in force the listing is exact: every line is an
      item of the user's cart, with its product and the quantity `UserQuantity`
      reports for that product; every item of the user's cart is listed, a zero
      quantity included; and no item is listed twice. */
  lemma {:induction false} GetCartItemsExact(s: Store, userId: int)
    requires Valid(s) && GetClient(s, userId).Some?
    ensures GetCartItems(s, userId).Ok?
    ensures var lines := GetCartItems(s, userId).value;
      var cart := CartOf(s, GetClient(s, userId).value.id);
      && (forall l :: l in lines ==>
            GetProduct(s, l.productId) == Some(l.product) && l.quantity == UserQuantity(s, userId, l.productId))
      && (cart.Some? ==> forall x :: x in s.cartItems.rows && x.val.cartId == cart.value.id ==>
            Listed(lines, x))
      && (forall i, j :: 0 <= i < j < |lines| ==> lines[i].itemId != lines[j].itemId)
  {
    var client := GetClient(s, userId).value;
    match CartOf(s, client.id)
    case None =>
    case Some(cart) =>
      CartListingSound(s, cart.id);
      CartListingComplete(s, cart.id);
  }

  /** Under the schema every listed line names an existing product and has a
      quantity of at least 0. */
  lemma {:induction false} CartLinesStorable(s: Store, userId: int)
    requires Valid(s) && GetCartItems(s, userId).Ok?
    ensures var lines := GetCartItems(s, userId).value;
      forall k :: 0 <= k < |lines| ==> lines[k].productId in Ids(s.products) && lines[k].quantity >= 0
  {
    var client := GetClient(s, userId).value;
    match CartOf(s, client.id)
    case None =>
    case Some(cart) =>
      var items := Where(s.cartItems.rows, InCart(cart.id));
      assert forall x :: x in items ==> x.val.productId in Ids(s.products) && x.val.quantity >= 0;
      assert GetCartItems(s, userId) == Ok(Join(s, items));
      JoinStorable(s, items);
  }

  /** Items naming existing products with quantities of at least 0 join into lines
      that do too. */
  lemma {:induction false} JoinStorable(s: Store, items: seq<Row<CartItem>>)
    requires forall x :: x in items ==> x.val.productId in Ids(s.products) && x.val.quantity >= 0
    ensures var lines := Join(s, items);
      forall k :: 0 <= k < |lines| ==> lines[k].productId in Ids(s.products) && lines[k].quantity >= 0
  {
    var lines := Join(s, items);
    forall k | 0 <= k < |lines| ensures lines[k].productId in Ids(s.products) && lines[k].quantity >= 0 {
      assert items[k] in items;
    }
  }

  // ---------------------------------------------------------------------------
  // remove_from_cart

  /** `remove_from_cart(cart_item_id)`: the item is deleted; for an id no item has,
      `CartItem.DoesNotExist` is logged and nothing changes. */
  function RemoveFromCart(s: Store, itemId: int): (r: Store)
    requires WellFormed(s.cartItems)
    ensures WellFormed(r.cartItems)
    ensures r == s.(cartItems := r.cartItems)
    ensures itemId !in Ids(s.cartItems) ==> r == s
  {
    if itemId !in Ids(s.cartItems) then s
    else s.(cartItems := Delete(s.cartItems, itemId))
  }

  /** Exactly the item with that id is gone, and the schema constraints still hold. */
  lemma {:induction false} RemoveFromCartEffect(s: Store, itemId: int)
    requires Valid(s)
    ensures var r := RemoveFromCart(s, itemId);
      && Valid(r)
      && itemId !in Ids(r.cartItems)
      && forall x :: x in r.cartItems.rows <==> x in s.cartItems.rows && x.id != itemId
  {
    var r := RemoveFromCart(s, itemId);
    if itemId in Ids(s.cartItems) {
      WithCartTables(s, s.carts, r.cartItems);
    }
  }

  /** Removing the item of a pair empties that pair and leaves every other pair. */
  lemma {:induction false} RemoveFromCartLine(s: Store, itemId: nat, item: CartItem)
    requires WellFormed(s.cartItems) && LinesUnique(s.cartItems) && Row(itemId, item) in s.cartItems.rows
    ensures var r := RemoveFromCart(s, itemId);
      && LineQuantity(r, item.cartId, item.productId) == 0
      && OtherLinesKept(s, r, item.cartId, item.productId)
  {
    RowIds(s.cartItems);
    var r := RemoveFromCart(s, itemId);
    forall x | x in s.cartItems.rows && x.val.cartId == item.cartId && x.val.productId == item.productId
      ensures x.id == itemId
    {
      LinesUniqueAt(s.cartItems, x, Row(itemId, item));
    }
    forall x: Row<CartItem> | !(x.val.cartId == item.cartId && x.val.productId == item.productId) && x in s.cartItems.rows
      ensures x.id != itemId
    {
      if x.id == itemId {
        KeyUnique(s.cartItems, x, Row(itemId, item));
      }
    }
  }

  /** Removing twice is removing once (the second call finds nothing). */
  lemma {:induction false} RemoveFromCartTwice(s: Store, itemId: int)
    requires WellFormed(s.cartItems)
    ensures RemoveFromCart(RemoveFromCart(s, itemId), itemId) == RemoveFromCart(s, itemId)
  {
  }

  // ---------------------------------------------------------------------------
  // clear_cart

  /** The Telegram id of client `clientId` (the `cart__client__tg_id` path). */
  function TgIdOf(s: Store, clientId: int): (r: Option<int>)
    ensures r.Some? <==> clientId in Ids(s.clients)
  {
    match Get(s.clients, clientId)
    case None => None
    case Some(c) => Some(c.tgId)
  }

  /** Ids of the carts whose client has Telegram id `userId`. */
  function UserCartIds(s: Store, userId: int): set<nat> {
    set c | c in s.carts.rows && TgIdOf(s, c.val.clientId) == Some(userId) :: c.id
  }

  function InCarts(ids: set<nat>): CartItem -> bool {
    (x: CartItem) => x.cartId in ids
  }

  /** `clear_cart(user_id)`: when the user has any item (`aexists()`), every item
      of the user's carts is deleted in one statement; otherwise nothing happens. */
  function ClearCart(s: Store, userId: int): (r: Store)
    requires WellFormed(s.cartItems)
    ensures WellFormed(r.cartItems)
    ensures r == s.(cartItems := r.cartItems)
    ensures forall x :: x in r.cartItems.rows <==> x in s.cartItems.rows && x.val.cartId !in UserCartIds(s, userId)
  {
    var ids := UserCartIds(s, userId);
    if forall x :: x in s.cartItems.rows ==> x.val.cartId !in ids then s
    else s.(cartItems := DeleteWhere(s.cartItems, InCarts(ids)))
  }

  /** The `aexists()` test only saves a statement: deleting unconditionally leaves the
      same store. */
  lemma {:induction false} ClearCartIsDelete(s: Store, userId: int)
    requires WellFormed(s.cartItems)
    ensures ClearCart(s, userId) == s.(cartItems := DeleteWhere(s.cartItems, InCarts(UserCartIds(s, userId))))
  {
  }

  /** Clearing keeps the schema constraints, and clearing again changes nothing. */
  lemma {:induction false} ClearCartValid(s: Store, userId: int)
    requires Valid(s)
    ensures Valid(ClearCart(s, userId))
    ensures ClearCart(ClearCart(s, userId), userId) == ClearCart(s, userId)
  {
    var r := ClearCart(s, userId);
    WithCartTables(s, s.carts, r.cartItems);
  }

  /** The user's cart belongs to the carts `clear_cart` empties. */
  lemma {:induction false} UserCartCleared(s: Store, userId: int)
    requires Valid(s) && GetClient(s, userId).Some?
    requires CartOf(s, GetClient(s, userId).value.id).Some?
    ensures var cart := CartOf(s, GetClient(s, userId).value.id).value;
      TgIdOf(s, cart.val.clientId) == Some(userId) && cart.id in UserCartIds(s, userId)
  {
    var client := GetClient(s, userId).value;
    var cart := CartOf(s, client.id).value;
    RowIds(s.clients);
    var c := Get(s.clients, client.id).value;
    KeyUnique(s.clients, client, Row(client.id, c));
  }

  /** A cart `clear_cart` empties has no items left. */
  lemma {:induction false} ClearCartEmptiesCart(s: Store, userId: int, cartId: int, productId: int)
    requires WellFormed(s.cartItems) && cartId in UserCartIds(s, userId)
    ensures var r := ClearCart(s, userId);
      LineQuantity(r, cartId, productId) == 0 && Where(r.cartItems.rows, InCart(cartId)) == []
  {
    var r := ClearCart(s, userId);
    WhereNone(r.cartItems.rows, InCart(cartId));
  }

  /** After `clear_cart` the user holds nothing and lists no items. */
  lemma {:induction false} ClearCartEmpties(s: Store, userId: int, productId: int)
    requires Valid(s)
    ensures var r := ClearCart(s, userId);
      && UserQuantity(r, userId, productId) == 0
      && (GetClient(s, userId).Some? ==> GetCartItems(r, userId) == Ok([]))
  {
    var r := ClearCart(s, userId);
    match GetClient(s, userId)
    case None =>
    case Some(client) =>
      match CartOf(s, client.id)
      case None =>
      case Some(cart) =>
        UserCartCleared(s, userId);
        ClearCartEmptiesCart(s, userId, cart.id, productId);
  }

  /** A cart `clear_cart` does not empty keeps each of its pairs. */
  lemma {:induction false} ClearCartKeepsLine(s: Store, userId: int, cartId: int, productId: int)
    requires WellFormed(s.cartItems) && LinesUnique(s.cartItems) && cartId !in UserCartIds(s, userId)
    ensures LineQuantity(ClearCart(s, userId), cartId, productId) == LineQuantity(s, cartId, productId)
  {
    var r := ClearCart(s, userId);
    assert LinesUnique(r.cartItems) by {
      forall a, b | a in r.cartItems.rows && b in r.cartItems.rows && SameLine(a.val, b.val) ensures a == b {
        LinesUniqueAt(s.cartItems, a, b);
      }
    }
    match ItemFor(s, cartId, productId)
    case None =>
    case Some(x) =>
      ItemForOwn(r, x);
  }

  /** Another user's items are not touched by `clear_cart`. */
  lemma {:induction false} ClearCartOthers(s: Store, userId: int, other: int, productId: int)
    requires Valid(s) && other != userId
    ensures UserQuantity(ClearCart(s, userId), other, productId) == UserQuantity(s, other, productId)
  {
    var r := ClearCart(s, userId);
    assert r.clients == s.clients && r.carts == s.carts;
    match GetClient(s, other)
    case None =>
      assert GetClient(r, other).None?;
    case Some(client) =>
      assert GetClient(r, other) == Some(client);
      match CartOf(s, client.id)
      case None =>
        assert CartOf(r, client.id).None?;
      case Some(cart) =>
        assert CartOf(r, client.id) == Some(cart);
        assert cart.id !in UserCartIds(s, userId) by {
          if cart.id in UserCartIds(s, userId) {
            var c :| c in s.carts.rows && TgIdOf(s, c.val.clientId) == Some(userId) && c.id == cart.id;
            KeyUnique(s.carts, c, cart);
            UserCartCleared(s, other);
            assert false;
          }
        }
        ClearCartKeepsLine(s, userId, cart.id, productId);
        UserQuantityAt(s, other, client, cart, productId);
        UserQuantityAt(r, other, client, cart, productId);
  }
}

=== FILE: cart_handlers.dfy ===
/**
 * The cart screen of `bot/handlers/cart.py`: the listing with one remove button
 * per item and the checkout button, and the handler behind the remove buttons.
 */
module CartHandlers {
  import opened Wrappers
  import opened PyStr
  import opened Tables
  import opened Schema
  import opened CatalogDb
  import opened CartDb
  import opened Keyboards

  /** The data of the checkout button, which the checkout conversation answers. */
  const CHECKOUT_DATA: string := "checkout"

  /** The packed `RemoveFromCartCallback(id=...)`: the prefix "remove", the
      separator ":" and the id. */
  function RemoveData(itemId: nat): string {
    "remove:" + IntToStr(itemId)
  }

  function CheckoutRow(): seq<Button> {
    [Button("✅ Оформить заказ", CHECKOUT_DATA)]
  }

  function RemoveRow(line: CartLine): seq<Button> {
    [Button("❌ Удалить " + line.product.name, RemoveData(line.itemId))]
  }

  /** What `cart_handler` answers. */
  datatype CartScreen =
    | CartError                   // "Произошла ошибка при получении корзины..."
    | CartEmpty                   // "🛒 Ваша корзина пуста.", no keyboard
    | CartListing(keyboard: Keyboard)

  /** The keyboard of a non-empty cart: a remove row per line, in order, then the
      checkout row. */
  function CartKeyboard(lines: seq<CartLine>): (kb: Keyboard)
    ensures |kb| == |lines| + 1
    ensures forall k :: 0 <= k < |lines| ==> kb[k] == RemoveRow(lines[k])
    ensures kb[|lines|] == CheckoutRow()
  {
    seq(|lines|, k requires 0 <= k < |lines| => RemoveRow(lines[k])) + [CheckoutRow()]
  }

  /** `cart_handler`: an error message when reading the cart raises (for an
      unregistered user), the empty-cart message for no lines, the listing
      otherwise. */
  function CartView(s: Store, userId: int): (r: CartScreen)
    ensures r.CartError? <==> GetClient(s, userId).None?
    ensures r.CartEmpty? <==> GetCartItems(s, userId) == Ok([])
    ensures r.CartListing? ==> r.keyboard == CartKeyboard(GetCartItems(s, userId).value)
  {
    match GetCartItems(s, userId)
    case Err(_) => CartError
    case Ok(lines) => if lines == [] then CartEmpty else CartListing(CartKeyboard(lines))
  }

  /** The checkout button is offered once, as the last row, and only with a
      non-empty cart: no remove button carries its data. */
  lemma {:induction false} CheckoutOnlyLast(s: Store, userId: int)
    ensures var r := CartView(s, userId);
      && (r.CartListing? <==> GetCartItems(s, userId).Ok? && GetCartItems(s, userId).value != [])
      && (r.CartListing? ==>
            && |r.keyboard| == |GetCartItems(s, userId).value| + 1
            && forall k :: 0 <= k < |r.keyboard| ==>
                 (r.keyboard[k][0].callbackData == CHECKOUT_DATA <==> k == |r.keyboard| - 1))
  {
    var r := CartView(s, userId);
    if r.CartListing? {
      var lines := GetCartItems(s, userId).value;
      forall k | 0 <= k < |lines|
        ensures r.keyboard[k][0].callbackData != CHECKOUT_DATA
      {
        assert r.keyboard[k][0].callbackData[0] == 'r';
      }
    }
  }

  // ---------------------------------------------------------------------------
  // remove_from_cart_handler

  /** `int(data.split(":")[1])`. */
  function ParseRemove(data: string): (r: Result<int, Fault>)
    ensures r.Ok? <==> |Split(data, ':')| >= 2 && ParseInt(Split(data, ':')[1]).Some?
  {
    var parts := Split(data, ':');
    if |parts| < 2 then Err(IndexError)
    else match ParseInt(parts[1])
      case None => Err(ValueError)
      case Some(id) => Ok(id)
  }

  /** The data of a remove button reads back as its item id. */
  lemma {:induction false} RemoveDataRoundTrip(itemId: nat)
    ensures ParseRemove(RemoveData(itemId)) == Ok(itemId)
  {
    assert RemoveData(itemId) == "remove" + [':'] + IntToStr(itemId);
    SplitCons("remove", ':', IntToStr(itemId));
    SplitNone(IntToStr(itemId), ':');
    IntRoundTrip(itemId);
  }

  datatype RemoveReply = ItemRemoved | RemoveFailed  // "❌ Товар удалён." / the "Ошибка удаления." alert

  /** `remove_from_cart_handler` for data starting with "remove:". Whatever the
      parse or the delete raises is caught and answered with the alert; a missing
      item is not an error (`remove_from_cart` swallows `DoesNotExist`).
      `deleteFails` says whether the database fails the delete itself. */
  function RemovePress(s: Store, data: string, deleteFails: bool): (r: (Store, RemoveReply))
    requires WellFormed(s.cartItems)
    ensures r.1.RemoveFailed? <==> ParseRemove(data).Err? || deleteFails
    ensures r.1.RemoveFailed? ==> r.0 == s
    ensures r.1.ItemRemoved? ==> r.0 == RemoveFromCart(s, ParseRemove(data).value)
  {
    match ParseRemove(data)
    case Err(_) => (s, RemoveFailed)
    case Ok(id) => if deleteFails then (s, RemoveFailed) else (RemoveFromCart(s, id), ItemRemoved)
  }

  /** Every listed line is an item of the table (the listing joins every item with
      its product when the schema holds). */
  lemma {:induction false} ListedLineStored(s: Store, userId: int, k: nat)
    requires Valid(s) && GetCartItems(s, userId).Ok? && k < |GetCartItems(s, userId).value|
    ensures var l := GetCartItems(s, userId).value[k];
      exists x :: x in s.cartItems.rows && x.id == l.itemId && x.val.productId == l.productId
  {
    var client := GetClient(s, userId).value;
    var cart := CartOf(s, client.id).value;
    var items := Where(s.cartItems.rows, InCart(cart.id));
    forall x | x in items
      ensures x.val.productId in Ids(s.products)
    {
    }
    assert items[k] in items;
  }

  /** Pressing the remove button of the k-th listed line deletes exactly that item:
      it is gone, every other item stays, and the schema constraints still hold. */
  lemma {:induction false} RemoveButtonRemovesLine(s: Store, userId: int, k: nat)
    requires Valid(s) && CartView(s, userId).CartListing?
    requires k < |GetCartItems(s, userId).value|
    ensures var line := GetCartItems(s, userId).value[k];
      var (s', reply) := RemovePress(s, CartView(s, userId).keyboard[k][0].callbackData, false);
      && reply == ItemRemoved
      && Valid(s')
      && line.itemId !in Ids(s'.cartItems)
      && forall x :: x in s'.cartItems.rows <==> x in s.cartItems.rows && x.id != line.itemId
  {
    var line := GetCartItems(s, userId).value[k];
    RemoveDataRoundTrip(line.itemId);
    RemoveFromCartEffect(s, line.itemId);
  }

  /** Data whose second ":" field is not an integer gets the alert and changes
      nothing. */
  lemma {:induction false} BadRemoveDataAlerts(s: Store, data: string, deleteFails: bool)
    requires WellFormed(s.cartItems) && StartsWith(data, "remove:") && ParseInt(Split(data[7..], ':')[0]).None?
    ensures RemovePress(s, data, deleteFails) == (s, RemoveFailed)
  {
    RemoveDataFields(data);
    RemoveRejects(data, ParseInt(Split(data, ':')[1]));
  }

  /** The fields of "remove:..." data are "remove" followed by the fields of the rest. */
  lemma {:induction false} RemoveDataFields(data: string)
    requires StartsWith(data, "remove:")
    ensures Split(data, ':') == ["remove"] + Split(data[7..], ':')
  {
    assert data == "remove" + [':'] + data[7..];
    SplitCons("remove", ':', data[7..]);
  }

  /** Data whose second ":" field does not parse is refused. */
  lemma {:induction false} RemoveRejects(data: string, field: Option<int>)
    requires |Split(data, ':')| >= 2 && field == ParseInt(Split(data, ':')[1]) && field.None?
    ensures ParseRemove(data).Err?
  {
  }

  /** A press on the button of an item someone already removed answers "removed"
      and changes nothing. */
  lemma {:induction false} StaleRemoveIsNoOp(s: Store, itemId: nat)
    requires WellFormed(s.cartItems) && itemId !in Ids(s.cartItems)
    ensures RemovePress(s, RemoveData(itemId), false) == (s, ItemRemoved)
  {
    RemoveDataRoundTrip(itemId);
  }
}

=== FILE: catalog_db.dfy ===
/**
 * Client registration and the catalog reads: `create_client` / `get_client`,
 * `get_product`, the offset/limit listings and their counts.
 */
module CatalogDb {
  import opened Wrappers
  import opened Tables
  import opened Schema

  /** Default page size of every listing. */
  const ITEMS_PER_PAGE: nat := 3

  /** The row filter "client with this Telegram id". */
  function HasTgId(tgId: int): Row<Client> -> bool {
    (x: Row<Client>) => x.val.tgId == tgId
  }

  /** `get_client`: the client with this Telegram id, or `None` (never an error). */
  function GetClient(s: Store, tgId: int): (r: Option<Row<Client>>)
    ensures r.Some? ==> r.value in s.clients.rows && r.value.val.tgId == tgId
    ensures r.None? <==> forall x :: x in s.clients.rows ==> x.val.tgId != tgId
  {
    First(s.clients.rows, HasTgId(tgId))
  }

  /** Under the unique constraint on `tg_id`, the client found is the only one. */
  lemma {:induction false} GetClientUnique(s: Store, x: Row<Client>)
    requires ClientsValid(s.clients) && x in s.clients.rows
    ensures GetClient(s, x.val.tgId) == Some(x)
  {
  }

  /** `create_client`: INSERT of a client row; the unique `tg_id` refuses a second one,
      and then nothing is written. */
  function CreateClient(s: Store, tgId: int, username: Option<string>): (r: Result<(Store, nat), Fault>)
    requires Valid(s)
    ensures r.Ok? <==> GetClient(s, tgId).None?
    ensures r.Err? ==> r.error == IntegrityError
    ensures r.Ok? ==> var (s', id) := r.value;
      && Valid(s')
      && s' == s.(clients := s'.clients)
      && id !in Ids(s.clients)
      && GetClient(s', tgId) == Some(Row(id, Client(tgId, username)))
      && (forall t :: t != tgId ==> GetClient(s', t) == GetClient(s, t))
  {
    if GetClient(s, tgId).Some? then Err(IntegrityError)
    else
      InsertClient(s, tgId, username);
      var (clients, id) := Insert(s.clients, Client(tgId, username));
      Ok((s.(clients := clients), id))
  }

  lemma {:induction false} InsertClient(s: Store, tgId: int, username: Option<string>)
    requires Valid(s) && GetClient(s, tgId).None?
    ensures var (clients, id) := Insert(s.clients, Client(tgId, username));
      var s' := s.(clients := clients);
      && Valid(s')
      && GetClient(s', tgId) == Some(Row(id, Client(tgId, username)))
      && (forall t :: t != tgId ==> GetClient(s', t) == GetClient(s, t))
  {
    var (clients, id) := Insert(s.clients, Client(tgId, username));
    var s' := s.(clients := clients);
    var x := Row(id, Client(tgId, username));
    FirstAppend(s.clients.rows, x, HasTgId(tgId));
    forall t | t != tgId ensures GetClient(s', t) == GetClient(s, t) {
      FirstAppend(s.clients.rows, x, HasTgId(t));
    }
    assert ClientsValid(clients);
    assert Ids(s.clients) <= Ids(clients);
  }

  /** `get_product`: the product with this id, or `None`. */
  function GetProduct(s: Store, productId: int): (r: Option<Product>)
    ensures r.Some? <==> productId in Ids(s.products)
    ensures r.Some? ==> Row(productId as nat, r.value) in s.products.rows
  {
    Get(s.products, productId)
  }

  // ---------------------------------------------------------------------------
  // Listings

  /** Django queryset slicing `qs[offset:offset + limit]`: a negative bound raises;
      otherwise the rows from `offset` up to `offset + limit`, clipped to the list. */
  function Slice<T>(xs: seq<T>, offset: int, limit: int): (r: Result<seq<T>, Fault>)
    ensures r.Err? <==> offset < 0 || offset + limit < 0
    ensures r.Err? ==> r.error == NegativeIndex
    ensures r.Ok? ==> |r.value| == 0 || |r.value| <= limit
    ensures r.Ok? ==> forall k :: 0 <= k < |r.value| ==> offset + k < |xs| && r.value[k] == xs[offset + k]
    ensures r.Ok? && 0 <= limit && offset + limit <= |xs| ==> |r.value| == limit
    ensures r.Ok? && offset <= |xs| <= offset + limit ==> |r.value| == |xs| - offset
  {
    if offset < 0 || offset + limit < 0 then Err(NegativeIndex)
    else
      var hi := if offset + limit < |xs| then offset + limit else |xs|;
      var lo := if offset < hi then offset else hi;
      Ok(xs[lo..hi])
  }

  /** Subcategories of `categoryId`, in table order. */
  function SubcategoriesOf(s: Store, categoryId: int): (r: seq<Row<Subcategory>>)
    ensures forall x :: x in r <==> x in s.subcategories.rows && x.val.categoryId == categoryId
  {
    Where(s.subcategories.rows, (x: Row<Subcategory>) => x.val.categoryId == categoryId)
  }

  /** Products of subcategory `subId`, in table order. */
  function ProductsOf(s: Store, subId: int): (r: seq<Row<Product>>)
    ensures forall x :: x in r <==> x in s.products.rows && x.val.subcategoryId == Some(subId)
  {
    Where(s.products.rows, (x: Row<Product>) => x.val.subcategoryId.Some? && x.val.subcategoryId.value == subId)
  }

  /** `get_categories(offset, limit)`: a run of stored categories, in table order. */
  function GetCategories(s: Store, offset: int, limit: int): (r: Result<seq<Row<Category>>, Fault>)
    ensures r.Err? <==> offset < 0 || offset + limit < 0
    ensures r.Ok? ==> forall x :: x in r.value ==> x in s.categories.rows
  {
    Slice(s.categories.rows, offset, limit)
  }

  /** `get_subcategories(category_id, offset, limit)`: filter by parent, then slice;
      every row fetched is a subcategory of that category. */
  function GetSubcategories(s: Store, categoryId: int, offset: int, limit: int): (r: Result<seq<Row<Subcategory>>, Fault>)
    ensures r.Err? <==> offset < 0 || offset + limit < 0
    ensures r.Ok? ==> forall x :: x in r.value ==> x in s.subcategories.rows && x.val.categoryId == categoryId
  {
    Slice(SubcategoriesOf(s, categoryId), offset, limit)
  }

  /** `get_products(subcategory_id, offset, limit)`: filter by parent, then slice;
      every row fetched is a product of that subcategory. */
  function GetProducts(s: Store, subId: int, offset: int, limit: int): (r: Result<seq<Row<Product>>, Fault>)
    ensures r.Err? <==> offset < 0 || offset + limit < 0
    ensures r.Ok? ==> forall x :: x in r.value ==> x in s.products.rows && x.val.subcategoryId == Some(subId)
  {
    Slice(ProductsOf(s, subId), offset, limit)
  }

  /** `count_categories()`: zero exactly when there is no category. */
  function CountCategories(s: Store): (r: nat)
    ensures r == 0 <==> forall x :: x !in s.categories.rows
  {
    var xs := s.categories.rows;
    assert |xs| > 0 ==> xs[0] in xs;
    |xs|
  }

  /** `count_subcategories(category_id)`: zero exactly when the category has none. */
  function CountSubcategories(s: Store, categoryId: int): (r: nat)
    ensures r == 0 <==> forall x :: x in s.subcategories.rows ==> x.val.categoryId != categoryId
  {
    var xs := SubcategoriesOf(s, categoryId);
    assert |xs| > 0 ==> xs[0] in xs;
    |xs|
  }

  /** `count_products(subcategory_id)`: zero exactly when the subcategory has none. */
  function CountProducts(s: Store, subId: int): (r: nat)
    ensures r == 0 <==> forall x :: x in s.products.rows ==> x.val.subcategoryId != Some(subId)
  {
    var xs := ProductsOf(s, subId);
    assert |xs| > 0 ==> xs[0] in xs;
    |xs|
  }

  /** Number of pages of `ITEMS_PER_PAGE` needed for `n` rows, `ceil(n / ITEMS_PER_PAGE)`. */
  function PageCount(n: nat): nat {
    (n + ITEMS_PER_PAGE - 1) / ITEMS_PER_PAGE
  }

  /** The listing fetched for page `page`: offset `page * ITEMS_PER_PAGE`, limit `ITEMS_PER_PAGE`. */
  function Page<T>(xs: seq<T>, page: nat): seq<T> {
    Slice(xs, page * ITEMS_PER_PAGE, ITEMS_PER_PAGE).value
  }

  /** Pages `from`, `from + 1`, ..., `to - 1` one after the other. */
  function Pages<T>(xs: seq<T>, from: nat, to: nat): seq<T>
    decreases to - from
  {
    if from >= to then [] else Page(xs, from) + Pages(xs, from + 1, to)
  }

  /** Paging through a listing page by page, up to the page count computed from its
      count, yields every row exactly once and in order. */
  lemma {:induction false} PagesCoverAll<T>(xs: seq<T>)
    ensures Pages(xs, 0, PageCount(|xs|)) == xs
  {
    PagesSuffix(xs, 0);
  }

  lemma {:induction false} PagesSuffix<T>(xs: seq<T>, from: nat)
    requires from <= PageCount(|xs|)
    ensures from * ITEMS_PER_PAGE <= |xs| || from == PageCount(|xs|)
    ensures Pages(xs, from, PageCount(|xs|))
         == if from * ITEMS_PER_PAGE <= |xs| then xs[from * ITEMS_PER_PAGE..] else []
    decreases PageCount(|xs|) - from
  {
    var n := PageCount(|xs|);
    if from < n {
      PagesSuffix(xs, from + 1);
      var lo := from * ITEMS_PER_PAGE;
      assert lo < |xs|;
      if lo + ITEMS_PER_PAGE <= |xs| {
        assert Page(xs, from) == xs[lo..lo + ITEMS_PER_PAGE];
        assert xs[lo..] == xs[lo..lo + ITEMS_PER_PAGE] + xs[lo + ITEMS_PER_PAGE..];
      } else {
        assert Page(xs, from) == xs[lo..];
        assert from + 1 == n;
      }
    }
  }

  /** `count_categories()` is the length of the unsliced listing, and the pages it
      implies give back all categories. */
  lemma {:induction false} CategoryPagesCoverAll(s: Store)
    ensures Pages(s.categories.rows, 0, PageCount(CountCategories(s))) == s.categories.rows
  {
    PagesCoverAll(s.categories.rows);
  }

  lemma {:induction false} SubcategoryPagesCoverAll(s: Store, categoryId: int)
    ensures Pages(SubcategoriesOf(s, categoryId), 0, PageCount(CountSubcategories(s, categoryId)))
         == SubcategoriesOf(s, categoryId)
  {
    PagesCoverAll(SubcategoriesOf(s, categoryId));
  }

  lemma {:induction false} ProductPagesCoverAll(s: Store, subId: int)
    ensures Pages(ProductsOf(s, subId), 0, PageCount(CountProducts(s, subId))) == ProductsOf(s, subId)
  {
    PagesCoverAll(ProductsOf(s, subId));
  }
}

=== FILE: catalog_handlers.dfy ===
/**
 * The catalog browser of `bot/handlers/catalog.py`: the paginated keyboards it
 * builds, how the callback data of their buttons is routed and parsed back, and
 * the screen each press produces.
 */
module CatalogHandlers {
  import opened Wrappers
  import opened PyStr
  import opened Tables
  import opened Schema
  import opened CatalogDb
  import opened Keyboards

  // ---------------------------------------------------------------------------
  // generate_pagination_keyboard

  /** What a listing shows of a row: its id and its name. */
  datatype Entry = Entry(id: nat, name: string)

  const BACK_TEXT: string := "⬅️ Назад"
  const FORWARD_TEXT: string := "➡️ Вперед"

  /** The button to page `page` of a listing whose buttons carry `prefix`. */
  function PageButton(text: string, prefix: string, page: int): Button {
    Button(text, prefix + "_page_" + IntToStr(page))
  }

  /** The navigation row: "back" to the previous page when this is not the first
      page, "forward" to the next one when rows remain after this page. */
  function NavRow(totalCount: int, prefix: string, page: int): (nav: seq<Button>)
    ensures PageButton(BACK_TEXT, prefix, page - 1) in nav <==> page > 0
    ensures PageButton(FORWARD_TEXT, prefix, page + 1) in nav <==> (page + 1) * ITEMS_PER_PAGE < totalCount
    ensures forall b :: b in nav ==> b == PageButton(BACK_TEXT, prefix, page - 1) || b == PageButton(FORWARD_TEXT, prefix, page + 1)
    ensures |nav| <= 2 && (|nav| == 2 ==> nav[0].text == BACK_TEXT)
  {
    (if page > 0 then [PageButton(BACK_TEXT, prefix, page - 1)] else [])
    + (if (page + 1) * ITEMS_PER_PAGE < totalCount then [PageButton(FORWARD_TEXT, prefix, page + 1)] else [])
  }

  /** The data of the button for one entry. */
  function ItemData(prefix: string, id: nat): string {
    prefix + "_" + IntToStr(id)
  }

  /** `generate_pagination_keyboard(items, total_count, prefix, page)`: one row per
      entry, in order, then the navigation row when it has a button. */
  function PaginationKeyboard(items: seq<Entry>, totalCount: int, prefix: string, page: int): (r: Keyboard)
    ensures |r| == |items| + (if NavRow(totalCount, prefix, page) == [] then 0 else 1)
    ensures forall k :: 0 <= k < |items| ==> r[k] == [Button(items[k].name, ItemData(prefix, items[k].id))]
    ensures |r| > |items| ==> r[|r| - 1] == NavRow(totalCount, prefix, page)
    ensures forall k :: 0 <= k < |r| ==> r[k] != []
  {
    var rows := seq(|items|, k requires 0 <= k < |items| => [Button(items[k].name, ItemData(prefix, items[k].id))]);
    var nav := NavRow(totalCount, prefix, page);
    rows + (if nav == [] then [] else [nav])
  }

  // ---------------------------------------------------------------------------
  // Listings

  /** The three levels of the catalog. */
  datatype Level = Categories | Subcategories | Products

  function Entries<T>(rows: seq<Row<T>>, name: T -> string): (r: seq<Entry>)
    ensures |r| == |rows|
    ensures forall k :: 0 <= k < |rows| ==> r[k] == Entry(rows[k].id, name(rows[k].val))
  {
    seq(|rows|, k requires 0 <= k < |rows| => Entry(rows[k].id, name(rows[k].val)))
  }

  /** Entries of a slice are the slice of the entries. */
  lemma {:induction false} EntriesSlice<T>(rows: seq<Row<T>>, name: T -> string, lo: nat, hi: nat)
    requires lo <= hi <= |rows|
    ensures Entries(rows[lo..hi], name) == Entries(rows, name)[lo..hi]
  {
  }

  /** The unsliced listing of a level: all categories, the subcategories of
      category `parent`, or the products of subcategory `parent`. */
  function All(s: Store, level: Level, parent: int): (r: seq<Entry>)
    ensures level.Categories? ==> |r| == CountCategories(s)
    ensures level.Subcategories? ==> |r| == CountSubcategories(s, parent)
    ensures level.Products? ==> |r| == CountProducts(s, parent)
  {
    match level
    case Categories => Entries(s.categories.rows, (c: Category) => c.name)
    case Subcategories => Entries(SubcategoriesOf(s, parent), (c: Subcategory) => c.name)
    case Products => Entries(ProductsOf(s, parent), (p: Product) => p.name)
  }

  function EntriesOf<T>(r: Result<seq<Row<T>>, Fault>, name: T -> string): Result<seq<Entry>, Fault> {
    match r
    case Ok(rows) => Ok(Entries(rows, name))
    case Err(e) => Err(e)
  }

  /** The rows the handler fetches for page `page`: `get_categories`,
      `get_subcategories` or `get_products` at offset `page * ITEMS_PER_PAGE`. */
  function Fetch(s: Store, level: Level, parent: int, page: int): Result<seq<Entry>, Fault> {
    match level
    case Categories => EntriesOf(GetCategories(s, page * ITEMS_PER_PAGE, ITEMS_PER_PAGE), (c: Category) => c.name)
    case Subcategories =>
      EntriesOf(GetSubcategories(s, parent, page * ITEMS_PER_PAGE, ITEMS_PER_PAGE), (c: Subcategory) => c.name)
    case Products => EntriesOf(GetProducts(s, parent, page * ITEMS_PER_PAGE, ITEMS_PER_PAGE), (p: Product) => p.name)
  }

  lemma {:induction false} SliceEntries<T>(rows: seq<Row<T>>, name: T -> string, page: int)
    ensures var r := EntriesOf(Slice(rows, page * ITEMS_PER_PAGE, ITEMS_PER_PAGE), name);
      && (r.Err? <==> page < 0)
      && (r.Err? ==> r.error == NegativeIndex)
      && (r.Ok? ==> r.value == Page(Entries(rows, name), page))
  {
    if page >= 0 {
      var lo := page * ITEMS_PER_PAGE;
      var hi := if lo + ITEMS_PER_PAGE < |rows| then lo + ITEMS_PER_PAGE else |rows|;
      var lo' := if lo < hi then lo else hi;
      EntriesSlice(rows, name, lo', hi);
    }
  }

  /** A fetch fails exactly for a negative page; otherwise it is that page of the
      unsliced listing. */
  lemma {:induction false} FetchIsPage(s: Store, level: Level, parent: int, page: int)
    ensures var r := Fetch(s, level, parent, page);
      && (r.Err? <==> page < 0)
      && (r.Err? ==> r.error == NegativeIndex)
      && (r.Ok? ==> r.value == Page(All(s, level, parent), page))
  {
    match level
    case Categories => SliceEntries(s.categories.rows, (c: Category) => c.name, page);
    case Subcategories => SliceEntries(SubcategoriesOf(s, parent), (c: Subcategory) => c.name, page);
    case Products => SliceEntries(ProductsOf(s, parent), (p: Product) => p.name, page);
  }

  /** The `callback_prefix` of a listing: "category" for the categories,
      "subcategory_{category_id}" and "product_{subcategory_id}" below. */
  function Prefix(level: Level, parent: int): string {
    match level
    case Categories => "category"
    case Subcategories => "subcategory_" + IntToStr(parent)
    case Products => "product_" + IntToStr(parent)
  }

  /** What the bot shows after a press. */
  datatype Screen =
    | Listing(level: Level, keyboard: Keyboard)  // "Выберите категорию/подкатегорию/товар:"
    | ProductNotFound                            // the "Товар не найден!" alert
    | Raised(fault: Fault)                       // the handler raised; no reply
    | NotHandled                                 // no catalog handler matches the data

  /** One listing page: fetch the page, count the unsliced listing, build the
      keyboard. */
  function ListingScreen(s: Store, level: Level, parent: int, page: int): (r: Screen)
    ensures r.Raised? <==> page < 0
    ensures r.Raised? ==> r.fault == NegativeIndex
    ensures r.Listing? ==> r.level == level && r.keyboard == PaginationKeyboard(Page(All(s, level, parent), page),
                                                                               |All(s, level, parent)|, Prefix(level, parent), page)
  {
    FetchIsPage(s, level, parent, page);
    match Fetch(s, level, parent, page)
    case Err(e) => Raised(e)
    case Ok(items) =>
      var total := match level
        case Categories => CountCategories(s)
        case Subcategories => CountSubcategories(s, parent)
        case Products => CountProducts(s, parent);
      Listing(level, PaginationKeyboard(items, total, Prefix(level, parent), page))
  }

  /** `catalog_handler` ("🛍 Каталог"): the first page of the categories, one button
      per category, then a lone "forward" button to page 1 exactly when more
      categories exist than one page holds; never a "back" button. */
  function CatalogCommand(s: Store): (r: Screen)
    ensures r.Listing? && r.level == Categories
    ensures var first := Page(All(s, Categories, 0), 0);
      && |r.keyboard| == |first| + (if CountCategories(s) > ITEMS_PER_PAGE then 1 else 0)
      && (forall k :: 0 <= k < |first| ==> r.keyboard[k] == [Button(first[k].name, ItemData("category", first[k].id))])
      && (CountCategories(s) > ITEMS_PER_PAGE ==> r.keyboard[|first|] == [PageButton(FORWARD_TEXT, "category", 1)])
  {
    ListingScreen(s, Categories, 0, 0)
  }

  /** The buttons of the first catalog screen lead, as written, where they say:
      the k-th opens the k-th category, and "forward" shows page 1. */
  lemma {:induction false} CatalogCommandLeads(s: Store, k: nat)
    ensures var kb := CatalogCommand(s).keyboard;
      var first := Page(All(s, Categories, 0), 0);
      && (k < |first| ==> ParseAsWritten(kb[k][0].callbackData) == OpenCategory(first[k].id))
      && (CountCategories(s) > ITEMS_PER_PAGE ==>
            PressAsWritten(s, kb[|first|][0].callbackData) == ListingScreen(s, Categories, 0, 1))
  {
    var first := Page(All(s, Categories, 0), 0);
    if k < |first| {
      CategoryItemsAgree(first[k].id);
    }
    CategoryPagePrefix(1);
    CategoryPagesAgree(1);
  }

  /** "Forward" is offered exactly when the next page has rows, that is, until the
      page count implied by the listing's count is reached; "back" exactly after
      the first page. Following "forward" from page 0 therefore visits the pages
      that `PagesCoverAll` puts together into the whole listing. */
  lemma {:induction false} NavigationMatchesPages(xs: seq<Entry>, prefix: string, page: nat)
    ensures var nav := NavRow(|xs|, prefix, page);
      && (PageButton(FORWARD_TEXT, prefix, page + 1) in nav <==> Page(xs, page + 1) != [])
      && (PageButton(FORWARD_TEXT, prefix, page + 1) in nav <==> page + 1 < PageCount(|xs|))
      && (PageButton(BACK_TEXT, prefix, page - 1) in nav <==> page > 0)
  {
    var lo := (page + 1) * ITEMS_PER_PAGE;
    if lo < |xs| {
      assert Page(xs, page + 1)[0] == xs[lo];
    }
  }

  // ---------------------------------------------------------------------------
  // Routing and parsing the callback data

  /** Where a press leads: the page or the item the handler ends up showing, or the
      exception it raises while reading the data. */
  datatype Target =
    | CategoryPage(page: int)
    | OpenCategory(categoryId: int)
    | SubcategoryPage(categoryId: int, page: int)
    | OpenSubcategory(subcategoryId: int)
    | ProductPage(subcategoryId: int, page: int)
    | OpenProduct(productId: int)
    | Failed(fault: Fault)
    | Unrouted

  /** `int(parts[i])`: `IndexError` past the end, `ValueError` for non-integers. */
  function IntField(parts: seq<string>, i: nat): (r: Result<int, Fault>)
    ensures r.Ok? <==> i < |parts| && ParseInt(parts[i]).Some?
    ensures r.Ok? ==> r.value == ParseInt(parts[i]).value
    ensures r.Err? ==> r.error == (if i < |parts| then ValueError else IndexError)
  {
    if i >= |parts| then Err(IndexError)
    else match ParseInt(parts[i])
      case None => Err(ValueError)
      case Some(v) => Ok(v)
  }

  /** `int(parts[-1])`. */
  function LastField(parts: seq<string>): (r: Result<int, Fault>)
    requires |parts| >= 1
    ensures r == IntField(parts, |parts| - 1)
  {
    match ParseInt(parts[|parts| - 1])
    case None => Err(ValueError)
    case Some(v) => Ok(v)
  }

  /** A field holding a number's text reads back as that number. */
  lemma {:induction false} IntFieldOf(parts: seq<string>, i: nat, n: int)
    requires i < |parts| && parts[i] == IntToStr(n)
    ensures IntField(parts, i) == Ok(n)
    ensures i == |parts| - 1 ==> LastField(parts) == Ok(n)
  {
    IntRoundTrip(n);
  }

  /** The target of an opening handler that reads `int(parts[1])`. */
  function Opened(parts: seq<string>, open: int -> Target): Target {
    match IntField(parts, 1)
    case Err(e) => Failed(e)
    case Ok(id) => open(id)
  }

  /** The target of a paging handler that reads `int(parts[1])` as the parent and
      `int(parts[-1])` as the page, in that order. */
  function Paged(parts: seq<string>, paged: (int, int) -> Target): Target
    requires |parts| >= 1
  {
    match IntField(parts, 1)
    case Err(e) => Failed(e)
    case Ok(parent) =>
      match LastField(parts)
      case Err(e) => Failed(e)
      case Ok(page) => paged(parent, page)
  }

  /** The catalog handlers in registration order. */
  datatype Handler =
    | CategoryPaging | CategoryOpening | SubcategoryPaging | SubcategoryOpening
    | ProductPaging | ProductOpening | NoHandler

  /** The first handler whose `startswith` filter accepts the data. */
  function Route(data: string): (h: Handler)
    ensures h.NoHandler? <==> !StartsWith(data, "category_") && !StartsWith(data, "subcategory_") && !StartsWith(data, "product_")
  {
    if StartsWith(data, "category_page_") then CategoryPaging
    else if StartsWith(data, "category_") then CategoryOpening
    else if StartsWith(data, "subcategory_page_") then SubcategoryPaging
    else if StartsWith(data, "subcategory_") then SubcategoryOpening
    else if StartsWith(data, "product_page_") then ProductPaging
    else if StartsWith(data, "product_") then ProductOpening
    else NoHandler
  }

  /** What each handler reads from the `split("_")` fields: the category pager
      only the last field, the other pagers field 1 and the last field, the
      openers field 1. */
  function Apply(h: Handler, parts: seq<string>): (t: Target)
    requires |parts| >= 1
    ensures t.Unrouted? <==> h.NoHandler?
  {
    match h
    case CategoryPaging =>
      (match LastField(parts)
       case Err(e) => Failed(e)
       case Ok(page) => CategoryPage(page))
    case CategoryOpening => Opened(parts, id => OpenCategory(id))
    case SubcategoryPaging => Paged(parts, (c, p) => SubcategoryPage(c, p))
    case SubcategoryOpening => Opened(parts, id => OpenSubcategory(id))
    case ProductPaging => Paged(parts, (c, p) => ProductPage(c, p))
    case ProductOpening => Opened(parts, id => OpenProduct(id))
    case NoHandler => Unrouted
  }

  /** The catalog router as written. */
  function ParseAsWritten(data: string): (t: Target)
    ensures t.Unrouted? <==> !StartsWith(data, "category_") && !StartsWith(data, "subcategory_") && !StartsWith(data, "product_")
  {
    Apply(Route(data), Split(data, '_'))
  }

  /** `int(parts[i])` as a target. */
  function IntTarget(parts: seq<string>, i: nat, open: int -> Target): Target {
    match IntField(parts, i)
    case Err(e) => Failed(e)
    case Ok(v) => open(v)
  }

  /** The name of a level in its buttons' data. */
  function Head(level: Level): string {
    match level
    case Categories => "category"
    case Subcategories => "subcategory"
    case Products => "product"
  }

  /** The level a data string names in its first field. */
  function LevelOf(head: string): (r: Option<Level>)
    ensures r.Some? ==> head == Head(r.value)
  {
    if head == "category" then Some(Categories)
    else if head == "subcategory" then Some(Subcategories)
    else if head == "product" then Some(Products)
    else None
  }

  /** The router the keyboards were evidently built for: the nested prefixes
      "subcategory_{category_id}" and "product_{subcategory_id}" put the parent in
      field 1, so an item button names its item in the last field, and a page
      button carries "page" right after the parent. */
  function ParseFixed(data: string): (t: Target)
    ensures t.Failed? ==> t.fault == ValueError
  {
    var parts := Split(data, '_');
    match LevelOf(parts[0])
    case None => Unrouted
    case Some(level) =>
      if level.Categories? then
        if |parts| == 3 && parts[1] == "page" then IntTarget(parts, 2, p => CategoryPage(p))
        else if |parts| == 2 then IntTarget(parts, 1, id => OpenCategory(id))
        else Unrouted
      else if |parts| == 4 && parts[2] == "page" then Paged(parts, (c, p) => PageTarget(level, c, p))
      else if |parts| == 3 then IntTarget(parts, 2, id => Open(level, id))
      else Unrouted
  }

  /** The screen a target leads to. An existing product always raises `TypeError`:
      the handler calls `os.path(...)`, and a module is not callable. */
  function Show(s: Store, t: Target): (r: Screen)
    ensures r.ProductNotFound? <==> t.OpenProduct? && GetProduct(s, t.productId).None?
    ensures t.OpenProduct? && GetProduct(s, t.productId).Some? ==> r == Raised(TypeError)
    ensures t.Failed? ==> r == Raised(t.fault)
    ensures r.NotHandled? <==> t.Unrouted?
  {
    match t
    case CategoryPage(page) => ListingScreen(s, Categories, 0, page)
    case OpenCategory(categoryId) => ListingScreen(s, Subcategories, categoryId, 0)
    case SubcategoryPage(categoryId, page) => ListingScreen(s, Subcategories, categoryId, page)
    case OpenSubcategory(subId) => ListingScreen(s, Products, subId, 0)
    case ProductPage(subId, page) => ListingScreen(s, Products, subId, page)
    case OpenProduct(productId) => if GetProduct(s, productId).None? then ProductNotFound else Raised(TypeError)
    case Failed(e) => Raised(e)
    case Unrouted => NotHandled
  }

  /** A press, handled as written. */
  function PressAsWritten(s: Store, data: string): (r: Screen)
    ensures r.NotHandled? <==> !StartsWith(data, "category_") && !StartsWith(data, "subcategory_") && !StartsWith(data, "product_")
  {
    Show(s, ParseAsWritten(data))
  }

  /** A press, handled by the corrected router. */
  function PressFixed(s: Store, data: string): (r: Screen)
    ensures r.NotHandled? <==> ParseFixed(data).Unrouted?
  {
    Show(s, ParseFixed(data))
  }

  /** The page a level's page buttons lead to, and the listing an item opens. */
  function PageTarget(level: Level, parent: int, page: int): Target {
    match level
    case Categories => CategoryPage(page)
    case Subcategories => SubcategoryPage(parent, page)
    case Products => ProductPage(parent, page)
  }

  function Open(level: Level, id: int): Target {
    match level
    case Categories => OpenCategory(id)
    case Subcategories => OpenSubcategory(id)
    case Products => OpenProduct(id)
  }

  // ---------------------------------------------------------------------------
  // Routing and splitting the data the keyboards carry

  /** The handler that opens an entry of each level. */
  function Opening(level: Level): Handler {
    match level
    case Categories => CategoryOpening
    case Subcategories => SubcategoryOpening
    case Products => ProductOpening
  }

  lemma {:induction false} Differs(data: string, filter: string, k: nat)
    requires k < |data| && k < |filter| && data[k] != filter[k]
    ensures !StartsWith(data, filter)
  {
  }

  lemma {:induction false} Begins(data: string, filter: string, rest: string)
    requires data == filter + rest
    ensures StartsWith(data, filter)
  {
  }

  /** A number's text begins with a digit or "-", never with "p". */
  lemma {:induction false} NotP(n: int)
    ensures IntToStr(n)[0] != 'p'
  {
  }

  /** An item button of the category listing reaches the opening handler. */
  lemma {:induction false} RouteCategoryItem(id: nat)
    ensures Route(ItemData("category", id)) == CategoryOpening
  {
    var data := ItemData("category", id);
    NotP(id);
    assert data[9] == IntToStr(id)[0];
    Differs(data, "category_page_", 9);
    Begins(data, "category_", IntToStr(id));
  }

  /** A page button of the category listing reaches the category pager. */
  lemma {:induction false} RouteCategoryPage(page: int)
    ensures Route(Prefix(Categories, 0) + "_page_" + IntToStr(page)) == CategoryPaging
  {
    Begins(Prefix(Categories, 0) + "_page_" + IntToStr(page), "category_page_", IntToStr(page));
  }

  /** Whatever follows the prefix "subcategory_{id}", the data reaches the opening
      handler of subcategories: its 13th character is the id's first, not "p". */
  lemma {:induction false} RouteSubcategory(parent: int, rest: string)
    ensures Route(Prefix(Subcategories, parent) + rest) == SubcategoryOpening
  {
    var data := Prefix(Subcategories, parent) + rest;
    NotP(parent);
    assert data[0] == 's' && data[12] == IntToStr(parent)[0];
    Differs(data, "category_page_", 0);
    Differs(data, "category_", 0);
    Differs(data, "subcategory_page_", 12);
    Begins(data, "subcategory_", IntToStr(parent) + rest);
  }

  /** The same for the prefix "product_{id}" and the opening handler of products. */
  lemma {:induction false} RouteProduct(parent: int, rest: string)
    ensures Route(Prefix(Products, parent) + rest) == ProductOpening
  {
    var data := Prefix(Products, parent) + rest;
    NotP(parent);
    assert data[0] == 'p' && data[8] == IntToStr(parent)[0];
    Differs(data, "category_page_", 0);
    Differs(data, "category_", 0);
    Differs(data, "subcategory_page_", 0);
    Differs(data, "subcategory_", 0);
    Differs(data, "product_page_", 8);
    Begins(data, "product_", IntToStr(parent) + rest);
  }

  lemma {:induction false} Fields2(a: string, b: string)
    requires '_' !in a && '_' !in b
    ensures Split(a + "_" + b, '_') == [a, b]
  {
    SplitCons(a, '_', b);
    SplitNone(b, '_');
  }

  lemma {:induction false} Fields3(a: string, b: string, c: string)
    requires '_' !in a && '_' !in b && '_' !in c
    ensures Split(a + "_" + b + "_" + c, '_') == [a, b, c]
  {
    assert a + "_" + b + "_" + c == a + ['_'] + (b + "_" + c);
    SplitCons(a, '_', b + "_" + c);
    Fields2(b, c);
  }

  lemma {:induction false} Fields4(a: string, b: string, c: string, d: string)
    requires '_' !in a && '_' !in b && '_' !in c && '_' !in d
    ensures Split(a + "_" + b + "_" + c + "_" + d, '_') == [a, b, c, d]
  {
    assert a + "_" + b + "_" + c + "_" + d == a + ['_'] + (b + "_" + c + "_" + d);
    SplitCons(a, '_', b + "_" + c + "_" + d);
    Fields3(b, c, d);
  }

  /** Each level's name reads back as that level. */
  lemma {:induction false} LevelOfHead(level: Level)
    ensures LevelOf(Head(level)) == Some(level)
  {
    match level
    case Categories =>
    case Subcategories => assert "subcategory" != "category";
    case Products => assert "product" != "category" && "product" != "subcategory";
  }

  /** A nested prefix is the level's name, "_" and the parent's id. */
  lemma {:induction false} NestedPrefix(level: Level, parent: int)
    requires !level.Categories?
    ensures Prefix(level, parent) == Head(level) + "_" + IntToStr(parent)
  {
    if level.Subcategories? {
      assert "subcategory_" == "subcategory" + "_";
    } else {
      assert "product_" == "product" + "_";
    }
  }

  /** The fields of a nested item button: name, parent, id. */
  lemma {:induction false} NestedItemFields(level: Level, parent: int, id: nat)
    requires !level.Categories?
    ensures Split(ItemData(Prefix(level, parent), id), '_') == [Head(level), IntToStr(parent), IntToStr(id)]
  {
    NestedPrefix(level, parent);
    Fields3(Head(level), IntToStr(parent), IntToStr(id));
  }

  /** The fields of a nested page button: name, parent, "page", page. */
  lemma {:induction false} NestedPageFields(level: Level, parent: int, page: int)
    requires !level.Categories?
    ensures Split(Prefix(level, parent) + "_page_" + IntToStr(page), '_')
         == [Head(level), IntToStr(parent), "page", IntToStr(page)]
  {
    NestedPrefix(level, parent);
    var h, p, n := Head(level), IntToStr(parent), IntToStr(page);
    assert h + "_" + p + "_page_" + n == h + "_" + p + "_" + "page" + "_" + n;
    Fields4(h, p, "page", n);
  }

  /** The fields of a category page button: "category", "page", page. */
  lemma {:induction false} CategoryPageFields(page: int)
    ensures Split(Prefix(Categories, 0) + "_page_" + IntToStr(page), '_') == ["category", "page", IntToStr(page)]
  {
    assert Prefix(Categories, 0) + "_page_" + IntToStr(page) == "category" + "_" + "page" + "_" + IntToStr(page);
    Fields3("category", "page", IntToStr(page));
  }

  /** An opening handler whose field 1 reads as `id` opens `id` on its level. */
  lemma {:induction false} ApplyOpening(level: Level, parts: seq<string>, id: int)
    requires |parts| >= 1 && IntField(parts, 1) == Ok(id)
    ensures Apply(Opening(level), parts) == Open(level, id)
  {
    match level
    case Categories =>
      assert Apply(CategoryOpening, parts) == OpenCategory(id);
    case Subcategories =>
      assert Apply(SubcategoryOpening, parts) == OpenSubcategory(id);
    case Products =>
      assert Apply(ProductOpening, parts) == OpenProduct(id);
  }

  /** Where a nested item or page button goes as written: into the opening handler,
      which reads the parent's id from field 1. */
  lemma {:induction false} NestedAsWritten(level: Level, parent: int, rest: string)
    requires !level.Categories?
    requires var parts := Split(Prefix(level, parent) + rest, '_'); |parts| >= 2 && parts[1] == IntToStr(parent)
    ensures ParseAsWritten(Prefix(level, parent) + rest) == Open(level, parent)
  {
    var data := Prefix(level, parent) + rest;
    var parts := Split(data, '_');
    IntFieldOf(parts, 1, parent);
    ApplyOpening(level, parts, parent);
    assert Route(data) == Opening(level) by {
      if level.Subcategories? {
        RouteSubcategory(parent, rest);
      } else {
        RouteProduct(parent, rest);
      }
    }
  }

  /** As written, an item button opens its item only in the category listing: the
      buttons of a subcategory or product listing carry the parent in field 1, so
      they open the subcategory or product whose id is the parent's. */
  lemma {:induction false} ItemRouteAsWritten(level: Level, parent: int, id: nat)
    ensures ParseAsWritten(ItemData(Prefix(level, parent), id))
         == if level.Categories? then OpenCategory(id) else Open(level, parent)
  {
    if level.Categories? {
      assert Prefix(level, parent) == "category";
      CategoryItemAsWritten(id);
    } else {
      NestedItemAsWritten(level, parent, id);
    }
  }

  lemma {:induction false} CategoryItemAsWritten(id: nat)
    ensures ParseAsWritten(ItemData("category", id)) == OpenCategory(id)
  {
    RouteCategoryItem(id);
    Fields2("category", IntToStr(id));
    IntFieldOf(["category", IntToStr(id)], 1, id);
  }

  lemma {:induction false} NestedItemAsWritten(level: Level, parent: int, id: nat)
    requires !level.Categories?
    ensures ParseAsWritten(ItemData(Prefix(level, parent), id)) == Open(level, parent)
  {
    NestedItemFields(level, parent, id);
    assert ItemData(Prefix(level, parent), id) == Prefix(level, parent) + ("_" + IntToStr(id));
    NestedAsWritten(level, parent, "_" + IntToStr(id));
  }

  /** For instance the button of subcategory 2 in the listing of category 1 opens
      subcategory 1. */
  lemma {:induction false} SubcategoryButtonMisread()
    ensures ParseAsWritten("subcategory_1_2") == OpenSubcategory(1)
  {
    assert ItemData(Prefix(Subcategories, 1), 2) == "subcategory_1_2";
    ItemRouteAsWritten(Subcategories, 1, 2);
  }

  /** The corrected router opens the item of every item button, on every level. */
  lemma {:induction false} ItemRouteFixed(level: Level, parent: int, id: nat)
    ensures ParseFixed(ItemData(Prefix(level, parent), id)) == Open(level, id)
  {
    var data := ItemData(Prefix(level, parent), id);
    if level.Categories? {
      var parts := ["category", IntToStr(id)];
      assert Split(data, '_') == parts by { Fields2("category", IntToStr(id)); }
      IntFieldOf(parts, 1, id);
      FixedCategoryItem(data, id);
    } else {
      var parts := [Head(level), IntToStr(parent), IntToStr(id)];
      NestedItemFields(level, parent, id);
      IntFieldOf(parts, 2, id);
      FixedNestedItem(level, data, id);
    }
  }

  /** Data of two fields, "category" and a number, opens that category. */
  lemma {:induction false} FixedCategoryItem(data: string, id: int)
    requires var parts := Split(data, '_'); |parts| == 2 && parts[0] == "category" && IntField(parts, 1) == Ok(id)
    ensures ParseFixed(data) == OpenCategory(id)
  {
  }

  /** Data of three fields on a nested level opens the number in the last one. */
  lemma {:induction false} FixedNestedItem(level: Level, data: string, id: int)
    requires !level.Categories?
    requires var parts := Split(data, '_'); |parts| == 3 && parts[0] == Head(level) && IntField(parts, 2) == Ok(id)
    ensures ParseFixed(data) == Open(level, id)
  {
    LevelOfHead(level);
  }

  /** Data of four fields on a nested level with "page" third shows that page of
      the parent's listing. */
  lemma {:induction false} FixedNestedPage(level: Level, data: string, parent: int, page: int)
    requires !level.Categories?
    requires var parts := Split(data, '_');
      && |parts| == 4 && parts[0] == Head(level) && parts[2] == "page"
      && IntField(parts, 1) == Ok(parent) && IntField(parts, 3) == Ok(page)
    ensures ParseFixed(data) == PageTarget(level, parent, page)
  {
    LevelOfHead(level);
  }

  /** As written, only the category listing pages: "category_page_{n}" reaches the
      page handler, which reads page n from the last field. The nested page
      buttons "subcategory_{id}_page_{n}" and "product_{id}_page_{n}" fail the
      "*_page_" filters and land in the opening handler, which reads the parent's
      id as an item id: it opens page 0 of the subcategory (or product) whose own
      id equals that category (or subcategory) id, a row of another table. */
  lemma {:induction false} PageRouteAsWritten(level: Level, parent: int, page: int)
    ensures ParseAsWritten(Prefix(level, parent) + "_page_" + IntToStr(page))
         == if level.Categories? then CategoryPage(page) else Open(level, parent)
  {
    if level.Categories? {
      assert Prefix(level, parent) == Prefix(Categories, 0);
      CategoryPageAsWritten(page);
    } else {
      NestedPageAsWritten(level, parent, page);
    }
  }

  lemma {:induction false} CategoryPageAsWritten(page: int)
    ensures ParseAsWritten(Prefix(Categories, 0) + "_page_" + IntToStr(page)) == CategoryPage(page)
  {
    RouteCategoryPage(page);
    CategoryPageFields(page);
    IntFieldOf(["category", "page", IntToStr(page)], 2, page);
  }

  lemma {:induction false} NestedPageAsWritten(level: Level, parent: int, page: int)
    requires !level.Categories?
    ensures ParseAsWritten(Prefix(level, parent) + "_page_" + IntToStr(page)) == Open(level, parent)
  {
    var rest := "_page_" + IntToStr(page);
    assert Prefix(level, parent) + "_page_" + IntToStr(page) == Prefix(level, parent) + rest;
    assert |Split(Prefix(level, parent) + rest, '_')| >= 2 && Split(Prefix(level, parent) + rest, '_')[1] == IntToStr(parent) by {
      NestedPageFields(level, parent, page);
    }
    NestedAsWritten(level, parent, rest);
  }

  /** The data the nested pagers accept: "{name}_page_..." with field 1 "page". */
  lemma {:induction false} PagerFields(level: Level, rest: string)
    requires !level.Categories?
    ensures var parts := Split(Head(level) + "_page_" + rest, '_'); |parts| >= 2 && parts[1] == "page"
  {
    var h := Head(level);
    assert h + "_page_" + rest == h + ['_'] + ("page" + ['_'] + rest);
    SplitCons(h, '_', "page" + ['_'] + rest);
    SplitCons("page", '_', rest);
  }

  lemma {:induction false} SubcategoryPagerFails(rest: string)
    ensures ParseAsWritten("subcategory_page_" + rest) == Failed(ValueError)
  {
    var data := "subcategory_page_" + rest;
    RouteSubcategoryPager(rest);
    PagerFields(Subcategories, rest);
    PagerPrefix(Subcategories);
    PagerRejectsPage(SubcategoryPaging, Split(data, '_'));
  }

  lemma {:induction false} ProductPagerFails(rest: string)
    ensures ParseAsWritten("product_page_" + rest) == Failed(ValueError)
  {
    var data := "product_page_" + rest;
    RouteProductPager(rest);
    PagerFields(Products, rest);
    PagerPrefix(Products);
    PagerRejectsPage(ProductPaging, Split(data, '_'));
  }

  /** A nested pager's filter is the level's name followed by "_page_". */
  lemma {:induction false} PagerPrefix(level: Level)
    requires !level.Categories?
    ensures Head(level) + "_page_" == if level.Subcategories? then "subcategory_page_" else "product_page_"
  {
  }

  lemma {:induction false} RouteSubcategoryPager(rest: string)
    ensures Route("subcategory_page_" + rest) == SubcategoryPaging
  {
    var data := "subcategory_page_" + rest;
    Differs(data, "category_page_", 0);
    Differs(data, "category_", 0);
    Begins(data, "subcategory_page_", rest);
  }

  lemma {:induction false} RouteProductPager(rest: string)
    ensures Route("product_page_" + rest) == ProductPaging
  {
    var data := "product_page_" + rest;
    Differs(data, "category_page_", 0);
    Differs(data, "category_", 0);
    Differs(data, "subcategory_page_", 0);
    Differs(data, "subcategory_", 0);
    Begins(data, "product_page_", rest);
  }

  /** A nested pager given "page" as field 1 fails on `int("page")`. */
  lemma {:induction false} PagerRejectsPage(h: Handler, parts: seq<string>)
    requires h == SubcategoryPaging || h == ProductPaging
    requires |parts| >= 2 && parts[1] == "page"
    ensures Apply(h, parts) == Failed(ValueError)
  {
    ParseRejectsLetter("page", 0);
  }

  /** The nested page handlers themselves fail on every data they accept: field 1
      of "subcategory_page_..." and "product_page_..." is "page", and `int("page")`
      raises. */
  lemma {:induction false} NestedPageHandlersFail(data: string)
    requires StartsWith(data, "subcategory_page_") || StartsWith(data, "product_page_")
    ensures ParseAsWritten(data) == Failed(ValueError)
  {
    if StartsWith(data, "subcategory_page_") {
      assert data == "subcategory_page_" + data[17..];
      SubcategoryPagerFails(data[17..]);
    } else {
      assert data == "product_page_" + data[13..];
      ProductPagerFails(data[13..]);
    }
  }

  lemma {:induction false} CategoryPageFixed(page: int)
    ensures ParseFixed(Prefix(Categories, 0) + "_page_" + IntToStr(page)) == CategoryPage(page)
  {
    LevelOfHead(Categories);
    CategoryPageFields(page);
    IntFieldOf(["category", "page", IntToStr(page)], 2, page);
  }

  lemma {:induction false} NestedPageFixed(level: Level, parent: int, page: int)
    requires !level.Categories?
    ensures ParseFixed(Prefix(level, parent) + "_page_" + IntToStr(page)) == PageTarget(level, parent, page)
  {
    var data := Prefix(level, parent) + "_page_" + IntToStr(page);
    var parts := [Head(level), IntToStr(parent), "page", IntToStr(page)];
    NestedPageFields(level, parent, page);
    IntFieldOf(parts, 1, parent);
    IntFieldOf(parts, 3, page);
    FixedNestedPage(level, data, parent, page);
  }

  /** The corrected router takes every page button to that page of that listing. */
  lemma {:induction false} PageRouteFixed(level: Level, parent: int, page: int)
    ensures ParseFixed(Prefix(level, parent) + "_page_" + IntToStr(page)) == PageTarget(level, parent, page)
  {
    if level.Categories? {
      assert Prefix(level, parent) == Prefix(Categories, 0);
      CategoryPageFixed(page);
    } else {
      NestedPageFixed(level, parent, page);
    }
  }

  /** The two routers agree on the category item buttons... */
  lemma {:induction false} CategoryItemsAgree(id: nat)
    ensures ParseFixed(ItemData("category", id)) == ParseAsWritten(ItemData("category", id)) == OpenCategory(id)
  {
    ItemRouteFixed(Categories, 0, id);
    ItemRouteAsWritten(Categories, 0, id);
  }

  /** ... and on the category page buttons: the corrected router changes nothing
      that already worked. */
  lemma {:induction false} CategoryPagesAgree(page: int)
    ensures ParseFixed("category_page_" + IntToStr(page)) == ParseAsWritten("category_page_" + IntToStr(page)) == CategoryPage(page)
  {
    CategoryPagePrefix(page);
    CategoryPageFixed(page);
    CategoryPageAsWritten(page);
  }

  lemma {:induction false} CategoryPagePrefix(page: int)
    ensures Prefix(Categories, 0) + "_page_" + IntToStr(page) == "category_page_" + IntToStr(page)
  {
    assert Prefix(Categories, 0) + "_page_" == "category_page_";
  }

  /** With the corrected router every button of a listing leads where its label
      says: item k opens the k-th entry of the page, and the navigation buttons
      show the neighbouring pages of the same listing. */
  lemma {:induction false} ListingButtonsLeadFixed(s: Store, level: Level, parent: int, page: int, k: nat, b: Button)
    requires ListingScreen(s, level, parent, page).Listing?
    ensures var items := Page(All(s, level, parent), page);
      var kb := ListingScreen(s, level, parent, page).keyboard;
      && (k < |items| ==> ParseFixed(kb[k][0].callbackData) == Open(level, items[k].id))
      && (b in NavRow(|All(s, level, parent)|, Prefix(level, parent), page) ==>
            ParseFixed(b.callbackData) == PageTarget(level, parent, page - 1)
            || ParseFixed(b.callbackData) == PageTarget(level, parent, page + 1))
  {
    var items := Page(All(s, level, parent), page);
    if k < |items| {
      ItemRouteFixed(level, parent, items[k].id);
    }
    PageRouteFixed(level, parent, page - 1);
    PageRouteFixed(level, parent, page + 1);
  }

  /** A product button of an existing product, or one whose id is missing, as the
      handler sees it: an alert for a missing product, otherwise the `TypeError`. */
  lemma {:induction false} ProductScreen(s: Store, productId: int)
    ensures Show(s, OpenProduct(productId))
         == if productId in Ids(s.products) then Raised(TypeError) else ProductNotFound
  {
  }
}

=== FILE: checkout.dfy ===
/**
 * The checkout conversation of `bot/handlers/order.py`: the `OrderForm` states
 * full_name → phone → address, the data the bot keeps between messages, and the
 * last step that totals the cart and creates the order.
 */
module Checkout {
  import opened Wrappers
  import opened PyStr
  import opened Tables
  import opened Schema
  import opened CatalogDb
  import opened CartDb
  import opened OrderDb
  import opened Keyboards

  /** The `OrderForm` states, and `NoForm` for a chat in no state at all. */
  datatype FormState = NoForm | AwaitFullName | AwaitPhone | AwaitAddress

  /** What the FSM storage keeps for one chat: its state and its data dictionary.
      A value is `None` when the message that supplied it had no text. */
  datatype Conversation = Conversation(state: FormState, data: map<string, Option<string>>)

  const FULL_NAME_KEY: string := "full_name"
  const PHONE_KEY: string := "phone"

  /** `state.clear()`: no state and no data. */
  const Cleared: Conversation := Conversation(NoForm, map[])

  /** The bot's answers, without their wording. */
  datatype Reply =
    | AskFullName
    | AskPhone
    | AskAddress
    | CartEmpty
    | OrderPlaced(fullName: string, phone: string, address: string, total: string, keyboard: Keyboard)

  /** One handled update: the store and the chat afterwards, the replies sent, and
      the exception that escaped the handler, if one did. */
  datatype Turn = Turn(store: Store, chat: Conversation, replies: seq<Reply>, raised: Option<Fault>)

  /** An update reaching this router: the "checkout" button, or a message with its
      text and its caption (a photo or a document carries a caption, not a text). */
  datatype Event = CheckoutPressed | Message(text: Option<string>, caption: Option<string>)

  // ---------------------------------------------------------------------------
  // The total

  /** `sum(item.product.price * item.quantity for item in cart_items)`, in kopecks,
      added up left to right from 0. Lines with prices and quantities of at least 0
      total at least 0. */
  function Total(lines: seq<CartLine>): (r: int)
    ensures (forall k :: 0 <= k < |lines| ==> lines[k].product.price >= 0 && lines[k].quantity >= 0) ==> r >= 0
  {
    if |lines| == 0 then 0
    else Total(lines[..|lines| - 1]) + lines[|lines| - 1].product.price * lines[|lines| - 1].quantity
  }

  /** The total of two runs of lines is the sum of their totals. */
  lemma {:induction false} TotalAppend(a: seq<CartLine>, b: seq<CartLine>)
    ensures Total(a + b) == Total(a) + Total(b)
    decreases |b|
  {
    if |b| > 0 {
      var b' := b[..|b| - 1];
      assert (a + b)[..|a + b| - 1] == a + b';
      TotalAppend(a, b');
    } else {
      assert a + b == a;
    }
  }

  // ---------------------------------------------------------------------------
  // The handlers

  /** `start_order`: the "checkout" button asks for the full name from whatever
      state the chat is in, keeps the data, and does not look at the cart. */
  function StartOrder(s: Store, c: Conversation): (r: Turn)
    ensures r.store == s && r.raised.None? && r.replies == [AskFullName]
    ensures r.chat.state == AwaitFullName && r.chat.data == c.data
  {
    Turn(s, c.(state := AwaitFullName), [AskFullName], None)
  }

  /** `process_full_name`: the message text, whatever it is, becomes the full name. */
  function ProcessFullName(s: Store, c: Conversation, text: Option<string>): (r: Turn)
    ensures r.store == s && r.raised.None? && r.replies == [AskPhone]
    ensures r.chat.state == AwaitPhone
    ensures FULL_NAME_KEY in r.chat.data && r.chat.data[FULL_NAME_KEY] == text
    ensures forall k :: k in c.data && k != FULL_NAME_KEY ==> k in r.chat.data && r.chat.data[k] == c.data[k]
  {
    Turn(s, Conversation(AwaitPhone, c.data[FULL_NAME_KEY := text]), [AskPhone], None)
  }

  /** `process_phone`: the message text, whatever it is, becomes the phone. */
  function ProcessPhone(s: Store, c: Conversation, text: Option<string>): (r: Turn)
    ensures r.store == s && r.raised.None? && r.replies == [AskAddress]
    ensures r.chat.state == AwaitAddress
    ensures PHONE_KEY in r.chat.data && r.chat.data[PHONE_KEY] == text
    ensures forall k :: k in c.data && k != PHONE_KEY ==> k in r.chat.data && r.chat.data[k] == c.data[k]
  {
    Turn(s, Conversation(AwaitAddress, c.data[PHONE_KEY := text]), [AskAddress], None)
  }

  /** The pay and cancel buttons under the order summary. */
  function PayKeyboard(orderId: nat): (k: Keyboard)
    ensures |k| == 2 && |k[0]| == 1 && |k[1]| == 1
    ensures k[0][0].callbackData == "pay_" + IntToStr(orderId) && k[1][0].callbackData == "cancel_order"
  {
    [[Button("💳 Оплатить", "pay_" + IntToStr(orderId))], [Button("❌ Отмена", "cancel_order")]]
  }

  /** `process_address`. The stored name and phone are read first (a missing key
      raises `KeyError`), then the cart; an empty cart ends the conversation without
      an order. Otherwise the order is created with the stored name and phone, this
      message's text as the address and the cart total, and the chat is cleared.
      An exception leaves the chat in its state, and the store with whatever was
      already written. */
  function ProcessAddress(s: Store, c: Conversation, userId: int, text: Option<string>): (r: Turn)
    requires WellFormed(s.orders) && WellFormed(s.orderItems)
    ensures r.raised.Some? ==> r.chat == c && r.replies == []
    ensures r.raised.None? ==> r.chat == Cleared && |r.replies| == 1
  {
    if FULL_NAME_KEY !in c.data || PHONE_KEY !in c.data then Turn(s, c, [], Some(KeyError))
    else
      var fullName, phone := c.data[FULL_NAME_KEY], c.data[PHONE_KEY];
      match GetCartItems(s, userId)
      case Err(e) => Turn(s, c, [], Some(e))
      case Ok(lines) =>
        if |lines| == 0 then Turn(s, Cleared, [CartEmpty], None)
        else
          var total := Total(lines);
          var tx := CreateOrder(s, userId, fullName, phone, text, total, lines);
          match tx.result
          case Err(e) => Turn(tx.store, c, [], Some(e))
          case Ok(id) =>
            Turn(tx.store, Cleared, [OrderPlaced(fullName.value, phone.value, text.value, MoneyStr(total), PayKeyboard(id))], None)
  }

  /** `Command(name)` of aiogram on the text it reads: after leading whitespace
      (`split()` drops it), the command word "/name", alone or followed by
      whitespace (its arguments) or "@" (a bot mention). */
  predicate IsCommand(t: string, name: string) {
    var u := LStrip(t);
    var word := "/" + name;
    word <= u && (|u| == |word| || IsSpace(u[|word|]) || u[|word|] == '@')
  }

  /** What aiogram's `Command` reads: `message.text or message.caption`, so an
      empty or missing text falls back to the caption. */
  function CommandText(text: Option<string>, caption: Option<string>): (r: Option<string>)
    ensures r.Some? ==> r == text || r == caption
    ensures text.Some? && text.value != "" ==> r == text
  {
    if text.Some? && text.value != "" then text else caption
  }

  /** A message the routers included before this one take in every state: a text
      or caption holding the `/help` or `/start` command, or the text "🛍 Каталог"
      or "🛒 Корзина" (those two filters read the text only). It never reaches the
      form handlers, so `Step` is not called on it. */
  predicate TakenEarlier(e: Event) {
    && e.Message?
    && var command := CommandText(e.text, e.caption);
    || (command.Some? && (IsCommand(command.value, "start") || IsCommand(command.value, "help")))
    || e.text == Some("🛍 Каталог") || e.text == Some("🛒 Корзина")
  }

  /** A photo or document whose caption is a `/start` or `/help` command, with any
      arguments, is taken by the start router, text or no text. */
  lemma {:induction false} CaptionedCommandTaken(name: string, args: string, text: Option<string>)
    requires name == "start" || name == "help"
    requires text.None? || text == Some("")
    ensures TakenEarlier(Message(text, Some("/" + name)))
    ensures TakenEarlier(Message(text, Some("/" + name + " " + args)))
  {
    var word := "/" + name;
    var t := word + " " + args;
    assert IsCommand(word, name) by { SlashUnstripped(word); }
    assert IsCommand(t, name) by {
      assert t[0] == '/' && t[|word|] == ' ' && word <= t;
      SlashUnstripped(t);
    }
  }

  /** `lstrip()` keeps a text that starts with "/". */
  lemma {:induction false} SlashUnstripped(t: string)
    requires |t| > 0 && t[0] == '/'
    ensures LStrip(t) == t
  {
    assert !IsSpace(t[0]);
  }

  /** Routing of an update that reaches this router (a message is never
      `TakenEarlier`): the button works in every state; a message reaches the
      handler of the chat's state, and with no form state this router does not
      take it. Only the address step writes to the store or raises. */
  function Step(s: Store, c: Conversation, userId: int, e: Event): (r: Turn)
    requires WellFormed(s.orders) && WellFormed(s.orderItems)
    ensures e.CheckoutPressed? || c.state != AwaitAddress ==> r.store == s && r.raised.None?
    ensures e.CheckoutPressed? ==> r.chat.state == AwaitFullName && r.chat.data == c.data
    ensures e.Message? && c.state == NoForm ==> r == Turn(s, c, [], None)
  {
    match e
    case CheckoutPressed => StartOrder(s, c)
    case Message(text, _) =>
      match c.state
      case NoForm => Turn(s, c, [], None)
      case AwaitFullName => ProcessFullName(s, c, text)
      case AwaitPhone => ProcessPhone(s, c, text)
      case AwaitAddress => ProcessAddress(s, c, userId, text)
  }

  // ---------------------------------------------------------------------------
  // The data the states rely on

  /** A chat waiting for the phone has a full name, and one waiting for the address
      has a full name and a phone. */
  predicate Consistent(c: Conversation) {
    && (c.state == AwaitPhone ==> FULL_NAME_KEY in c.data)
    && (c.state == AwaitAddress ==> FULL_NAME_KEY in c.data && PHONE_KEY in c.data)
  }

  /** Every handled update keeps the chat consistent. */
  lemma {:induction false} StepConsistent(s: Store, c: Conversation, userId: int, e: Event)
    requires WellFormed(s.orders) && WellFormed(s.orderItems) && Consistent(c)
    ensures Consistent(Step(s, c, userId, e).chat)
  {
  }

  /** In a consistent chat the last step never fails on a missing key. */
  lemma {:induction false} ConsistentNoKeyError(s: Store, c: Conversation, userId: int, text: Option<string>)
    requires WellFormed(s.orders) && WellFormed(s.orderItems) && Consistent(c) && c.state == AwaitAddress
    ensures ProcessAddress(s, c, userId, text).raised != Some(KeyError)
  {
    var fullName, phone := c.data[FULL_NAME_KEY], c.data[PHONE_KEY];
    match GetCartItems(s, userId)
    case Err(e) =>
    case Ok(lines) =>
      if |lines| > 0 {
        var tx := CreateOrder(s, userId, fullName, phone, text, Total(lines), lines);
        assert tx.result.Err? ==> tx.result.error in {IntegrityError, DataError};
      }
  }

  /** A run of updates handled one after the other. */
  function Run(s: Store, c: Conversation, userId: int, events: seq<Event>): (r: (Store, Conversation))
    requires Valid(s)
    ensures Valid(r.0)
    decreases |events|
  {
    if |events| == 0 then (s, c)
    else
      var t := Step(s, c, userId, events[0]);
      StepValid(s, c, userId, events[0]);
      Run(t.store, t.chat, userId, events[1..])
  }

  /** Every chat that starts cleared stays consistent, whatever updates arrive, so
      the address step never meets a missing key. */
  lemma {:induction false} RunConsistent(s: Store, c: Conversation, userId: int, events: seq<Event>)
    requires Valid(s) && Consistent(c)
    ensures Consistent(Run(s, c, userId, events).1)
    decreases |events|
  {
    if |events| > 0 {
      var t := Step(s, c, userId, events[0]);
      StepValid(s, c, userId, events[0]);
      StepConsistent(s, c, userId, events[0]);
      RunConsistent(t.store, t.chat, userId, events[1..]);
    }
  }

  /** Handling an update keeps every constraint of the schema. */
  lemma {:induction false} StepValid(s: Store, c: Conversation, userId: int, e: Event)
    requires Valid(s)
    ensures Valid(Step(s, c, userId, e).store)
  {
    var r := Step(s, c, userId, e);
    if e.Message? && c.state == AwaitAddress {
      assert r == ProcessAddress(s, c, userId, e.text);
      AddressStore(s, c, userId, e.text);
      if r.store != s {
        var lines := GetCartItems(s, userId).value;
        CreateOrderValid(s, userId, c.data[FULL_NAME_KEY], c.data[PHONE_KEY], e.text, Total(lines), lines);
      }
    } else {
      assert r.store == s;
    }
  }

  /** The address step writes nothing but what `create_order` writes. */
  lemma {:induction false} AddressStore(s: Store, c: Conversation, userId: int, text: Option<string>)
    requires WellFormed(s.orders) && WellFormed(s.orderItems)
    ensures var r := ProcessAddress(s, c, userId, text);
      || r.store == s
      || (&& FULL_NAME_KEY in c.data && PHONE_KEY in c.data && GetCartItems(s, userId).Ok?
          && var lines := GetCartItems(s, userId).value;
             r.store == CreateOrder(s, userId, c.data[FULL_NAME_KEY], c.data[PHONE_KEY], text, Total(lines), lines).store)
  {
  }

  // ---------------------------------------------------------------------------
  // What the address step does

  /** The conditions under which `create_order` takes the order: the user is
      registered, the cart lists at least one line, the name, phone and address
      are texts, and the order fits its columns. */
  ghost predicate Placeable(s: Store, userId: int, fullName: Option<string>, phone: Option<string>,
                            address: Option<string>) {
    && GetCartItems(s, userId).Ok? && |GetCartItems(s, userId).value| > 0
    && fullName.Some? && phone.Some? && address.Some?
    && OrderFits(Order(GetClient(s, userId).value.id, fullName.value, phone.value, address.value,
                       Total(GetCartItems(s, userId).value)))
  }

  /** After the address step placed an order: the order, numbered by the id
      sequence, belongs to the client and carries the name, phone and address as
      given and the cart total; its items copy the cart lines; the cart is left as
      it was; the summary shows the total and a pay button for that order; and the
      chat is cleared. */
  ghost predicate OrderPlacedFor(s: Store, r: Turn, clientId: nat, fullName: string, phone: string,
                                 address: string, lines: seq<CartLine>) {
    var id := s.orders.next;
    && GetOrder(r.store, id) == Ok(Row(id, Order(clientId, fullName, phone, address, Total(lines))))
    && ItemsOf(r.store, id) == Snapshot(id, lines)
    && r.store.carts == s.carts && r.store.cartItems == s.cartItems
    && r.replies == [OrderPlaced(fullName, phone, address, MoneyStr(Total(lines)), PayKeyboard(id))]
    && r.chat == Cleared && r.raised.None?
  }

  /** With a registered user and a listed cart, the address step places the order
      exactly when `Placeable` holds, and then does what `OrderPlacedFor` says;
      otherwise the order row is refused, so nothing is written and the chat keeps
      waiting. */
  lemma {:induction false} AddressPlacesOrder(s: Store, c: Conversation, userId: int, text: Option<string>)
    requires Valid(s) && Consistent(c) && c.state == AwaitAddress
    requires GetCartItems(s, userId).Ok? && |GetCartItems(s, userId).value| > 0
    ensures var r := ProcessAddress(s, c, userId, text);
      var fullName, phone := c.data[FULL_NAME_KEY], c.data[PHONE_KEY];
      && (r.raised.None? <==> Placeable(s, userId, fullName, phone, text))
      && (Placeable(s, userId, fullName, phone, text) ==>
            OrderPlacedFor(s, r, GetClient(s, userId).value.id, fullName.value, phone.value, text.value,
                           GetCartItems(s, userId).value))
      && (r.raised.Some? ==> r.raised.value in {IntegrityError, DataError} && r.chat == c && r.store == s)
  {
    var fullName, phone := c.data[FULL_NAME_KEY], c.data[PHONE_KEY];
    var lines := GetCartItems(s, userId).value;
    var total := Total(lines);
    CartLinesStorable(s, userId);
    CreateOrderOutcome(s, userId, fullName, phone, text, total, lines);
    CreateOrderSnapshot(s, userId, fullName, phone, text, total, lines);
  }

  /** An unregistered user gets the exception of `get_cart_items`; nothing is
      written and the chat keeps waiting for the address. */
  lemma {:induction false} AddressUnregistered(s: Store, c: Conversation, userId: int, text: Option<string>)
    requires WellFormed(s.orders) && WellFormed(s.orderItems) && Consistent(c) && c.state == AwaitAddress
    requires GetClient(s, userId).None?
    ensures ProcessAddress(s, c, userId, text) == Turn(s, c, [], Some(NoneAttribute))
  {
  }

  /** A registered user without cart lines gets the empty-cart answer: no order,
      nothing written, and the chat cleared. */
  lemma {:induction false} AddressEmptyCart(s: Store, c: Conversation, userId: int, text: Option<string>)
    requires WellFormed(s.orders) && WellFormed(s.orderItems) && Consistent(c) && c.state == AwaitAddress
    requires GetClient(s, userId).Some?
    requires CartOf(s, GetClient(s, userId).value.id).None? ||
             forall x :: x in s.cartItems.rows ==> x.val.cartId != CartOf(s, GetClient(s, userId).value.id).value.id
    ensures ProcessAddress(s, c, userId, text) == Turn(s, Cleared, [CartEmpty], None)
  {
    var client := GetClient(s, userId).value;
    if CartOf(s, client.id).Some? {
      WhereNone(s.cartItems.rows, InCart(CartOf(s, client.id).value.id));
    }
  }

  /** The whole conversation: from any chat, the button and two messages that reach
      this router reach the address step with both texts stored unchanged and
      nothing written; the address message then places the order exactly when
      `Placeable` holds. */
  lemma {:induction false} CheckoutConversation(s: Store, c: Conversation, userId: int, m1: Event, m2: Event, m3: Event)
    requires Valid(s)
    requires m1.Message? && m2.Message? && m3.Message?
    requires !TakenEarlier(m1) && !TakenEarlier(m2) && !TakenEarlier(m3)
    requires GetCartItems(s, userId).Ok? && |GetCartItems(s, userId).value| > 0
    ensures var t1 := Step(s, c, userId, CheckoutPressed);
      var t2 := Step(t1.store, t1.chat, userId, m1);
      var t3 := Step(t2.store, t2.chat, userId, m2);
      && t3 == Turn(s, Conversation(AwaitAddress, c.data[FULL_NAME_KEY := m1.text][PHONE_KEY := m2.text]), [AskAddress], None)
      && (Step(t3.store, t3.chat, userId, m3).raised.None? <==> Placeable(s, userId, m1.text, m2.text, m3.text))
  {
    var data := c.data[FULL_NAME_KEY := m1.text][PHONE_KEY := m2.text];
    FormFilled(s, c, userId, m1, m2);
    assert data[FULL_NAME_KEY] == m1.text by { KeysDistinct(); }
    AddressStepPlaces(s, Conversation(AwaitAddress, data), userId, m3);
  }

  /** The address message, routed, places the order exactly when `Placeable` holds. */
  lemma {:induction false} AddressStepPlaces(s: Store, c: Conversation, userId: int, m: Event)
    requires Valid(s) && Consistent(c) && c.state == AwaitAddress && m.Message?
    requires GetCartItems(s, userId).Ok? && |GetCartItems(s, userId).value| > 0
    ensures Step(s, c, userId, m).raised.None? <==> Placeable(s, userId, c.data[FULL_NAME_KEY], c.data[PHONE_KEY], m.text)
  {
    var fullName, phone := c.data[FULL_NAME_KEY], c.data[PHONE_KEY];
    assert ProcessAddress(s, c, userId, m.text).raised.None? <==> Placeable(s, userId, fullName, phone, m.text) by {
      AddressPlacesOrder(s, c, userId, m.text);
    }
    StepAddress(s, c, userId, m);
  }

  /** A message in a chat waiting for the address goes to the address step, which
      reads its text. */
  lemma {:induction false} StepAddress(s: Store, c: Conversation, userId: int, m: Event)
    requires WellFormed(s.orders) && WellFormed(s.orderItems) && c.state == AwaitAddress && m.Message?
    ensures Step(s, c, userId, m) == ProcessAddress(s, c, userId, m.text)
  {
  }

  /** The button and two messages store the two texts and write nothing. */
  lemma {:induction false} FormFilled(s: Store, c: Conversation, userId: int, m1: Event, m2: Event)
    requires WellFormed(s.orders) && WellFormed(s.orderItems) && m1.Message? && m2.Message?
    ensures var t1 := Step(s, c, userId, CheckoutPressed);
      var t2 := Step(t1.store, t1.chat, userId, m1);
      Step(t2.store, t2.chat, userId, m2)
        == Turn(s, Conversation(AwaitAddress, c.data[FULL_NAME_KEY := m1.text][PHONE_KEY := m2.text]), [AskAddress], None)
  {
    var t1 := Step(s, c, userId, CheckoutPressed);
    assert t1 == Turn(s, c.(state := AwaitFullName), [AskFullName], None);
    var t2 := Step(t1.store, t1.chat, userId, m1);
    assert t2 == Turn(s, Conversation(AwaitPhone, c.data[FULL_NAME_KEY := m1.text]), [AskPhone], None);
  }

  lemma {:induction false} KeysDistinct()
    ensures FULL_NAME_KEY != PHONE_KEY
  {
    assert FULL_NAME_KEY[0] != PHONE_KEY[0];
  }
}

=== FILE: faq.dfy ===
/**
 * The FAQ inline search of `bot/handlers/faq.py`: a query is lower-cased and
 * stripped, then matched as a substring against the questions of `FAQ_DICT`.
 * Case mapping is Unicode-wide and not modelled: `lower` and `capitalize` are
 * parameters.
 */
module Faq {
  import opened PyStr

  /** A question and its answer. */
  type Entry = (string, string)

  /** `FAQ_DICT`, in its insertion order. */
  const FAQ: seq<Entry> := [
      ("как сделать заказ",
       "\n1. Выберите товар в каталоге\n2. Нажмите \"🛒 Добавить в корзину\"\n3. Перейдите в корзину\n4. Нажмите \"💳 Оплатить\"\n5. Следуйте инструкциям для оплаты\n    "),
      ("способы оплаты",
       "\nМы принимаем следующие способы оплаты:\n💳 Банковская карта\n🏦 Перевод на счет\n💵 Наличные при самовывозе\n    "),
      ("доставка",
       "\nДоступные способы доставки:\n🚚 Курьерская доставка\n🏪 Самовывоз из магазина\n📦 Почта России\n    "),
      ("возврат",
       "\nУсловия возврата:\n1. Товар не был в употреблении\n2. Сохранена упаковка\n3. Есть чек\n4. Прошло не более 14 дней\n    "),
      ("контакты",
       "\nНаши контакты:\n📞 Телефон: +7 (XXX) XXX-XX-XX\n📧 Email: support@example.com\n💬 Telegram: @support\n    "),
      ("работа",
       "\nРежим работы:\nПн-Пт: 9:00 - 18:00\nСб: 10:00 - 16:00\nВс: Выходной\n    "),
      ("скидки",
       "\nНаши скидки:\n🎁 5% при первом заказе\n🎁 10% при заказе от 5000₽\n🎁 15% при заказе от 10000₽\n    "),
      ("гарантия",
       "\nГарантия на товары:\n📦 14 дней на возврат\n⚖️ 1 год гарантии\n🛡 Защита покупателя\n    ")
    ]

  /** An inline result: its id, its title and the message it posts. */
  datatype Article = Article(id: string, title: string, text: string)

  const NOT_FOUND: Article := Article(
    "not_found",
    "Вопрос не найден",
    "❓ Извините, мы не нашли ответ на ваш вопрос.\n\nПожалуйста, попробуйте сформулировать вопрос иначе или обратитесь в поддержку.")

  /** The result for one entry: the question as id, the capitalised question as
      title, and "❓ {Question}\n\n{answer}" as message. */
  function ArticleOf(e: Entry, capitalize: string -> string): Article {
    Article(e.0, capitalize(e.0), "❓ " + capitalize(e.0) + "\n\n" + e.1)
  }

  function Articles(es: seq<Entry>, capitalize: string -> string): (r: seq<Article>)
    ensures |r| == |es|
    ensures forall k :: 0 <= k < |es| ==> r[k] == ArticleOf(es[k], capitalize)
  {
    seq(|es|, k requires 0 <= k < |es| => ArticleOf(es[k], capitalize))
  }

  /** The entries whose lower-cased question contains `query`, in order. */
  function Matches(es: seq<Entry>, query: string, lower: string -> string): (r: seq<Entry>)
    ensures |r| <= |es|
    ensures forall e :: e in r <==> e in es && Contains(lower(e.0), query)
  {
    if es == [] then []
    else
      var rest := Matches(es[1..], query, lower);
      assert forall e :: e in es <==> e == es[0] || e in es[1..];
      if Contains(lower(es[0].0), query) then [es[0]] + rest else rest
  }

  /** Matching distributes over concatenation: the hits keep the order of the
      entries they come from. */
  lemma {:induction false} MatchesAppend(a: seq<Entry>, b: seq<Entry>, query: string, lower: string -> string)
    ensures Matches(a + b, query, lower) == Matches(a, query, lower) + Matches(b, query, lower)
    decreases |a|
  {
    if a == [] {
      assert a + b == b;
    } else {
      assert (a + b)[1..] == a[1..] + b;
      MatchesAppend(a[1..], b, query, lower);
    }
  }

  /** The search on an already normalised query. */
  function SearchNormalised(es: seq<Entry>, query: string, lower: string -> string, capitalize: string -> string): (r: seq<Article>)
    ensures |r| >= 1
  {
    var hits := if query == "" then es else Matches(es, query, lower);
    if hits == [] then [NOT_FOUND] else Articles(hits, capitalize)
  }

  /** `faq_inline_query`: normalise with `lower()` then `strip()`, search `FAQ_DICT`. */
  function FaqSearch(query: string, lower: string -> string, capitalize: string -> string): (r: seq<Article>)
    ensures |r| >= 1
  {
    SearchNormalised(FAQ, Strip(lower(query)), lower, capitalize)
  }

  /** An empty normalised query lists every question, in dictionary order. */
  lemma {:induction false} EmptyQueryListsAll(query: string, lower: string -> string, capitalize: string -> string)
    requires Strip(lower(query)) == ""
    ensures FaqSearch(query, lower, capitalize) == Articles(FAQ, capitalize)
    ensures |FaqSearch(query, lower, capitalize)| == 8
  {
  }

  /** Questions that tell their entries apart, none of them "not_found". */
  ghost predicate WellKeyed(es: seq<Entry>) {
    && (forall i, j :: 0 <= i < |es| && 0 <= j < |es| && es[i].0 == es[j].0 ==> i == j)
    && (forall e :: e in es ==> e.0 != NOT_FOUND.id)
  }

  /** With well-keyed entries, an entry's result is listed exactly when its
      question contains the query. */
  lemma {:induction false} SearchListsExactlyMatches(es: seq<Entry>, q: string, lower: string -> string, capitalize: string -> string)
    requires WellKeyed(es) && q != ""
    ensures var r := SearchNormalised(es, q, lower, capitalize);
      forall e :: e in es ==> (ArticleOf(e, capitalize) in r <==> Contains(lower(e.0), q))
  {
    var hits := Matches(es, q, lower);
    var r := SearchNormalised(es, q, lower, capitalize);
    forall e | e in es
      ensures ArticleOf(e, capitalize) in r <==> Contains(lower(e.0), q)
    {
      if Contains(lower(e.0), q) {
        var k :| 0 <= k < |hits| && hits[k] == e;
        assert r[k] == ArticleOf(e, capitalize);
      }
    }
  }

  /** A non-empty normalised query lists exactly the questions containing it, in
      dictionary order, or only the "not found" result when there are none. */
  lemma {:induction false} QueryListsMatches(query: string, lower: string -> string, capitalize: string -> string)
    requires Strip(lower(query)) != ""
    ensures var q := Strip(lower(query));
      var r := FaqSearch(query, lower, capitalize);
      && (Matches(FAQ, q, lower) == [] ==> r == [NOT_FOUND])
      && (Matches(FAQ, q, lower) != [] ==> r == Articles(Matches(FAQ, q, lower), capitalize))
      && (forall e :: e in FAQ ==> (ArticleOf(e, capitalize) in r <==> Contains(lower(e.0), q)))
  {
    FaqWellKeyed();
    SearchListsExactlyMatches(FAQ, Strip(lower(query)), lower, capitalize);
  }

  /** The questions of `FAQ_DICT` are distinct and none is "not_found", so result
      ids never repeat and "not_found" never stands for an entry. */
  lemma {:induction false} FaqWellKeyed()
    ensures WellKeyed(FAQ)
  {
    forall i, j | 0 <= i < |FAQ| && 0 <= j < |FAQ| && FAQ[i].0 == FAQ[j].0
      ensures i == j
    {
      if i != j {
        FaqQuestionsDistinct(i, j);
      }
    }
    forall e | e in FAQ
      ensures e.0 != NOT_FOUND.id
    {
      var i :| 0 <= i < |FAQ| && FAQ[i] == e;
      assert NOT_FOUND.id[0] == 'n';
      assert FAQ[i].0[0] in "ксдвкрсг";
    }
  }

  lemma {:induction false} FaqQuestionsDistinct(i: nat, j: nat)
    requires i < |FAQ| && j < |FAQ| && i != j
    ensures FAQ[i].0 != FAQ[j].0
  {
    // The lengths tell all but two groups apart; the first letters tell those.
    assert |FAQ[0].0| == 17 && |FAQ[1].0| == 14 && |FAQ[2].0| == 8 && |FAQ[3].0| == 7;
    assert |FAQ[4].0| == 8 && |FAQ[5].0| == 6 && |FAQ[6].0| == 6 && |FAQ[7].0| == 8;
    assert FAQ[2].0[0] == 'д' && FAQ[4].0[0] == 'к' && FAQ[7].0[0] == 'г';
    assert FAQ[5].0[0] == 'р' && FAQ[6].0[0] == 'с';
  }
}

=== FILE: keyboards.dfy ===
/**
 * Inline keyboards as the handlers build them: rows of buttons, each carrying the
 * callback data string that comes back when it is pressed.
 */
module Keyboards {
  datatype Button = Button(text: string, callbackData: string)

  /** Rows of buttons, top to bottom. */
  type Keyboard = seq<seq<Button>>
}

=== FILE: order_db.dfy ===
/**
 * `create_order` and `get_order`: an order row with the checkout data, and a frozen
 * copy of the cart lines as its items.
 */
module OrderDb {
  import opened Wrappers
  import opened Tables
  import opened Schema
  import opened CatalogDb
  import opened CartDb

  /** `get_order(order_id)`: `Order.objects.aget(id=...)`. A missing id raises
      `Order.DoesNotExist`, which is logged and raised again; `None` is never
      returned. */
  function GetOrder(s: Store, orderId: int): (r: Result<Row<Order>, Fault>)
    ensures r.Ok? <==> orderId in Ids(s.orders)
    ensures r.Ok? ==> r.value in s.orders.rows && r.value.id == orderId
    ensures r.Err? ==> r.error == DoesNotExist
  {
    match Get(s.orders, orderId)
    case None => Err(DoesNotExist)
    case Some(o) => Ok(Row(orderId as nat, o))
  }

  /** The order items `create_order` builds from the cart lines: one per line, with
      the line's product and quantity. */
  function Snapshot(orderId: nat, lines: seq<CartLine>): (r: seq<OrderItem>)
    ensures |r| == |lines|
    ensures forall k :: 0 <= k < |lines| ==> r[k] == OrderItem(orderId, lines[k].productId, lines[k].quantity)
  {
    seq(|lines|, k requires 0 <= k < |lines| => OrderItem(orderId, lines[k].productId, lines[k].quantity))
  }

  /** An item row the database refuses: its product is missing (foreign key) or its
      quantity is negative (`PositiveIntegerField`). */
  predicate ItemRefused(s: Store, x: OrderItem) {
    x.productId !in Ids(s.products) || x.quantity < 0
  }

  /** Some item of the batch is refused, so the whole `bulk_create` is. */
  predicate AnyRefused(s: Store, items: seq<OrderItem>) {
    exists k :: 0 <= k < |items| && ItemRefused(s, items[k])
  }

  /** The values of a new order row fit their columns: the full name and the phone,
      where present, are no wider than their `varchar`, and the total fits
      `numeric(10, 2)`. A missing value is a NOT NULL matter, not a width one. */
  predicate ValuesFit(fullName: Option<string>, phone: Option<string>, totalPrice: int) {
    && (fullName.Some? ==> |fullName.value| <= NAME_MAX)
    && (phone.Some? ==> |phone.value| <= PHONE_MAX)
    && MoneyFits(totalPrice)
  }

  /** `create_order(user_id, full_name, phone, address, total_price, cart_items)`.
      The order is written first and committed on its own. A value wider than its
      column is refused with `DataError` first: Django formats the total before the
      query is sent, and the database coerces the other values to their column types
      while it plans the INSERT. Only then do the NOT NULL columns refuse an unknown
      user's `client=None` or the `None` of a message without text. The total is
      stored as given. Then the items go in with one `bulk_create` statement, which
      the database takes whole or refuses whole, leaving the order without items. */
  function CreateOrder(s: Store, userId: int, fullName: Option<string>, phone: Option<string>,
                       address: Option<string>, totalPrice: int, lines: seq<CartLine>): (r: Tx<nat>)
    requires WellFormed(s.orders) && WellFormed(s.orderItems)
    ensures WellFormed(r.store.orders) && WellFormed(r.store.orderItems)
    ensures r.store == s.(orders := r.store.orders, orderItems := r.store.orderItems)
    ensures r.result.Err? ==> r.result.error in {IntegrityError, DataError}
    ensures r.result.Err? ==> r.store.orderItems == s.orderItems
    ensures r.result.Ok? ==> fullName.Some? && phone.Some? && address.Some?
    ensures !ValuesFit(fullName, phone, totalPrice) ==> r == Tx(s, Err(DataError))
    ensures (&& ValuesFit(fullName, phone, totalPrice)
             && (GetClient(s, userId).None? || fullName.None? || phone.None? || address.None?))
            ==> r == Tx(s, Err(IntegrityError))
  {
    if !ValuesFit(fullName, phone, totalPrice) then Tx(s, Err(DataError))
    else match GetClient(s, userId)
    case None => Tx(s, Err(IntegrityError))
    case Some(client) =>
      if fullName.None? || phone.None? || address.None? then Tx(s, Err(IntegrityError))
      else
        var o := Order(client.id, fullName.value, phone.value, address.value, totalPrice);
        var (orders, id) := Insert(s.orders, o);
        var items := Snapshot(id, lines);
        if AnyRefused(s, items) then
          Tx(s.(orders := orders), Err(IntegrityError))
        else
          Tx(s.(orders := orders, orderItems := InsertAll(s.orderItems, items)), Ok(id))
  }

  /** When the order row itself is stored: the client exists and every field is
      present and fits its column. */
  ghost predicate RowAccepted(s: Store, userId: int, fullName: Option<string>, phone: Option<string>,
                              address: Option<string>, totalPrice: int) {
    && GetClient(s, userId).Some?
    && fullName.Some? && phone.Some? && address.Some?
    && OrderFits(Order(GetClient(s, userId).value.id, fullName.value, phone.value, address.value, totalPrice))
  }

  /** When `create_order` succeeds: the order row is stored, and every line names
      an existing product with a quantity of at least 0. */
  ghost predicate Accepted(s: Store, userId: int, fullName: Option<string>, phone: Option<string>,
                           address: Option<string>, totalPrice: int, lines: seq<CartLine>) {
    && RowAccepted(s, userId, fullName, phone, address, totalPrice)
    && forall k :: 0 <= k < |lines| ==> lines[k].productId in Ids(s.products) && lines[k].quantity >= 0
  }

  /** The row filter "belongs to order `orderId`". */
  function OfOrder(orderId: int): Row<OrderItem> -> bool {
    (x: Row<OrderItem>) => x.val.orderId == orderId
  }

  /** The items stored for order `orderId`, in table order (`order.items`). */
  function ItemsOf(s: Store, orderId: int): seq<OrderItem> {
    Values(Where(s.orderItems.rows, OfOrder(orderId)))
  }

  /** `create_order` succeeds exactly when `Accepted` holds, and then adds one order,
      owned by the user's client and carrying the given fields and total unchanged,
      with its items. When the order row is stored but the items are refused, only
      that row remains; when the order row is refused, nothing at all is written. */
  lemma {:induction false} CreateOrderOutcome(s: Store, userId: int, fullName: Option<string>, phone: Option<string>,
                           address: Option<string>, totalPrice: int, lines: seq<CartLine>)
    requires WellFormed(s.orders) && WellFormed(s.orderItems)
    ensures var r := CreateOrder(s, userId, fullName, phone, address, totalPrice, lines);
      && (r.result.Ok? <==> Accepted(s, userId, fullName, phone, address, totalPrice, lines))
      && (r.result.Ok? ==>
            && r.result.value == s.orders.next && r.result.value !in Ids(s.orders)
            && r.store.orders.rows == s.orders.rows +
                 [Row(r.result.value, Order(GetClient(s, userId).value.id, fullName.value, phone.value, address.value, totalPrice))]
            && r.store.orderItems == InsertAll(s.orderItems, Snapshot(r.result.value, lines)))
      && (RowAccepted(s, userId, fullName, phone, address, totalPrice) ==>
            r.store.orders.rows == s.orders.rows +
              [Row(s.orders.next, Order(GetClient(s, userId).value.id, fullName.value, phone.value, address.value, totalPrice))])
      && (r.result.Err? ==> r.store.orderItems == s.orderItems)
      && (!RowAccepted(s, userId, fullName, phone, address, totalPrice) ==> r.store == s)
  {
    var r := CreateOrder(s, userId, fullName, phone, address, totalPrice, lines);
    if GetClient(s, userId).Some? && fullName.Some? && phone.Some? && address.Some? {
      var client := GetClient(s, userId).value;
      var o := Order(client.id, fullName.value, phone.value, address.value, totalPrice);
      if OrderFits(o) {
        var (orders, id) := Insert(s.orders, o);
        var items := Snapshot(id, lines);
        if AnyRefused(s, items) {
          var k :| 0 <= k < |items| && ItemRefused(s, items[k]);
          assert !(lines[k].productId in Ids(s.products) && lines[k].quantity >= 0);
        }
      }
    }
  }

  /** Items appended for a fresh order are, in order, all the items of that order. */
  lemma {:induction false} AppendedItems(prior: Table<OrderItem>, id: nat, items: seq<OrderItem>)
    requires WellFormed(prior) && forall x :: x in prior.rows ==> x.val.orderId != id
    requires forall k :: 0 <= k < |items| ==> items[k].orderId == id
    ensures Values(Where(InsertAll(prior, items).rows, OfOrder(id))) == items
  {
    var added := Numbered(prior.next, items);
    forall x | x in added ensures OfOrder(id)(x) {
      var k :| 0 <= k < |added| && added[k] == x;
    }
    WhereTail(prior.rows, added, OfOrder(id));
    NumberedValues(prior.next, items);
  }

  /** An order row appended with a fresh id is what `get_order` finds for that id. */
  lemma {:induction false} GetAppendedOrder(s: Store, orders: Table<Order>, row: Row<Order>)
    requires WellFormed(orders) && orders.rows == s.orders.rows + [row]
    ensures GetOrder(s.(orders := orders), row.id) == Ok(row)
  {
    assert row in orders.rows;
    RowIds(orders);
    var found := Get(orders, row.id).value;
    KeyUnique(orders, row, Row(row.id, found));
  }

  /** The new order's items are exactly one per cart line, in order, with the line's
      product and quantity; and `get_order` finds the new order. */
  lemma {:induction false} CreateOrderSnapshot(s: Store, userId: int, fullName: Option<string>, phone: Option<string>,
                            address: Option<string>, totalPrice: int, lines: seq<CartLine>)
    requires Valid(s)
    ensures var r := CreateOrder(s, userId, fullName, phone, address, totalPrice, lines);
      r.result.Ok? ==>
        && ItemsOf(r.store, r.result.value) == Snapshot(r.result.value, lines)
        && GetOrder(r.store, r.result.value) ==
             Ok(Row(r.result.value, Order(GetClient(s, userId).value.id, fullName.value, phone.value, address.value, totalPrice)))
  {
    var r := CreateOrder(s, userId, fullName, phone, address, totalPrice, lines);
    CreateOrderOutcome(s, userId, fullName, phone, address, totalPrice, lines);
    if r.result.Ok? {
      var id := r.result.value;
      assert forall x :: x in s.orderItems.rows ==> x.val.orderId in Ids(s.orders);
      AppendedItems(s.orderItems, id, Snapshot(id, lines));
      GetAppendedOrder(s, r.store.orders,
        Row(id, Order(GetClient(s, userId).value.id, fullName.value, phone.value, address.value, totalPrice)));
    }
  }

  /** An appended order of an existing client that fits its columns keeps the order
      constraints. */
  lemma {:induction false} AppendedOrderValid(orders: Table<Order>, orders': Table<Order>, clients: Table<Client>, row: Row<Order>)
    requires OrdersValid(orders, clients) && orders'.rows == orders.rows + [row]
    requires row.val.clientId in Ids(clients) && OrderFits(row.val)
    ensures OrdersValid(orders', clients)
  {
  }

  /** Items of an appended order that name existing products with non-negative
      quantities keep the item constraints. */
  lemma {:induction false} AppendedItemsValid(items: Table<OrderItem>, orders: Table<Order>, orders': Table<Order>,
                           products: Table<Product>, id: nat, vs: seq<OrderItem>)
    requires WellFormed(items) && OrderItemsValid(items, orders, products)
    requires Ids(orders) <= Ids(orders') && id in Ids(orders')
    requires forall k :: 0 <= k < |vs| ==> vs[k].orderId == id && vs[k].productId in Ids(products) && vs[k].quantity >= 0
    ensures OrderItemsValid(InsertAll(items, vs), orders', products)
  {
    var added := Numbered(items.next, vs);
    forall x | x in InsertAll(items, vs).rows
      ensures x.val.orderId in Ids(orders') && x.val.productId in Ids(products) && x.val.quantity >= 0
    {
      if x !in items.rows {
        var k :| 0 <= k < |added| && added[k] == x;
      }
    }
  }

  /** A new order of an existing client that fits its columns keeps the store valid. */
  lemma {:induction false} OrderAddedValid(s: Store, o: Order)
    requires Valid(s) && o.clientId in Ids(s.clients) && OrderFits(o)
    ensures Valid(s.(orders := Insert(s.orders, o).0))
  {
    var (orders, id) := Insert(s.orders, o);
    AppendedOrderValid(s.orders, orders, s.clients, Row(id, o));
    ItemsValidWider(s.orderItems, s.orders, orders, s.products);
    WithOrderTables(s, orders, s.orderItems);
  }

  /** Items of an existing order that name existing products with non-negative
      quantities keep the store valid. */
  lemma {:induction false} ItemsAddedValid(s: Store, id: nat, vs: seq<OrderItem>)
    requires Valid(s) && id in Ids(s.orders)
    requires forall k :: 0 <= k < |vs| ==> vs[k].orderId == id && !ItemRefused(s, vs[k])
    ensures Valid(s.(orderItems := InsertAll(s.orderItems, vs)))
  {
    AppendedItemsValid(s.orderItems, s.orders, s.orders, s.products, id, vs);
    WithOrderTables(s, s.orders, InsertAll(s.orderItems, vs));
  }

  /** Item rows stay valid when the order table only gains ids. */
  lemma {:induction false} ItemsValidWider(items: Table<OrderItem>, orders: Table<Order>, orders': Table<Order>,
                                           products: Table<Product>)
    requires OrderItemsValid(items, orders, products) && Ids(orders) <= Ids(orders')
    ensures OrderItemsValid(items, orders', products)
  {
  }

  /** The store `create_order` leaves once the order fits its columns. */
  lemma {:induction false} CreateOrderFitting(s: Store, userId: int, fullName: Option<string>, phone: Option<string>,
                         address: Option<string>, totalPrice: int, lines: seq<CartLine>, client: Row<Client>, o: Order)
    requires WellFormed(s.orders) && WellFormed(s.orderItems)
    requires GetClient(s, userId) == Some(client) && fullName.Some? && phone.Some? && address.Some?
    requires o == Order(client.id, fullName.value, phone.value, address.value, totalPrice) && OrderFits(o)
    ensures var (orders, id) := Insert(s.orders, o);
      var items := Snapshot(id, lines);
      CreateOrder(s, userId, fullName, phone, address, totalPrice, lines).store
        == if AnyRefused(s, items) then s.(orders := orders)
           else s.(orders := orders, orderItems := InsertAll(s.orderItems, items))
  {
  }

  /** `create_order` keeps every constraint of the schema, whether it succeeds or not. */
  lemma {:induction false} CreateOrderValid(s: Store, userId: int, fullName: Option<string>, phone: Option<string>,
                         address: Option<string>, totalPrice: int, lines: seq<CartLine>)
    requires Valid(s)
    ensures Valid(CreateOrder(s, userId, fullName, phone, address, totalPrice, lines).store)
  {
    var r := CreateOrder(s, userId, fullName, phone, address, totalPrice, lines);
    match GetClient(s, userId)
    case None =>
      ValidSame(s, r.store);
    case Some(client) =>
      var o := if fullName.Some? && phone.Some? && address.Some?
        then Order(client.id, fullName.value, phone.value, address.value, totalPrice)
        else Order(client.id, "", "", "", totalPrice);
      if fullName.Some? && phone.Some? && address.Some? && OrderFits(o) {
        RowIds(s.clients);
        OrderAddedValid(s, o);
        var (orders, id) := Insert(s.orders, o);
        var items := Snapshot(id, lines);
        CreateOrderFitting(s, userId, fullName, phone, address, totalPrice, lines, client, o);
        if AnyRefused(s, items) {
          ValidSame(s.(orders := orders), r.store);
        } else {
          ItemsAddedValid(s.(orders := orders), id, items);
          ValidSame(s.(orders := orders, orderItems := InsertAll(s.orderItems, items)), r.store);
        }
      } else {
        ValidSame(s, r.store);
      }
  }

  /** Validity carries over to an equal store. */
  lemma {:induction false} ValidSame(a: Store, b: Store)
    requires Valid(a) && b == a
    ensures Valid(b)
  {
  }
}

=== FILE: payment.dfy ===
/**
 * The payment handlers of `bot/handlers/payment.py` as functions from an update to
 * the effects the bot produces: the invoice for a "pay_{id}" button, cancelling,
 * the pre-checkout answer, and what a successful payment triggers.
 */
module Payment {
  import opened Wrappers
  import opened PyStr
  import opened Tables
  import opened Schema
  import opened CatalogDb
  import opened CartDb
  import opened OrderDb

  /** What the handlers send or do outside the store, without message wording. */
  datatype Effect =
    | OrderNotFound                  // the "order not found" message
    | SendInvoice(orderId: nat, payload: string, shownTotal: string, cancelData: string)
    | InvoiceFailed                  // the message after Telegram refused the invoice
    | FollowInstructions             // the message that always follows the invoice
    | PaymentCancelled
    | DeleteMessage
    | AnswerPreCheckout(queryId: string, ok: bool)
    | ExportOrder(order: Row<Order>) // a row appended to the orders export file
    | PaymentConfirmed(paidId: int)

  /** The store afterwards, the effects in order, and the exception that escaped the
      handler, if one did. */
  datatype Outcome = Outcome(store: Store, effects: seq<Effect>, raised: Option<Fault>)

  // ---------------------------------------------------------------------------
  // process_payment

  /** The invoice for an order, the failure notice when Telegram refuses it, and
      the instructions, which are sent either way. */
  function InvoiceEffects(order: Row<Order>, refused: bool): (r: seq<Effect>)
    ensures |r| >= 2
    ensures r[0] == SendInvoice(order.id, IntToStr(order.id), MoneyStr(order.val.totalPrice), "cancel_pay_" + IntToStr(order.id))
    ensures r[|r| - 1] == FollowInstructions
    ensures InvoiceFailed in r <==> refused
  {
    [SendInvoice(order.id, IntToStr(order.id), MoneyStr(order.val.totalPrice), "cancel_pay_" + IntToStr(order.id))]
    + (if refused then [InvoiceFailed] else [])
    + [FollowInstructions]
  }

  /** `process_payment`, as written: the id is the second "_" field. A field that
      is not an integer gets the "order not found" message; a missing order raises
      `Order.DoesNotExist` from `get_order`, which the `except (IndexError,
      ValueError)` clause does not catch, so the handler fails without a reply.
      `refused` says whether Telegram refuses the invoice (`TelegramBadRequest`). */
  function ProcessPayment(s: Store, data: string, refused: bool): (r: Outcome)
    requires StartsWith(data, "pay_")
    ensures r.store == s
    ensures r.raised.Some? ==> r.raised == Some(DoesNotExist) && r.effects == []
  {
    var parts := Split(data, '_');
    if |parts| < 2 then Outcome(s, [OrderNotFound], None)
    else
      match ParseInt(parts[1])
      case None => Outcome(s, [OrderNotFound], None)
      case Some(orderId) =>
        match GetOrder(s, orderId)
        case Err(e) => Outcome(s, [], Some(e))
        case Ok(order) => Outcome(s, InvoiceEffects(order, refused), None)
  }

  /** `process_payment` as its `if not order: raise ValueError(...)` line shows it
      was meant to work: a missing order also gets the "order not found" message. */
  function ProcessPaymentFixed(s: Store, data: string, refused: bool): (r: Outcome)
    requires StartsWith(data, "pay_")
    ensures r.store == s && r.raised.None?
  {
    var parts := Split(data, '_');
    if |parts| < 2 then Outcome(s, [OrderNotFound], None)
    else
      match ParseInt(parts[1])
      case None => Outcome(s, [OrderNotFound], None)
      case Some(orderId) =>
        match GetOrder(s, orderId)
        case Err(_) => Outcome(s, [OrderNotFound], None)
        case Ok(order) => Outcome(s, InvoiceEffects(order, refused), None)
  }

  /** The second "_" field of "pay_{id}" is the id's decimal text. */
  lemma {:induction false} PayDataField(orderId: int)
    ensures var parts := Split("pay_" + IntToStr(orderId), '_');
      |parts| >= 2 && parts[1] == IntToStr(orderId)
  {
    assert "pay_" + IntToStr(orderId) == "pay" + ['_'] + IntToStr(orderId);
    SplitCons("pay", '_', IntToStr(orderId));
    SplitNone(IntToStr(orderId), '_');
  }

  /** The checkout's pay button for an existing order brings up the invoice for
      that order, with the order id as payload; the instructions follow whether or
      not Telegram accepts it. */
  lemma {:induction false} PayButtonInvoice(s: Store, orderId: nat, refused: bool)
    requires orderId in Ids(s.orders)
    ensures var r := ProcessPayment(s, "pay_" + IntToStr(orderId), refused);
      && r.raised.None?
      && r.effects[0] == SendInvoice(orderId, IntToStr(orderId), MoneyStr(Get(s.orders, orderId).value.totalPrice),
                                     "cancel_pay_" + IntToStr(orderId))
      && r.effects[|r.effects| - 1] == FollowInstructions
      && (InvoiceFailed in r.effects <==> refused)
  {
    var data := "pay_" + IntToStr(orderId);
    var order := Row(orderId, Get(s.orders, orderId).value);
    assert ParseInt(Split(data, '_')[1]) == Some(orderId as int) by {
      PayDataField(orderId);
      IntRoundTrip(orderId);
    }
    assert GetOrder(s, orderId) == Ok(order);
    assert ProcessPayment(s, data, refused) == Outcome(s, InvoiceEffects(order, refused), None);
  }

  /** The fields of "pay_..." data are "pay" followed by the fields of the rest,
      so the second field is the first field after the prefix. */
  lemma {:induction false} PayDataFields(data: string)
    requires StartsWith(data, "pay_")
    ensures Split(data, '_') == ["pay"] + Split(data[4..], '_')
  {
    assert data == "pay" + ['_'] + data[4..];
    SplitCons("pay", '_', data[4..]);
  }

  /** A second field that is not an integer gets the error message and no invoice. */
  lemma {:induction false} NonIntegerIdRejected(s: Store, data: string, refused: bool)
    requires StartsWith(data, "pay_") && ParseInt(Split(data[4..], '_')[0]) == None
    ensures ProcessPayment(s, data, refused) == Outcome(s, [OrderNotFound], None)
  {
    PayDataFields(data);
  }

  /** The id of an order that does not exist escapes the handler as
      `Order.DoesNotExist`: no message at all reaches the user. */
  lemma {:induction false} MissingOrderEscapes(s: Store, orderId: int, refused: bool)
    requires WellFormed(s.orders) && orderId !in Ids(s.orders)
    ensures ProcessPayment(s, "pay_" + IntToStr(orderId), refused) == Outcome(s, [], Some(DoesNotExist))
  {
    PayDataField(orderId);
    IntRoundTrip(orderId);
  }

  /** With the exception caught, every "pay_" press gets an answer: the invoice for
      an existing order, the "order not found" message otherwise. */
  lemma {:induction false} FixedAnswersEveryPress(s: Store, data: string, refused: bool)
    requires StartsWith(data, "pay_")
    ensures var r := ProcessPaymentFixed(s, data, refused);
      && r.raised.None? && |r.effects| > 0
      && (r.effects[0].SendInvoice? <==>
            var id := ParseInt(Split(data[4..], '_')[0]); id.Some? && id.value in Ids(s.orders))
      && (!r.effects[0].SendInvoice? ==> r.effects == [OrderNotFound])
  {
    PayDataFields(data);
  }

  /** The corrected handler agrees with the one as written wherever that one
      answers at all. */
  lemma {:induction false} FixedAgreesWhenAnswered(s: Store, data: string, refused: bool)
    requires StartsWith(data, "pay_") && ProcessPayment(s, data, refused).raised.None?
    ensures ProcessPaymentFixed(s, data, refused) == ProcessPayment(s, data, refused)
  {
  }

  // ---------------------------------------------------------------------------
  // cancel_payment and pre_checkout_query

  /** `cancel_payment`: a notice, and the invoice message is deleted; no order and no
      cart is touched. */
  function CancelPayment(s: Store): (r: Outcome)
    ensures r.store == s && r.raised.None?
    ensures PaymentCancelled in r.effects
    ensures forall e :: e in r.effects ==> !e.SendInvoice? && !e.PaymentConfirmed?
  {
    Outcome(s, [PaymentCancelled, DeleteMessage], None)
  }

  /** `pre_checkout_query`: every query is accepted, whatever it holds. */
  function PreCheckout(s: Store, queryId: string): (r: Outcome)
    ensures r.store == s && r.raised.None?
    ensures forall e :: e in r.effects ==> e == AnswerPreCheckout(queryId, true)
    ensures |r.effects| == 1
  {
    Outcome(s, [AnswerPreCheckout(queryId, true)], None)
  }

  // ---------------------------------------------------------------------------
  // process_successful_payment

  /** The export step: the order's row is appended to the export file, unless the
      order is missing (`save_order_to_excel` raises, and the error is logged) or
      the write fails. */
  function Exported(s: Store, orderId: int, exportFails: bool): (r: seq<Effect>)
    ensures r == [] <==> exportFails || orderId !in Ids(s.orders)
    ensures r != [] ==> r == [ExportOrder(Row(orderId as nat, Get(s.orders, orderId).value))]
  {
    match GetOrder(s, orderId)
    case Ok(order) => if exportFails then [] else [ExportOrder(order)]
    case Err(_) => []
  }

  /** `process_successful_payment`. The payload is read back with `int()`; a
      payload that does not parse raises `ValueError` before anything happens.
      Then the order is exported, and the cart of the user who paid is cleared;
      each step's failure is logged and the next step runs anyway, and the
      confirmation is always sent. `exportFails` and `clearFails` say whether the
      export write and the delete statement fail. */
  function ProcessSuccessfulPayment(s: Store, userId: int, payload: string, exportFails: bool, clearFails: bool): (r: Outcome)
    requires WellFormed(s.orders) && WellFormed(s.cartItems)
    ensures r.raised.Some? <==> ParseInt(payload).None?
    ensures r.raised.Some? ==> r == Outcome(s, [], Some(ValueError))
    ensures r.raised.None? ==> |r.effects| >= 1 && r.effects[|r.effects| - 1] == PaymentConfirmed(ParseInt(payload).value)
    ensures r.store.orders == s.orders && r.store.orderItems == s.orderItems
  {
    match ParseInt(payload)
    case None => Outcome(s, [], Some(ValueError))
    case Some(orderId) =>
      var store := if clearFails then s else ClearCart(s, userId);
      Outcome(store, Exported(s, orderId, exportFails) + [PaymentConfirmed(orderId)], None)
  }

  /** The payload of the invoice comes back as the same order: the success handler
      confirms that order id and, unless the export fails, exports that order row. */
  lemma {:induction false} PayloadRoundTrip(s: Store, orderId: nat, refused: bool, userId: int, exportFails: bool, clearFails: bool)
    requires WellFormed(s.orders) && WellFormed(s.cartItems) && orderId in Ids(s.orders)
    ensures var sent := ProcessPayment(s, "pay_" + IntToStr(orderId), refused).effects;
      && |sent| > 0 && sent[0].SendInvoice?
      && var r := ProcessSuccessfulPayment(s, userId, sent[0].payload, exportFails, clearFails);
      && r.raised.None?
      && r.effects[|r.effects| - 1] == PaymentConfirmed(orderId)
      && (!exportFails ==> r.effects[0] == ExportOrder(Row(orderId, Get(s.orders, orderId).value)))
  {
    PayButtonInvoice(s, orderId, refused);
    IntRoundTrip(orderId);
  }

  /** Neither failing step stops the other or the confirmation: the cart is cleared
      whenever its delete succeeds, and the confirmation ends the effects in every
      case. */
  lemma {:induction false} SuccessStepsIsolated(s: Store, userId: int, payload: string, exportFails: bool, clearFails: bool)
    requires WellFormed(s.orders) && WellFormed(s.cartItems) && ParseInt(payload).Some?
    ensures var r := ProcessSuccessfulPayment(s, userId, payload, exportFails, clearFails);
      && r.store == (if clearFails then s else ClearCart(s, userId))
      && r.effects[|r.effects| - 1] == PaymentConfirmed(ParseInt(payload).value)
      && r.effects[..|r.effects| - 1] == ProcessSuccessfulPayment(s, userId, payload, exportFails, !clearFails).effects[..|r.effects| - 1]
  {
  }

  /** The cart cleared is the payer's, whatever order the payload names: after a
      successful payment the payer holds nothing, everybody else holds what they
      held, and the store does not depend on the order at all. */
  lemma {:induction false} SuccessClearsPayer(s: Store, userId: int, payload: string, payload': string,
                                              exportFails: bool, other: int, productId: int)
    requires Valid(s) && ParseInt(payload).Some? && ParseInt(payload').Some? && other != userId
    ensures var r := ProcessSuccessfulPayment(s, userId, payload, exportFails, false);
      && r.store == ProcessSuccessfulPayment(s, userId, payload', exportFails, false).store
      && UserQuantity(r.store, userId, productId) == 0
      && UserQuantity(r.store, other, productId) == UserQuantity(s, other, productId)
  {
    ClearCartEmpties(s, userId, productId);
    ClearCartOthers(s, userId, other, productId);
  }
}

=== FILE: pystr.dfy ===
/**
 * The handful of Python `str` operations the bot relies on, stated over
 * `seq<char>`: `str.isspace`/`strip`, `split` on a one-character separator,
 * `startswith`, substring containment, `str(int)` and `int(str)`.
 */
module PyStr {
  import opened Wrappers

  /** The characters for which Python's `str.isspace()` is true. */
  predicate IsSpace(c: char) {
    || ('\t' <= c <= '\r') || ('\U{1c}' <= c <= '\U{1f}') || c == ' '
    || c == '\U{85}' || c == '\U{a0}' || c == '\U{1680}'
    || ('\U{2000}' <= c <= '\U{200a}') || c == '\U{2028}' || c == '\U{2029}'
    || c == '\U{202f}' || c == '\U{205f}' || c == '\U{3000}'
  }

  predicate IsDigit(c: char) {
    '0' <= c <= '9'
  }

  /** Leading whitespace removed (Python `lstrip()`). */
  function LStrip(s: string): (r: string)
    ensures |r| <= |s| && r == s[|s| - |r|..]
    ensures |r| > 0 ==> !IsSpace(r[0])
    ensures forall i :: 0 <= i < |s| - |r| ==> IsSpace(s[i])
  {
    if |s| > 0 && IsSpace(s[0]) then LStrip(s[1..]) else s
  }

  /** Trailing whitespace removed (Python `rstrip()`). */
  function RStrip(s: string): (r: string)
    ensures |r| <= |s| && r == s[..|r|]
    ensures |r| > 0 ==> !IsSpace(r[|r| - 1])
    ensures forall i :: |r| <= i < |s| ==> IsSpace(s[i])
  {
    if |s| > 0 && IsSpace(s[|s| - 1]) then RStrip(s[..|s| - 1]) else s
  }

  /** Python `strip()` with no argument. */
  function Strip(s: string): string {
    RStrip(LStrip(s))
  }

  /** Where `Strip(s)` begins inside `s`. */
  function StripStart(s: string): nat {
    |s| - |LStrip(s)|
  }

  /** The outcome of `strip()`: a contiguous part of the input whose ends are not
      whitespace, and everything cut away on either side is whitespace. */
  lemma {:induction false} StripSpec(s: string)
    ensures var r, lo := Strip(s), StripStart(s);
      && lo + |r| <= |s| && r == s[lo..lo + |r|]
      && (forall i :: 0 <= i < lo ==> IsSpace(s[i]))
      && (forall i :: lo + |r| <= i < |s| ==> IsSpace(s[i]))
      && (|r| > 0 ==> !IsSpace(r[0]) && !IsSpace(r[|r| - 1]))
  {
    StripSlice(s);
    StripRightCut(s);
  }

  /** `strip()` is the slice of the input from `StripStart`. */
  lemma {:induction false} StripSlice(s: string)
    ensures StripStart(s) + |Strip(s)| <= |s| && Strip(s) == s[StripStart(s)..StripStart(s) + |Strip(s)|]
  {
    var l := LStrip(s);
    var r := RStrip(l);
    var lo := |s| - |l|;
    assert l == s[lo..];
    assert r == l[..|r|];
    assert r == s[lo..lo + |r|];
  }

  /** What `strip()` cuts on the right is whitespace. */
  lemma {:induction false} StripRightCut(s: string)
    ensures forall i :: StripStart(s) + |Strip(s)| <= i < |s| ==> IsSpace(s[i])
  {
    var l := LStrip(s);
    var r := RStrip(l);
    var lo := |s| - |l|;
    forall i | lo + |r| <= i < |s| ensures IsSpace(s[i]) {
      SpaceInSuffix(s, l, lo, |r|, i);
    }
  }

  /** A character past `m` in a suffix `l` of `s` whose tail from `m` is
      whitespace is whitespace in `s` too. */
  lemma {:induction false} SpaceInSuffix(s: string, l: string, lo: nat, m: nat, i: nat)
    requires lo <= |s| && l == s[lo..] && m <= |l|
    requires forall j :: m <= j < |l| ==> IsSpace(l[j])
    requires lo + m <= i < |s|
    ensures IsSpace(s[i])
  {
    assert s[i] == l[i - lo];
  }

  /** Python `s.startswith(prefix)`. */
  predicate StartsWith(s: string, prefix: string) {
    prefix <= s
  }

  /** Python `needle in hay` for strings; the empty needle occurs everywhere. */
  predicate Contains(hay: string, needle: string) {
    exists i :: 0 <= i <= |hay| && needle <= hay[i..]
  }

  /** Index of the first occurrence of `c` in `s`. */
  function IndexOf(s: string, c: char): (i: nat)
    requires c in s
    ensures i < |s| && s[i] == c && c !in s[..i]
  {
    if s[0] == c then 0 else 1 + IndexOf(s[1..], c)
  }

  /** Python `s.split(sep)` for a one-character separator: the pieces between
      consecutive occurrences of `sep`, empty pieces included. */
  function Split(s: string, sep: char): (parts: seq<string>)
    ensures |parts| >= 1
    ensures forall k :: 0 <= k < |parts| ==> sep !in parts[k]
    decreases |s|
  {
    if sep !in s then [s]
    else
      var i := IndexOf(s, sep);
      [s[..i]] + Split(s[i + 1..], sep)
  }

  /** Python `sep.join(parts)`. */
  function Join(parts: seq<string>, sep: char): string
    requires |parts| >= 1
  {
    if |parts| == 1 then parts[0] else parts[0] + [sep] + Join(parts[1..], sep)
  }

  /** `split` loses nothing: joining the pieces with the separator gives the input back. */
  lemma {:induction false} JoinSplit(s: string, sep: char)
    ensures Join(Split(s, sep), sep) == s
    decreases |s|
  {
    if sep in s {
      var i := IndexOf(s, sep);
      var head, rest := s[..i], s[i + 1..];
      var parts, tail := Split(s, sep), Split(rest, sep);
      assert parts == [head] + tail;
      assert |parts| > 1 && parts[0] == head && parts[1..] == tail;
      JoinSplit(rest, sep);
      assert Join(parts, sep) == head + [sep] + rest;
      assert s == head + [sep] + rest;
    }
  }

  /** A separator-free head is split off as the first piece. */
  lemma {:induction false} SplitCons(a: string, sep: char, b: string)
    requires sep !in a
    ensures Split(a + [sep] + b, sep) == [a] + Split(b, sep)
  {
    var s := a + [sep] + b;
    assert s[|a|] == sep;
    var i := IndexOf(s, sep);
    if i < |a| {
      assert false;
    }
    if i > |a| {
      assert false;
    }
    assert s[..i] == a;
    assert s[i + 1..] == b;
  }

  /** A string without the separator is a single piece. */
  lemma {:induction false} SplitNone(s: string, sep: char)
    requires sep !in s
    ensures Split(s, sep) == [s]
  {
  }

  // ---------------------------------------------------------------------------
  // str(int)

  function DigitChar(d: nat): (c: char)
    requires d < 10
    ensures IsDigit(c)
  {
    ['0', '1', '2', '3', '4', '5', '6', '7', '8', '9'][d]
  }

  function DigitValue(c: char): nat
    requires IsDigit(c)
  {
    (c as int - '0' as int) as nat
  }

  /** Python `str(n)` for a non-negative integer: decimal digits, no leading zero. */
  function NatToStr(n: nat): (r: string)
    ensures |r| >= 1
    ensures forall k :: 0 <= k < |r| ==> IsDigit(r[k])
    ensures |r| > 1 ==> r[0] != '0'
  {
    if n < 10 then [DigitChar(n)] else NatToStr(n / 10) + [DigitChar(n % 10)]
  }

  /** Python `str(n)` for any integer: a minus sign in front of negative values. */
  function IntToStr(n: int): (r: string)
    ensures |r| >= 1
    ensures forall k :: 0 <= k < |r| ==> IsDigit(r[k]) || (k == 0 && r[k] == '-')
    ensures '_' !in r && ':' !in r
  {
    if n < 0 then "-" + NatToStr(-n) else NatToStr(n)
  }

  // ---------------------------------------------------------------------------
  // int(str)

  /** The digit run Python's `int()` accepts, restricted to ASCII digits (Python
      also takes other Unicode decimal digits, which this model rejects), with
      single underscores allowed only between two digits. */
  predicate DigitRun(s: string) {
    && |s| > 0
    && IsDigit(s[0]) && IsDigit(s[|s| - 1])
    && (forall k :: 0 <= k < |s| ==> IsDigit(s[k]) || s[k] == '_')
    && (forall k :: 0 <= k < |s| - 1 ==> !DoubleUnderscoreAt(s, k))
  }

  /** Two underscores in a row at position `k`. */
  predicate DoubleUnderscoreAt(s: string, k: nat)
    requires k + 1 < |s|
  {
    s[k] == '_' && s[k + 1] == '_'
  }

  /** Value of a run of digits and underscores, read in base 10; underscores are skipped. */
  function RunValue(s: string): nat
    requires forall k :: 0 <= k < |s| ==> IsDigit(s[k]) || s[k] == '_'
  {
    if |s| == 0 then 0
    else if s[|s| - 1] == '_' then RunValue(s[..|s| - 1])
    else RunValue(s[..|s| - 1]) * 10 + DigitValue(s[|s| - 1])
  }

  /** Python `int(s)` in base 10: surrounding whitespace is ignored, one optional
      sign, then a digit run; anything else raises `ValueError` (here `None`). */
  function ParseInt(s: string): (r: Option<int>)
    ensures r.Some? ==> |Strip(s)| > 0
    ensures r.Some? ==> forall k :: 0 <= k < |Strip(s)| ==>
      IsDigit(Strip(s)[k]) || Strip(s)[k] == '_' || (k == 0 && Strip(s)[k] in "+-")
    ensures r.Some? && r.value < 0 ==> Strip(s)[0] == '-'
  {
    var t := Strip(s);
    if |t| > 0 && (t[0] == '-' || t[0] == '+') then
      if DigitRun(t[1..]) then
        var v: int := RunValue(t[1..]);
        Some(if t[0] == '-' then -v else v)
      else None
    else if DigitRun(t) then Some(RunValue(t))
    else None
  }

  lemma {:induction false} NatToStrValue(n: nat)
    ensures RunValue(NatToStr(n)) == n
  {
    if n >= 10 {
      var s := NatToStr(n);
      assert s[..|s| - 1] == NatToStr(n / 10);
      NatToStrValue(n / 10);
    }
  }

  lemma {:induction false} NoSpaceStrip(s: string)
    requires forall k :: 0 <= k < |s| ==> !IsSpace(s[k])
    ensures Strip(s) == s
  {
    assert LStrip(s) == s;
    assert RStrip(s) == s;
  }

  /** `int(str(n)) == n`: the decimal rendering of every integer parses back to it. */
  lemma {:induction false} IntRoundTrip(n: int)
    ensures ParseInt(IntToStr(n)) == Some(n)
  {
    if n < 0 {
      NegativeRoundTrip(n);
    } else {
      NatRoundTrip(n);
    }
  }

  lemma {:induction false} NatRoundTrip(n: nat)
    ensures ParseInt(IntToStr(n)) == Some(n as int)
  {
    var s := NatToStr(n);
    assert IntToStr(n) == s;
    NoSpaceStrip(s);
    NatDigitRun(n);
    NatToStrValue(n);
    ParseUnsigned(s);
  }

  lemma {:induction false} NegativeRoundTrip(n: int)
    requires n < 0
    ensures ParseInt(IntToStr(n)) == Some(n)
  {
    var m: nat := -n;
    var s := "-" + NatToStr(m);
    assert IntToStr(n) == s;
    assert ParseInt(s) == Some(n) by {
      assert s[1..] == NatToStr(m);
      SignedNoSpace(m);
      NoSpaceStrip(s);
      NatDigitRun(m);
      NatToStrValue(m);
      ParseNegative(s);
    }
  }

  /** A minus sign and the decimal rendering of a natural number hold no whitespace. */
  lemma {:induction false} SignedNoSpace(m: nat)
    ensures var s := "-" + NatToStr(m); forall k :: 0 <= k < |s| ==> !IsSpace(s[k])
  {
    var s := "-" + NatToStr(m);
    forall k | 0 <= k < |s| ensures !IsSpace(s[k]) {
      if k > 0 {
        assert s[k] == NatToStr(m)[k - 1];
      }
    }
  }

  /** The decimal rendering of a natural number is a digit run. */
  lemma {:induction false} NatDigitRun(n: nat)
    ensures DigitRun(NatToStr(n))
  {
  }

  /** A stripped minus sign and digit run parse to the negated run. */
  lemma {:induction false} ParseNegative(t: string)
    requires Strip(t) == t && |t| > 0 && t[0] == '-' && DigitRun(t[1..])
    ensures ParseInt(t) == Some(-(RunValue(t[1..]) as int))
  {
  }

  /** A stripped digit run parses to its value. */
  lemma {:induction false} ParseUnsigned(t: string)
    requires Strip(t) == t && DigitRun(t)
    ensures ParseInt(t) == Some(RunValue(t) as int)
  {
  }

  /** Strings that contain a character other than whitespace, digits, signs and
      underscores never parse. */
  lemma {:induction false} ParseRejectsLetter(s: string, k: nat)
    requires k < |s| && !IsDigit(s[k]) && !IsSpace(s[k]) && s[k] !in "+-_"
    ensures ParseInt(s) == None
  {
    StripSpec(s);
    var t, lo := Strip(s), StripStart(s);
    assert lo <= k < lo + |t|;
    assert t[k - lo] == s[k];
  }

  // ---------------------------------------------------------------------------
  // str(Decimal) for an amount with two decimal places

  /** Python `str(d)` for a `Decimal` with exactly two decimal places, given as its
      number of hundredths: a minus sign for negative amounts, the whole part, a
      point and two digits. */
  function MoneyStr(cents: int): (r: string)
    ensures |r| >= 4 && r[|r| - 3] == '.'
  {
    var m := if cents < 0 then -cents else cents;
    (if cents < 0 then "-" else "") + NatToStr(m / 100) + "." + [DigitChar(m % 100 / 10), DigitChar(m % 10)]
  }

  /** Reads `[-]digits.dd` back as a number of hundredths, the way `Decimal(s) * 100`
      does; anything else is refused. */
  function ParseMoney(s: string): (r: Option<int>) {
    if |s| > 0 && s[0] == '-' then
      match Hundredths(s[1..])
      case None => None
      case Some(v) => Some(-(v as int))
    else
      match Hundredths(s)
      case None => None
      case Some(v) => Some(v as int)
  }

  /** `digits.dd` as a number of hundredths. */
  function Hundredths(body: string): (r: Option<nat>) {
    var n := |body|;
    if n >= 4 && body[n - 3] == '.' && IsDigit(body[n - 2]) && IsDigit(body[n - 1]) && DigitRun(body[..n - 3]) then
      Some(RunValue(body[..n - 3]) * 100 + DigitValue(body[n - 2]) * 10 + DigitValue(body[n - 1]))
    else None
  }

  lemma {:induction false} DigitCharValue(d: nat)
    requires d < 10
    ensures DigitValue(DigitChar(d)) == d
  {
  }

  /** A whole number, a point and two digits read back as that many hundredths. */
  lemma {:induction false} HundredthsOf(whole: nat, c: nat)
    requires c < 100
    ensures Hundredths(NatToStr(whole) + "." + [DigitChar(c / 10), DigitChar(c % 10)]) == Some(whole * 100 + c)
  {
    var w := NatToStr(whole);
    var body := w + "." + [DigitChar(c / 10), DigitChar(c % 10)];
    var n := |body|;
    assert body[..n - 3] == w && body[n - 3] == '.';
    assert body[n - 2] == DigitChar(c / 10) && body[n - 1] == DigitChar(c % 10);
    assert DigitRun(w);
    NatToStrValue(whole);
    DigitCharValue(c / 10);
    DigitCharValue(c % 10);
  }

  lemma {:induction false} ParseMoneySigned(body: string)
    requires Hundredths(body).Some?
    ensures ParseMoney("-" + body) == Some(-(Hundredths(body).value as int))
  {
    assert ("-" + body)[1..] == body;
  }

  lemma {:induction false} ParseMoneyUnsigned(body: string)
    requires Hundredths(body).Some? && body[0] != '-'
    ensures ParseMoney(body) == Some(Hundredths(body).value as int)
  {
  }

  /** The rendering of every amount reads back to the same amount. */
  lemma {:induction false} MoneyRoundTrip(cents: int)
    ensures ParseMoney(MoneyStr(cents)) == Some(cents)
  {
    if cents < 0 {
      NegativeMoneyRoundTrip(cents);
    } else {
      NatMoneyRoundTrip(cents);
    }
  }

  /** The body of a rendered amount: the whole part, a point and two digits. */
  function MoneyBody(m: nat): string {
    NatToStr(m / 100) + "." + [DigitChar(m % 100 / 10), DigitChar(m % 10)]
  }

  lemma {:induction false} MoneyBodyValue(m: nat)
    ensures Hundredths(MoneyBody(m)) == Some(m) && IsDigit(MoneyBody(m)[0])
  {
    assert m % 10 == m % 100 % 10;
    HundredthsOf(m / 100, m % 100);
  }

  lemma {:induction false} NatMoneyRoundTrip(cents: nat)
    ensures ParseMoney(MoneyStr(cents)) == Some(cents as int)
  {
    assert MoneyStr(cents) == MoneyBody(cents);
    MoneyBodyValue(cents);
    ParseMoneyUnsigned(MoneyBody(cents));
  }

  lemma {:induction false} NegativeMoneyRoundTrip(cents: int)
    requires cents < 0
    ensures ParseMoney(MoneyStr(cents)) == Some(cents)
  {
    var m: nat := -cents;
    assert MoneyStr(cents) == "-" + MoneyBody(m);
    MoneyBodyValue(m);
    ParseMoneySigned(MoneyBody(m));
  }
}

=== FILE: schema.dfy ===
/**
 * The relational state the bot reads and writes: clients, their carts and cart
 * items, orders with their frozen items, and the category / subcategory / product
 * catalog, with the constraints the Django models and migration declare.
 * Money is held as integer kopecks (every price column has two decimal places).
 */
module Schema {
  import opened Wrappers
  import opened Tables

  /** `DecimalField(max_digits=10, decimal_places=2)`: at most 8 integer digits,
      so an amount in kopecks has absolute value below 10^10. */
  const MONEY_LIMIT: int := 10_000_000_000
  /** `CharField(max_length=255)` for names and the order's full name. */
  const NAME_MAX: nat := 255
  /** `CharField(max_length=20)` for the order's phone. */
  const PHONE_MAX: nat := 20

  /** A Telegram user; `tg_id` is unique. */
  datatype Client = Client(tgId: int, username: Option<string>)
  /** One-to-one with its client. */
  datatype Cart = Cart(clientId: nat)
  /** `quantity` is a `PositiveIntegerField(default=1)`: at least 0. */
  datatype CartItem = CartItem(cartId: nat, productId: nat, quantity: int)
  datatype Order = Order(clientId: nat, fullName: string, phone: string, address: string, totalPrice: int)
  datatype OrderItem = OrderItem(orderId: nat, productId: nat, quantity: int)
  datatype Category = Category(name: string)
  datatype Subcategory = Subcategory(name: string, categoryId: nat)
  /** `subcategoryId` is the nullable `category` foreign key to a subcategory. */
  datatype Product = Product(name: string, price: int, subcategoryId: Option<nat>)

  datatype Store = Store(
    clients: Table<Client>,
    carts: Table<Cart>,
    cartItems: Table<CartItem>,
    orders: Table<Order>,
    orderItems: Table<OrderItem>,
    categories: Table<Category>,
    subcategories: Table<Subcategory>,
    products: Table<Product>)

  function EmptyStore(): (s: Store)
    ensures Valid(s)
  {
    Store(Empty(), Empty(), Empty(), Empty(), Empty(), Empty(), Empty(), Empty())
  }

  /** Why a database call or the code around it raised. */
  datatype Fault =
    | NoneAttribute   // an attribute read on `None` (`client.id` for an unknown user)
    | DoesNotExist    // `objects.aget(...)` matched no row
    | IntegrityError  // a unique, foreign-key, NOT NULL or CHECK constraint refused the write
    | DataError       // a value does not fit its column (string width, numeric precision)
    | NegativeIndex   // Django's `ValueError("Negative indexing is not supported.")`
                      // for a queryset sliced with a negative bound
    | ValueError      // `int(...)` of text that is not an integer
    | IndexError      // a list read past its end (`split(...)[1]` with one field)
    | KeyError        // a missing key in the conversation data
    | TypeError       // a call of something that is not callable

  /** The store after a database call, and what the call returned or raised. Calls
      that raise part-way leave behind whatever they had already committed. */
  datatype Tx<T> = Tx(store: Store, result: Result<T, Fault>)

  predicate MoneyFits(x: int) {
    -MONEY_LIMIT < x < MONEY_LIMIT
  }

  /** The column widths of an order row. */
  predicate OrderFits(o: Order) {
    |o.fullName| <= NAME_MAX && |o.phone| <= PHONE_MAX && MoneyFits(o.totalPrice)
  }

  // ---------------------------------------------------------------------------
  // Constraints, one predicate per table over exactly the tables it refers to

  ghost predicate ClientsValid(clients: Table<Client>) {
    forall a, b {:trigger a in clients.rows, b in clients.rows} :: a in clients.rows && b in clients.rows && a.val.tgId == b.val.tgId ==> a == b
  }

  /** The one-to-one `Cart.client`: at most one cart per client. */
  ghost predicate OneCartPerClient(carts: Table<Cart>) {
    forall a, b {:trigger a in carts.rows, b in carts.rows} :: a in carts.rows && b in carts.rows && a.val.clientId == b.val.clientId ==> a == b
  }

  ghost predicate CartsValid(carts: Table<Cart>, clients: Table<Client>) {
    && (forall c :: c in carts.rows ==> c.val.clientId in Ids(clients))
    && OneCartPerClient(carts)
  }

  /** Two cart items for the same (cart, product) pair. */
  predicate SameLine(a: CartItem, b: CartItem) {
    a.cartId == b.cartId && a.productId == b.productId
  }

  /** `unique_together (cart, product)`: at most one item per pair. */
  ghost predicate LinesUnique(items: Table<CartItem>) {
    forall a, b {:trigger SameLine(a.val, b.val)} :: a in items.rows && b in items.rows && SameLine(a.val, b.val) ==> a == b
  }

  lemma {:induction false} LinesUniqueAt(items: Table<CartItem>, a: Row<CartItem>, b: Row<CartItem>)
    requires LinesUnique(items) && a in items.rows && b in items.rows && SameLine(a.val, b.val)
    ensures a == b
  {
  }

  ghost predicate CartItemsValid(items: Table<CartItem>, carts: Table<Cart>, products: Table<Product>) {
    && (forall x :: x in items.rows ==>
          x.val.cartId in Ids(carts) && x.val.productId in Ids(products) && x.val.quantity >= 0)
    && LinesUnique(items)
  }

  ghost predicate OrdersValid(orders: Table<Order>, clients: Table<Client>) {
    forall o :: o in orders.rows ==> o.val.clientId in Ids(clients) && OrderFits(o.val)
  }

  ghost predicate OrderItemsValid(items: Table<OrderItem>, orders: Table<Order>, products: Table<Product>) {
    forall x :: x in items.rows ==>
      x.val.orderId in Ids(orders) && x.val.productId in Ids(products) && x.val.quantity >= 0
  }

  ghost predicate CategoriesValid(categories: Table<Category>) {
    && (forall c :: c in categories.rows ==> |c.val.name| <= NAME_MAX)
    && (forall a, b {:trigger a in categories.rows, b in categories.rows} :: a in categories.rows && b in categories.rows && a.val.name == b.val.name ==> a == b)
  }

  ghost predicate SubcategoriesValid(subs: Table<Subcategory>, categories: Table<Category>) {
    && (forall c :: c in subs.rows ==> |c.val.name| <= NAME_MAX && c.val.categoryId in Ids(categories))
    && (forall a, b {:trigger a in subs.rows, b in subs.rows} :: a in subs.rows && b in subs.rows && a.val.name == b.val.name ==> a == b)
  }

  ghost predicate ProductsValid(products: Table<Product>, subs: Table<Subcategory>) {
    forall p :: p in products.rows ==>
      && |p.val.name| <= NAME_MAX && MoneyFits(p.val.price)
      && (p.val.subcategoryId.Some? ==> p.val.subcategoryId.value in Ids(subs))
  }

  ghost predicate WellFormedTables(s: Store) {
    && WellFormed(s.clients) && WellFormed(s.carts) && WellFormed(s.cartItems)
    && WellFormed(s.orders) && WellFormed(s.orderItems)
    && WellFormed(s.categories) && WellFormed(s.subcategories) && WellFormed(s.products)
  }

  /** Every constraint the schema declares. */
  ghost predicate Valid(s: Store) {
    && WellFormedTables(s)
    && ClientsValid(s.clients)
    && CartsValid(s.carts, s.clients)
    && CartItemsValid(s.cartItems, s.carts, s.products)
    && OrdersValid(s.orders, s.clients)
    && OrderItemsValid(s.orderItems, s.orders, s.products)
    && CategoriesValid(s.categories)
    && SubcategoriesValid(s.subcategories, s.categories)
    && ProductsValid(s.products, s.subcategories)
  }

  /** Replacing the two cart tables keeps the store valid when the new tables meet
      their own constraints. */
  lemma {:induction false} WithCartTables(s: Store, carts: Table<Cart>, items: Table<CartItem>)
    requires Valid(s) && WellFormed(carts) && WellFormed(items)
    requires CartsValid(carts, s.clients) && CartItemsValid(items, carts, s.products)
    ensures Valid(s.(carts := carts, cartItems := items))
  {
  }

  /** Replacing the two order tables keeps the store valid when the new tables meet
      their own constraints. */
  lemma {:induction false} WithOrderTables(s: Store, orders: Table<Order>, items: Table<OrderItem>)
    requires Valid(s) && WellFormed(orders) && WellFormed(items)
    requires OrdersValid(orders, s.clients) && OrderItemsValid(items, orders, s.products)
    ensures Valid(s.(orders := orders, orderItems := items))
  {
  }

  // ---------------------------------------------------------------------------
  // Deletions and what the `on_delete` rules do to the rows that refer to them

  /** Deleting a cart deletes its items (`CartItem.cart`, CASCADE). */
  function DeleteCart(s: Store, cartId: nat): (r: Store)
    requires Valid(s)
    ensures Valid(r)
    ensures cartId !in Ids(r.carts) && Ids(r.carts) == Ids(s.carts) - {cartId}
    ensures forall x :: x in r.cartItems.rows <==> x in s.cartItems.rows && x.val.cartId != cartId
    ensures r == s.(carts := r.carts, cartItems := r.cartItems)
  {
    s.(carts := Delete(s.carts, cartId),
       cartItems := DeleteWhere(s.cartItems, (x: CartItem) => x.cartId == cartId))
  }

  /** Deleting an order deletes its items (`OrderItem.order`, CASCADE). */
  function DeleteOrder(s: Store, orderId: nat): (r: Store)
    requires Valid(s)
    ensures Valid(r)
    ensures Ids(r.orders) == Ids(s.orders) - {orderId}
    ensures forall x :: x in r.orderItems.rows <==> x in s.orderItems.rows && x.val.orderId != orderId
    ensures r == s.(orders := r.orders, orderItems := r.orderItems)
  {
    s.(orders := Delete(s.orders, orderId),
       orderItems := DeleteWhere(s.orderItems, (x: OrderItem) => x.orderId == orderId))
  }

  /** Deleting a product deletes the cart items AND the order items that refer to it
      (both foreign keys CASCADE), so an order's items do not outlive its products;
      the order's stored total is left as it was. */
  function DeleteProduct(s: Store, productId: nat): (r: Store)
    requires Valid(s)
    ensures Valid(r)
    ensures Ids(r.products) == Ids(s.products) - {productId}
    ensures forall x :: x in r.cartItems.rows <==> x in s.cartItems.rows && x.val.productId != productId
    ensures forall x :: x in r.orderItems.rows <==> x in s.orderItems.rows && x.val.productId != productId
    ensures r.orders == s.orders
    ensures r == s.(products := r.products, cartItems := r.cartItems, orderItems := r.orderItems)
  {
    s.(products := Delete(s.products, productId),
       cartItems := DeleteWhere(s.cartItems, (x: CartItem) => x.productId == productId),
       orderItems := DeleteWhere(s.orderItems, (x: OrderItem) => x.productId == productId))
  }

  /** A product row after the subcategories `gone` are deleted: the same row, with
      its subcategory reference cleared when it pointed into `gone`. */
  function OrphanedRow(p: Row<Product>, gone: set<nat>): Row<Product> {
    if p.val.subcategoryId.Some? && p.val.subcategoryId.value in gone
    then Row(p.id, p.val.(subcategoryId := None)) else p
  }

  /** `after` holds the products of `before`, one for one and in order, each with
      the same id, name and price; only a reference into `gone` is cleared. */
  ghost predicate ProductsOrphaned(before: Table<Product>, after: Table<Product>, gone: set<nat>) {
    && |after.rows| == |before.rows|
    && forall k :: 0 <= k < |before.rows| ==> after.rows[k] == OrphanedRow(before.rows[k], gone)
  }

  /** Product rows with their subcategory reference cleared when it is in `gone`
      (`Product.category`, SET_NULL). */
  function Orphan(products: Table<Product>, gone: set<nat>): (r: Table<Product>)
    requires WellFormed(products)
    ensures WellFormed(r) && Ids(r) == Ids(products)
    ensures ProductsOrphaned(products, r, gone)
  {
    UpdateWhere(products,
      (p: Product) => p.subcategoryId.Some? && p.subcategoryId.value in gone,
      (p: Product) => p.(subcategoryId := None))
  }

  /** Deleting a subcategory keeps its products and clears their reference to it;
      no other product field changes. */
  function DeleteSubcategory(s: Store, subId: nat): (r: Store)
    requires Valid(s)
    ensures Valid(r)
    ensures Ids(r.subcategories) == Ids(s.subcategories) - {subId}
    ensures Ids(r.products) == Ids(s.products)
    ensures ProductsOrphaned(s.products, r.products, {subId})
    ensures forall p :: p in r.products.rows ==> p.val.subcategoryId != Some(subId)
    ensures r == s.(subcategories := r.subcategories, products := r.products)
  {
    var r := s.(subcategories := Delete(s.subcategories, subId),
                products := Orphan(s.products, {subId}));
    OrphanValid(s.products, s.subcategories, r.subcategories, {subId});
    r
  }

  /** The ids of the subcategories of a category. */
  function SubcategoryIds(s: Store, categoryId: nat): set<nat> {
    set c | c in s.subcategories.rows && c.val.categoryId == categoryId :: c.id
  }

  /** Deleting a category deletes its subcategories (CASCADE), which in turn clears
      the subcategory reference of their products; no other product field changes. */
  function DeleteCategory(s: Store, categoryId: nat): (r: Store)
    requires Valid(s)
    ensures Valid(r)
    ensures Ids(r.categories) == Ids(s.categories) - {categoryId}
    ensures forall c :: c in r.subcategories.rows <==> c in s.subcategories.rows && c.val.categoryId != categoryId
    ensures Ids(r.products) == Ids(s.products)
    ensures ProductsOrphaned(s.products, r.products, SubcategoryIds(s, categoryId))
    ensures r == s.(categories := r.categories, subcategories := r.subcategories, products := r.products)
  {
    var gone := SubcategoryIds(s, categoryId);
    var subs := DeleteWhere(s.subcategories, (c: Subcategory) => c.categoryId == categoryId);
    var r := s.(categories := Delete(s.categories, categoryId),
                subcategories := subs,
                products := Orphan(s.products, gone));
    forall c | c in subs.rows ensures c.id !in gone {
      forall d | d in s.subcategories.rows && d.id == c.id ensures d.val.categoryId != categoryId {
        KeyUnique(s.subcategories, c, d);
      }
    }
    OrphanValid(s.products, s.subcategories, subs, gone);
    r
  }

  lemma {:induction false} OrphanValid(products: Table<Product>, subs: Table<Subcategory>, subs': Table<Subcategory>, gone: set<nat>)
    requires WellFormed(products) && ProductsValid(products, subs)
    requires Ids(subs) - gone <= Ids(subs')
    ensures ProductsValid(Orphan(products, gone), subs')
  {
    var r := Orphan(products, gone);
    forall p | p in r.rows
      ensures p.val.subcategoryId.Some? ==> p.val.subcategoryId.value in Ids(subs')
    {
      var k :| 0 <= k < |r.rows| && r.rows[k] == p;
      assert products.rows[k] in products.rows;
      assert r.rows[k] == OrphanedRow(products.rows[k], gone);
    }
  }
}

=== FILE: start.dfy ===
/**
 * The `/start` command and the subscription check of `bot/handlers/start.py`.
 */
module Start {
  import opened Wrappers
  import opened Tables
  import opened Schema
  import opened CatalogDb

  /** The name used in greetings when the user has no username. */
  const DEFAULT_NAME: string := "пользователь"

  /** `user.username or 'пользователь'`: `None` and the empty string are falsy. */
  function DisplayName(username: Option<string>): (r: string)
    ensures r != ""
    ensures username.Some? && username.value != "" ==> r == username.value
    ensures username.None? || username.value == "" ==> r == DEFAULT_NAME
  {
    match username
    case Some(name) => if name != "" then name else DEFAULT_NAME
    case None => DEFAULT_NAME
  }

  /** The two greetings of `/start`, by the name they address. */
  datatype Greeting =
    | Registered(name: string)   // "Привет, {name}! Вы успешно зарегистрированы."
    | WelcomeBack(name: string)  // "Добро пожаловать обратно, {name}!"

  /** `start_command`: a known user is welcomed back under the username stored at
      registration; an unknown one is registered with the current username and
      greeted as registered. */
  function StartCommand(s: Store, tgId: int, username: Option<string>): (r: (Store, Greeting))
    requires Valid(s)
    ensures Valid(r.0)
    ensures r.1.WelcomeBack? <==> GetClient(s, tgId).Some?
    ensures r.1.WelcomeBack? ==> r == (s, WelcomeBack(DisplayName(GetClient(s, tgId).value.val.username)))
    ensures r.1.Registered? ==>
      && r.1 == Registered(DisplayName(username))
      && r.0 == s.(clients := r.0.clients)
      && GetClient(r.0, tgId).Some? && GetClient(r.0, tgId).value.val == Client(tgId, username)
      && |r.0.clients.rows| == |s.clients.rows| + 1
      && forall t :: t != tgId ==> GetClient(r.0, t) == GetClient(s, t)
  {
    match GetClient(s, tgId)
    case Some(client) => (s, WelcomeBack(DisplayName(client.val.username)))
    case None =>
      var (s', _) := CreateClient(s, tgId, username).value;
      assert s'.clients == Insert(s.clients, Client(tgId, username)).0;
      (s', Registered(DisplayName(username)))
  }

  /** `/start` twice: the second creates nothing and welcomes back under the name
      the first one stored, whatever the username is by then. */
  lemma {:induction false} StartIdempotent(s: Store, tgId: int, username: Option<string>, username': Option<string>)
    requires Valid(s)
    ensures var (s1, _) := StartCommand(s, tgId, username);
      var stored := GetClient(s1, tgId).value.val.username;
      && StartCommand(s1, tgId, username') == (s1, WelcomeBack(DisplayName(stored)))
      && (GetClient(s, tgId).None? ==> stored == username)
  {
  }

  // ---------------------------------------------------------------------------
  // check_subscription

  /** The statuses Telegram reports for a chat member. */
  datatype MemberStatus = Creator | Administrator | Member | Restricted | Left | Kicked

  /** The text of each status in the Bot API. */
  function StatusText(st: MemberStatus): string {
    match st
    case Creator => "creator"
    case Administrator => "administrator"
    case Member => "member"
    case Restricted => "restricted"
    case Left => "left"
    case Kicked => "kicked"
  }

  /** `check_subscription`: `lookup` is the status text `get_chat_member` returned,
      or `None` when the call raised; a failed lookup counts as not subscribed. */
  function CheckSubscription(lookup: Option<string>): (r: bool)
    ensures lookup.None? ==> !r
  {
    match lookup
    case None => false
    case Some(status) => status in ["member", "administrator", "creator"]
  }

  /** Over the statuses Telegram reports, the check holds exactly for the creator,
      the administrators and plain members; a restricted member, who is still in
      the chat, counts as not subscribed. */
  lemma {:induction false} SubscribedStatuses(st: MemberStatus)
    ensures CheckSubscription(Some(StatusText(st))) <==> st in {Creator, Administrator, Member}
  {
    match st
    case Creator =>
    case Administrator =>
    case Member =>
    case Restricted =>
      assert "restricted" != "member" && "restricted" != "administrator" && "restricted" != "creator";
    case Left =>
      assert "left" != "member" && "left" != "administrator" && "left" != "creator";
    case Kicked =>
      assert "kicked" != "member" && "kicked" != "administrator" && "kicked" != "creator";
  }
}

=== FILE: tables.dfy ===
/**
 * A relational table as the ORM sees it: rows in primary-key order, each with an
 * auto-increment `id`, plus the next value of the id sequence.
 */
module Tables {
  import opened Wrappers

  datatype Row<T> = Row(id: nat, val: T)

  /** `next` is the id the next stored row takes; ids start at 1. It moves only when
      a row is stored: a refused insert leaves it where it was, although a database
      sequence may already have handed that value out (see README, "Left out"). */
  datatype Table<T> = Table(rows: seq<Row<T>>, next: nat)

  function Empty<T>(): (t: Table<T>)
    ensures WellFormed(t) && Ids(t) == {}
  {
    Table([], 1)
  }

  /** Row `a` comes before row `b` in key order. */
  predicate IdBefore<T>(a: Row<T>, b: Row<T>) {
    a.id < b.id
  }

  /** Keys strictly increase along the rows. The trigger keeps the solver from
      pairing up every two row lookups it sees; a proof that needs the order of two
      particular rows names them with `IdBefore`. */
  ghost predicate Increasing<T>(rows: seq<Row<T>>) {
    forall i, j {:trigger IdBefore(rows[i], rows[j])} :: 0 <= i < j < |rows| ==> IdBefore(rows[i], rows[j])
  }

  /** The order of two particular rows. */
  lemma {:induction false} IncreasingAt<T>(rows: seq<Row<T>>, i: int, j: int)
    requires Increasing(rows) && 0 <= i < j < |rows|
    ensures rows[i].id < rows[j].id
  {
    assert IdBefore(rows[i], rows[j]);
  }

  /** Two rows of an increasing sequence are two different rows. */
  lemma {:induction false} IncreasingDistinct<T>(rows: seq<Row<T>>)
    requires Increasing(rows) && |rows| >= 2
    ensures rows[0] in rows && rows[1] in rows && rows[0] != rows[1]
  {
    assert IdBefore(rows[0], rows[1]);
  }

  /** Ids are positive, strictly increasing along the rows, and below the sequence value. */
  ghost predicate WellFormed<T>(t: Table<T>) {
    && Increasing(t.rows)
    && t.next > 0
    && (forall r :: r in t.rows ==> 0 < r.id < t.next)
  }

  function Ids<T>(t: Table<T>): set<nat> {
    set k | 0 <= k < |t.rows| :: t.rows[k].id
  }

  /** `Ids` is exactly the set of primary keys of the rows. */
  lemma {:induction false} RowIds<T>(t: Table<T>)
    ensures forall x :: x in t.rows ==> x.id in Ids(t)
    ensures forall id :: id in Ids(t) ==> exists x :: x in t.rows && x.id == id
  {
    forall x | x in t.rows ensures x.id in Ids(t) {
      var k :| 0 <= k < |t.rows| && t.rows[k] == x;
    }
    forall id | id in Ids(t) ensures exists x :: x in t.rows && x.id == id {
      var k :| 0 <= k < |t.rows| && t.rows[k].id == id;
      assert t.rows[k] in t.rows;
    }
  }

  /** In a well-formed table a primary key names one row only. */
  lemma {:induction false} KeyUnique<T>(t: Table<T>, a: Row<T>, b: Row<T>)
    requires WellFormed(t) && a in t.rows && b in t.rows && a.id == b.id
    ensures a == b
  {
    var i :| 0 <= i < |t.rows| && t.rows[i] == a;
    var j :| 0 <= j < |t.rows| && t.rows[j] == b;
    if i < j {
      IncreasingAt(t.rows, i, j);
      assert false;
    } else if j < i {
      IncreasingAt(t.rows, j, i);
      assert false;
    }
  }

  /** The first row satisfying `p`, in table order (`filter(...).first()`). */
  function First<T(!new)>(rows: seq<Row<T>>, p: Row<T> -> bool): (r: Option<Row<T>>)
    ensures r.Some? ==> r.value in rows && p(r.value)
    ensures r.None? <==> forall x :: x in rows ==> !p(x)
  {
    if |rows| == 0 then None
    else if p(rows[0]) then Some(rows[0])
    else First(rows[1..], p)
  }

  /** Appending a row changes the first match only when there was none before. */
  lemma {:induction false} FirstAppend<T(!new)>(rows: seq<Row<T>>, x: Row<T>, p: Row<T> -> bool)
    ensures First(rows + [x], p) == if First(rows, p).Some? then First(rows, p) else if p(x) then Some(x) else None
  {
    if |rows| > 0 {
      assert (rows + [x])[1..] == rows[1..] + [x];
      FirstAppend(rows[1..], x, p);
    }
  }

  /** The row filter "primary key equals `id`". */
  function IdIs<T>(id: int): Row<T> -> bool {
    (x: Row<T>) => x.id == id
  }

  /** The value stored under primary key `id`, if any (`objects.get(id=...)`). */
  function Get<T(!new)>(t: Table<T>, id: int): (r: Option<T>)
    ensures r.Some? <==> id in Ids(t)
    ensures r.Some? ==> Row(id as nat, r.value) in t.rows
  {
    match First(t.rows, IdIs(id))
    case Some(row) => Some(row.val)
    case None =>
      assert forall k :: 0 <= k < |t.rows| ==> t.rows[k] in t.rows;
      None
  }

  /** INSERT: the new row takes the next id and goes to the end. */
  function Insert<T>(t: Table<T>, v: T): (r: (Table<T>, nat))
    requires WellFormed(t)
    ensures WellFormed(r.0)
    ensures r.1 == t.next && r.1 !in Ids(t) && r.1 > 0
    ensures r.0.rows == t.rows + [Row(r.1, v)] && r.0.next == t.next + 1
    ensures Ids(r.0) == Ids(t) + {r.1}
  {
    var t' := Table(t.rows + [Row(t.next, v)], t.next + 1);
    assert t'.rows[|t.rows|] == Row(t.next, v);
    assert forall k :: 0 <= k < |t.rows| ==> t'.rows[k] == t.rows[k];
    (t', t.next)
  }

  /** Rows satisfying `p`, in table order (a `filter(...)` queryset). */
  function Where<T(!new)>(rows: seq<Row<T>>, p: Row<T> -> bool): (r: seq<Row<T>>)
    ensures forall x :: x in r <==> x in rows && p(x)
    ensures |r| <= |rows|
  {
    if |rows| == 0 then []
    else (if p(rows[0]) then [rows[0]] else []) + Where(rows[1..], p)
  }

  /** A filter every row passes keeps the rows as they are. */
  lemma {:induction false} WhereAll<T(!new)>(rows: seq<Row<T>>, p: Row<T> -> bool)
    requires forall x :: x in rows ==> p(x)
    ensures Where(rows, p) == rows
  {
    if |rows| > 0 {
      assert rows[0] in rows;
      WhereAll(rows[1..], p);
    }
  }

  /** Filtering keeps the rows in primary-key order. */
  lemma {:induction false} WhereIncreasing<T(!new)>(rows: seq<Row<T>>, p: Row<T> -> bool)
    requires Increasing(rows)
    ensures Increasing(Where(rows, p))
  {
    if |rows| > 0 {
      WhereIncreasing(rows[1..], p);
      var tail := Where(rows[1..], p);
      forall x | x in tail ensures rows[0].id < x.id {
        var j :| 0 <= j < |rows[1..]| && rows[1..][j] == x;
        assert rows[j + 1] == x;
        assert IdBefore(rows[0], rows[j + 1]);
      }
      var r := Where(rows, p);
      if p(rows[0]) {
        forall i, j | 0 <= i < j < |r| ensures IdBefore(r[i], r[j]) {
          assert r[j] == tail[j - 1] && r[j] in tail;
          if i > 0 {
            assert IdBefore(tail[i - 1], tail[j - 1]);
          }
        }
      }
    }
  }

  /** Values of a sequence of rows, in order. */
  function Values<T>(rows: seq<Row<T>>): (vs: seq<T>)
    ensures |vs| == |rows|
    ensures forall k :: 0 <= k < |rows| ==> vs[k] == rows[k].val
  {
    if |rows| == 0 then [] else [rows[0].val] + Values(rows[1..])
  }

  /** The row filter "value fails `p`". */
  function ValueFails<T>(p: T -> bool): Row<T> -> bool {
    (x: Row<T>) => !p(x.val)
  }

  /** DELETE ... WHERE p: the rows that fail `p` stay, in order. */
  function DeleteWhere<T(!new)>(t: Table<T>, p: T -> bool): (r: Table<T>)
    requires WellFormed(t)
    ensures WellFormed(r)
    ensures r.next == t.next
    ensures forall x :: x in r.rows <==> x in t.rows && !p(x.val)
    ensures Ids(r) <= Ids(t)
    ensures (forall x :: x in t.rows ==> !p(x.val)) ==> r == t
  {
    WhereIncreasing(t.rows, ValueFails(p));
    assert (forall x :: x in t.rows ==> !p(x.val)) ==> Where(t.rows, ValueFails(p)) == t.rows by {
      if forall x :: x in t.rows ==> !p(x.val) {
        WhereAll(t.rows, ValueFails(p));
      }
    }
    var r := Table(Where(t.rows, ValueFails(p)), t.next);
    RowIds(t);
    RowIds(r);
    r
  }

  /** The row filter "primary key differs from `id`". */
  function IdIsNot<T>(id: int): Row<T> -> bool {
    (x: Row<T>) => x.id != id
  }

  /** DELETE the row with primary key `id`; nothing happens when there is none. */
  function Delete<T(!new)>(t: Table<T>, id: int): (r: Table<T>)
    requires WellFormed(t)
    ensures WellFormed(r)
    ensures r.next == t.next
    ensures forall x :: x in r.rows <==> x in t.rows && x.id != id
    ensures Ids(r) == Ids(t) - {id}
    ensures id !in Ids(t) ==> r == t
  {
    WhereIncreasing(t.rows, IdIsNot(id));
    RowIds(t);
    assert id !in Ids(t) ==> Where(t.rows, IdIsNot(id)) == t.rows by {
      if id !in Ids(t) {
        WhereAll(t.rows, IdIsNot(id));
      }
    }
    var r := Table(Where(t.rows, IdIsNot(id)), t.next);
    RowIds(r);
    r
  }

  /** UPDATE ... SET: `f` applied to the value of every row satisfying `p`; ids and order stay. */
  function UpdateWhere<T(!new)>(t: Table<T>, p: T -> bool, f: T -> T): (r: Table<T>)
    requires WellFormed(t)
    ensures WellFormed(r)
    ensures r.next == t.next && |r.rows| == |t.rows| && Ids(r) == Ids(t)
    ensures forall k :: 0 <= k < |t.rows| ==>
      r.rows[k] == Row(t.rows[k].id, if p(t.rows[k].val) then f(t.rows[k].val) else t.rows[k].val)
  {
    var rows := seq(|t.rows|, k requires 0 <= k < |t.rows| =>
      Row(t.rows[k].id, if p(t.rows[k].val) then f(t.rows[k].val) else t.rows[k].val));
    var r := Table(rows, t.next);
    forall i, j | 0 <= i < j < |rows| ensures IdBefore(rows[i], rows[j]) {
      assert IdBefore(t.rows[i], t.rows[j]);
    }
    assert forall x :: x in rows ==> exists k :: 0 <= k < |t.rows| && x == rows[k];
    assert forall k :: 0 <= k < |t.rows| ==> rows[k].id == t.rows[k].id && t.rows[k] in t.rows;
    assert Ids(r) == Ids(t);
    r
  }

  /** UPDATE of the row with primary key `id` to value `v`; the other rows stay. */
  function Put<T>(t: Table<T>, id: nat, v: T): (r: Table<T>)
    requires WellFormed(t)
    ensures WellFormed(r)
    ensures r.next == t.next && |r.rows| == |t.rows| && Ids(r) == Ids(t)
    ensures forall k :: 0 <= k < |t.rows| ==>
      r.rows[k] == if t.rows[k].id == id then Row(id, v) else t.rows[k]
  {
    var rows := seq(|t.rows|, k requires 0 <= k < |t.rows| =>
      if t.rows[k].id == id then Row(id, v) else t.rows[k]);
    var r := Table(rows, t.next);
    forall i, j | 0 <= i < j < |rows| ensures IdBefore(rows[i], rows[j]) {
      assert IdBefore(t.rows[i], t.rows[j]);
    }
    assert forall x :: x in rows ==> exists k :: 0 <= k < |t.rows| && x == rows[k];
    assert forall k :: 0 <= k < |t.rows| ==> rows[k].id == t.rows[k].id && t.rows[k] in t.rows;
    assert Ids(r) == Ids(t);
    r
  }

  /** The rows after `Put`: the old rows with another key, and the updated one. */
  lemma {:induction false} PutRows<T>(t: Table<T>, id: nat, v: T)
    requires WellFormed(t) && id in Ids(t)
    ensures forall x :: x in Put(t, id, v).rows <==> (x in t.rows && x.id != id) || x == Row(id, v)
  {
    var r := Put(t, id, v);
    forall x | x in r.rows ensures (x in t.rows && x.id != id) || x == Row(id, v) {
      var k :| 0 <= k < |r.rows| && r.rows[k] == x;
      assert t.rows[k] in t.rows;
    }
    forall x | (x in t.rows && x.id != id) || x == Row(id, v) ensures x in r.rows {
      if x in t.rows && x.id != id {
        var k :| 0 <= k < |t.rows| && t.rows[k] == x;
        assert r.rows[k] == x;
      } else {
        var k :| 0 <= k < |t.rows| && t.rows[k].id == id;
        assert r.rows[k] == x;
      }
    }
  }

  /** The values `vs` as rows numbered consecutively from `from`. */
  function Numbered<T>(from: nat, vs: seq<T>): (r: seq<Row<T>>)
    ensures |r| == |vs|
    ensures forall k :: 0 <= k < |vs| ==> r[k] == Row(from + k, vs[k])
  {
    seq(|vs|, k requires 0 <= k < |vs| => Row(from + k, vs[k]))
  }

  /** Numbering the values and reading them back gives the values. */
  lemma {:induction false} NumberedValues<T>(from: nat, vs: seq<T>)
    ensures Values(Numbered(from, vs)) == vs
  {
    var r := Values(Numbered(from, vs));
    assert forall k :: 0 <= k < |vs| ==> r[k] == vs[k];
  }

  /** A bulk INSERT: the values take consecutive ids from `next`, in order, after the
      rows already there. */
  function InsertAll<T>(t: Table<T>, vs: seq<T>): (r: Table<T>)
    requires WellFormed(t)
    ensures WellFormed(r)
    ensures r.rows == t.rows + Numbered(t.next, vs) && r.next == t.next + |vs|
    decreases |vs|
  {
    if |vs| == 0 then
      assert t.rows + Numbered(t.next, vs) == t.rows;
      t
    else
      var (t1, id) := Insert(t, vs[0]);
      NumberedCons(t, vs);
      InsertAll(t1, vs[1..])
  }

  /** The first value takes the next id, and the rest follow. */
  lemma {:induction false} NumberedCons<T>(t: Table<T>, vs: seq<T>)
    requires |vs| > 0
    ensures t.rows + [Row(t.next, vs[0])] + Numbered(t.next + 1, vs[1..]) == t.rows + Numbered(t.next, vs)
  {
    var head, tail := [Row(t.next, vs[0])], Numbered(t.next + 1, vs[1..]);
    var a, n := head + tail, Numbered(t.next, vs);
    assert |a| == |n|;
    forall k | 0 <= k < |vs| ensures a[k] == n[k] {
      if k > 0 {
        assert a[k] == tail[k - 1];
      }
    }
    assert a == n;
    assert t.rows + head + tail == t.rows + a;
  }

  /** Filtering distributes over concatenation. */
  lemma {:induction false} WhereConcat<T(!new)>(a: seq<Row<T>>, b: seq<Row<T>>, p: Row<T> -> bool)
    ensures Where(a + b, p) == Where(a, p) + Where(b, p)
  {
    if |a| == 0 {
      assert a + b == b;
    } else {
      assert (a + b)[1..] == a[1..] + b;
      WhereConcat(a[1..], b, p);
    }
  }

  /** A filter no row passes selects nothing. */
  lemma {:induction false} WhereNone<T(!new)>(rows: seq<Row<T>>, p: Row<T> -> bool)
    requires forall x :: x in rows ==> !p(x)
    ensures Where(rows, p) == []
  {
    if |rows| > 0 {
      assert rows[0] in rows;
      WhereNone(rows[1..], p);
    }
  }

  /** Rows no filter passes, followed by rows it all passes: the filter selects the latter. */
  lemma {:induction false} WhereTail<T(!new)>(a: seq<Row<T>>, b: seq<Row<T>>, p: Row<T> -> bool)
    requires forall x :: x in a ==> !p(x)
    requires forall x :: x in b ==> p(x)
    ensures Where(a + b, p) == b
  {
    WhereConcat(a, b, p);
    WhereNone(a, p);
    WhereAll(b, p);
    assert [] + b == b;
  }
}

=== FILE: wrappers.dfy ===
/** Failure-carrying result types shared by every module of the model. */
module Wrappers {

  /** A value that may be absent, the model of Python's `None`. */
  datatype Option<+T> = None | Some(value: T)

  /** Either a value or the error that stopped the computation. */
  datatype Result<+T, +E> = Ok(value: T) | Err(error: E)
}
